=== FILE: README.md ===
# MLB community site — handler logic in Dafny

The site is a set of serverless HTTP handlers over a Supabase backend, plus a small
Node development server. This project models the decision logic underneath the
handlers and proves properties of it:

- the friend-relationship state machine: send a request, answer it, list the caller's
  friends and their incoming and outgoing requests, and search the directory with a
  relationship status for each match;
- the notification digest: pending friend requests, likes and comments on the
  caller's posts, merged and sorted newest first, cut to a limit and counted by kind;
- the content rules: the like toggle and its counter, comments, chat messages, post
  deletion with its cascade, the paginated feed with `liked_by_me` and `hasMore`, and
  one user's posts;
- compositions: saving one (hero-list normalisation), the visibility filter, and
  sharing one with members (de-duplication and the owner check);
- profiles: the caller's own profile view and its metadata merge on save, the public
  profile looked up by id or by name, the member list, and the avatar upload (the
  `data:` URL check, a restricted form of section 3 of RFC 2397, the size limit, the
  file-name sanitising and the storage path);
- the development server: Cookie-header parsing, the in-memory session table with
  login, logout and the expiry check, the URL rewrite table and the content-type table.

Every store (Supabase table, the auth user directory, the session object) is an
immutable sequence or map. A handler is a pure function from the request, the caller
and the stores it reads to a `Result`: either the error kind the handler answers with
(`Base.Error`, mapped to the HTTP status by `Base.StatusCode`) or its reply together
with the stores it writes. A read that can fail is a `Table` (`Rows` or `Broken`).
The caller is the already-decoded user id from the bearer token, or none.
Timestamps are integers, and anything random (new row ids, session ids) is a parameter.

Modules follow the source: `Friends` holds the state machine once, and
`FriendHandlers` holds the wrappers for each copy of the friend handlers.
`Notifications`, `Media` and `MediaHandlers`, `Chat`, `Compositions`, `AuthProfile`,
`Users`, `Avatar` and `DevServer` model one handler family each. `Base`, `Json`,
`Text`, `Sorting` and `Directory` hold the shared vocabulary:

- `Base`: results and error kinds;
- `Json`: request-body values and JavaScript truthiness;
- `Text`: `trim`, `toLowerCase`, `split`, `includes` and the UTF-16 length JavaScript reports;
- `Sorting`: the stable newest-first sort and prefixes;
- `Directory`: accounts and the derived display names.

## Model

| member | source | states |
|---|---|---|
| Directory.NameOr | api_handlers/friends.js:100-104 | the derived name is the metadata username when truthy, else the e-mail's local part when truthy, else the fallback |
| Directory.DisplayName | api_handlers/friends.js:103 | the display name is never empty (it falls back to 'Membre') |
| Directory.DisplayNameFromLookupName | api/users/index.js:55-74 | the name shown and the name a lookup compares with differ only when neither a username nor an e-mail local part exists ('Membre' versus '') |
| Directory.FindById | api/users/index.js:43-48 | the account found carries the id asked for, and one is found exactly when the directory knows the id |
| Directory.FindByName | api/users/index.js:55-63 | the first account whose derived name equals the given name ignoring case; none exactly when no account matches |
| Directory.BuildActorMapResolves | api_handlers/notifications.js:21-33 | the actor map holds exactly the wanted ids the directory knows, each mapped to that account's id, e-mail and display name |
| Text.ClassifyTableError | api_handlers/friends.js:229-236 | a failed store call is "table missing" (400) exactly when the message names the table (`friend_requests` here, `composition_members` in api/compositions/share.js) and says it does not exist; every other failure is a store failure (500) |
| Text.Utf16Length | api_handlers/chat/send.js:59 | the length JavaScript reports lies between the number of characters and twice that |
| Text.Utf16LengthExtremes | api_handlers/chat/send.js:59 | that length equals the number of characters exactly when every character is in the Basic Multilingual Plane, and twice it exactly when none is |
| Text.Utf16LengthAppend | api_handlers/chat/send.js:59 | the length of a concatenation is the sum of the lengths |
| Text.TrimUtf16Length | api_legacy/media/comment.js:65 | trimming never makes a string longer |
| Friends.FirstPairIndex | api_handlers/friends.js:223-227 | the row the pair query returns is the first row linking the two users in either direction; there is none exactly when no row links them |
| Friends.RequestAsWritten | api_handlers/friends.js:223-264 | as the handlers write it: a failed read is classified; if the first pair row is accepted the answer is "already friends", if pending "already pending"; otherwise exactly one pending row from caller to target is appended and nothing else changes |
| Friends.Request | api_handlers/friends.js:238-264 | the intended check: an accepted row for the pair anywhere refuses with "already friends", a pending one with "already pending"; otherwise exactly one pending row from caller to target is appended |
| Friends.RequestPreservesValid | api_handlers/friends.js:248-264 | on a store with unique ids, no self-rows and at most one pending-or-accepted row per pair, a successful request with a fresh id keeps all three |
| Friends.RequestBlocksRepeat | api_handlers/friends.js:238-246 | after a successful request, a second request between the same two users, in either direction, is refused as already pending |
| Friends.RequestAsWrittenAddsSecondActiveRow | api_handlers/friends.js:223-246 | behind a declined first row for the pair the first-row check admits a request although a pending row already exists, leaving two pending rows for one pair |
| Friends.RequestAsWrittenRepeats | api_legacy/friends/request.js:74-115 | behind a declined first row the same request succeeds twice in a row |
| Friends.ParseDecision | api_handlers/friends.js:268-274 | a missing request id or decision is a missing field; a decision other than `accept`/`decline` is invalid; a truthy id with `accept` or `decline` parses to Accept or Decline respectively, keeping the id |
| Friends.FindRequest | api_handlers/friends.js:276-284 | the row the id lookup returns is the first row with that id; there is none exactly when no row carries it |
| Friends.Stamp | api_handlers/friends.js:296-299 | the update touches only rows with the id, setting their status and update time; every row keeps its id and position |
| Friends.ApplyDecision | api_handlers/friends.js:276-306 | unknown id → not found, caller not the addressee → forbidden, row not pending → already handled, in that order; on success the status is accepted for accept and declined for decline, and only that row changes |
| Friends.RespondTwiceFails | api_handlers/friends.js:290-299 | once a request is answered, any second answer to it is refused as already handled |
| Friends.RespondPreservesValid | api_handlers/friends.js:294-306 | answering a request keeps unique ids, no self-rows and at most one active row per pair |
| Friends.OrderByUpdatedDesc | api_handlers/friends.js:43-48 | the ordered rows are a permutation of the accepted rows read |
| Friends.OrderByUpdatedDescOrdered | api_handlers/friends.js:43-48 | descending order with never-updated rows first: after a row with an update time, every later row has one, and it is no later |
| Friends.OrderByUpdatedDescIsUpdatedDesc | api_handlers/friends.js:43-48 | the whole accepted read is in that order: never-updated rows first, then non-increasing update time |
| Friends.FriendsOf | api_handlers/friends.js:108-113 | every friend is the resolved other side of an accepted link, and every link whose other side resolves yields its friend |
| Friends.ResolvedLinks | api_handlers/friends.js:108-113 | exactly the links whose other side the actor map resolves, and no more of them than there are links |
| Friends.ResolvedLinksOrdered | api_handlers/friends.js:43-113 | dropping the unresolved links keeps the update-time order of the accepted read |
| Friends.FriendsOfFollowsLinks | api_handlers/friends.js:108-113 | the friends list the resolved links in their order: as many friends as resolved links, the i-th friend being the actor on the other side of the i-th link |
| Friends.IncomingOf | api_handlers/friends.js:115-121 | every incoming entry is a link with its resolved sender, and every link whose sender resolves yields its entry; links read newest first give entries newest first |
| Friends.OutgoingOf | api_handlers/friends.js:123-129 | every outgoing entry is a link with its resolved addressee, and every link whose addressee resolves yields its entry; links read newest first give entries newest first |
| Friends.List | api_handlers/friends.js:41-130 | a failed read is classified as table missing or store failure; a readable table yields the friends of the accepted read, the incoming entries of the pending rows addressed to the caller and the outgoing entries of those the caller sent, each resolved through one actor map for everyone the reads mention |
| Friends.ListOrder | api_handlers/friends.js:43-130 | the friends follow their accepted rows (never updated first, then latest update first), the i-th friend being the directory's actor for the other side of the i-th row; incoming and outgoing requests are newest first |
| Friends.LinksMembers | api_handlers/friends.js:43-81 | the three reads select exactly the accepted rows involving the caller, the pending rows addressed to the caller and the pending rows the caller sent |
| Friends.ListFriends | api_handlers/friends.js:43-113 | a user is listed as a friend exactly when an accepted row links them to the caller and the directory knows them |
| Friends.ListIncoming | api_handlers/friends.js:59-69 | incoming entries are exactly the caller's pending received rows whose sender the directory knows |
| Friends.ListOutgoing | api_handlers/friends.js:71-81 | outgoing entries are exactly the caller's pending sent rows whose addressee the directory knows |
| Friends.AcceptedExcludesPending | api_handlers/friends.js:43-81 | under the one-active-row invariant, no pending row links a pair that has an accepted row |
| Friends.AcceptedPairListing | api_handlers/friends.js:108-129 | when an accepted row links u and v, v is u's friend (if known) and appears in neither of u's request lists |
| Friends.AcceptThenList | api_handlers/friends.js:294-306 | after the addressee accepts, each side lists the other as a friend (when the directory knows them) and in neither request list |
| Friends.Matching | api_handlers/friends.js:154-164 | the matches are exactly the other accounts whose lower-cased e-mail or display name contains the query, in directory order |
| Friends.Candidates | api_handlers/friends.js:165 | the candidates are the first min(20, matches) matches |
| Friends.Relevant | api_handlers/friends.js:173-178 | every row of the relationship read involves the caller |
| Friends.LastPairRow | api_handlers/friends.js:185-199 | the last row linking the pair, if any; none exactly when no row links them |
| Friends.Search | api_handlers/friends.js:143-207 | a normalised query shorter than 2 UTF-16 code units is refused; no candidates answers an empty list without reading relationships; a failed read is a store failure, a readable table always answers; one hit per candidate, in order, never the caller, at most 20 |
| Friends.StatusMapLast | api_handlers/friends.js:185-199 | the status map's entry for a user is the relation of the last row for that pair (later rows overwrite earlier ones) |
| Friends.RelevantKeepsLast | api_handlers/friends.js:173-178 | restricting the store to the candidate rows keeps the last row of each candidate's pair |
| Friends.SearchRelations | api_handlers/friends.js:185-204 | each hit's relation is that of the last row for the pair: accepted → friends, pending → outgoing or incoming by direction, declined echoed, no row → none |
| FriendHandlers.HandleRequest | api_handlers/friends.js:209-264 | missing target → 400, self-target → 400 before any store access, unknown target → 404; for a known other target the answer is exactly the pair rule `Friends.Request` (already friends, already pending, or one pending row appended) |
| FriendHandlers.Decide | api_handlers/friends.js:276-306 | a non-string request id matches no row (404); a string id gets exactly `Friends.ApplyDecision`'s answer: 404, 403, already handled, or the stamped row |
| FriendHandlers.HandleRespond | api_handlers/friends.js:267-307 | required fields, then the decision check; a parsed string id with `accept`/`decline` gets exactly `Friends.ApplyDecision` with that decision, a non-string id 404; a success means accepted exactly when the decision is `accept` |
| FriendHandlers.Handle | api_handlers/friends.js:309-363 | preflight; no token → 401; unknown caller → 401; other verbs → 405; GET answers exactly `Friends.Search` when `mode` is search or the query is non-empty, otherwise exactly `Friends.List`; POST answers exactly `HandleRequest` or `HandleRespond` by `action`, other actions 400 |
| FriendHandlers.RequestEndpoint | api_legacy/friends/request.js:25-115 | POST only; a missing `user_id` → 400 and self-target → 400 come before the caller lookup, an unknown caller → 401 after it; for a known caller the answer is exactly `HandleRequest` |
| FriendHandlers.RespondEndpoint | api_handlers/friends/respond.js:25-99 | POST only; the `request_id`/`action` checks (400) come before the caller lookup (401); for a known caller the answer is exactly `HandleRespond` with `action` as the decision |
| FriendHandlers.SearchEndpoint | api_handlers/friends/search.js:25-115 | GET only; a query shorter than 2 UTF-16 code units is refused before the caller lookup, an unknown caller after it; for a known caller the answer is the search's hits or its error; at most 20 hits |
| FriendHandlers.ListEndpoint | api/friends/index.js:25-144 | GET only; no token → 401, unknown caller → 401; for a known caller the answer is exactly `Friends.List` |
| FriendHandlers.ListEndpointsAgree | api/friends/index.js:51-144 | the standalone list endpoint answers exactly as the combined endpoint's list |
| FriendHandlers.SearchEndpointsAgree | api_handlers/friends/search.js:40-115 | for a non-empty query the standalone search answers exactly as the combined endpoint's search |
| FriendHandlers.RequestEndpointsAgree | api_legacy/friends/request.js:51-115 | for a known caller the standalone request endpoint answers exactly as the combined endpoint's request action |
| FriendHandlers.RespondEndpointsAgree | api_handlers/friends/respond.js:51-99 | the standalone endpoint's `action` plays the role of the combined endpoint's `decision`, with the same answers |
| FriendHandlers.RequestCheckOrderDiffers | api_legacy/friends/request.js:51-67 | the two request endpoints check in different orders: for an unknown caller without `user_id`, one answers 401 and the other 400 |
| Notifications.ClampLimit | api_handlers/notifications.js:71 | the limit is the given one clamped to [5, 100], 40 when absent |
| Notifications.UsernameFor | api_handlers/notifications.js:35-38 | a stored name wins, then the directory's name, then 'Membre'; never empty |
| Notifications.RecentPosts | api_handlers/notifications.js:74-79 | at most 50 of the caller's own posts, newest first; all of them when the caller has at most 50 |
| Notifications.RecentPostsAreNewest | api_handlers/notifications.js:74-79 | a post of the caller's that is not read is no newer than any post read |
| Notifications.RecentPostIds | api_handlers/notifications.js:74-84 | the ids of exactly the posts read; only ids of the caller's own posts; none when the caller has no posts |
| Notifications.RecentPostIdsEmpty | api_handlers/notifications.js:85-91 | the caller has recent post ids exactly when they have posts at all |
| Notifications.LikesOn | api_handlers/notifications.js:91-96 | exactly the likes on the given posts |
| Notifications.CommentsOn | api_handlers/notifications.js:103-108 | exactly the comments on the given posts |
| Notifications.PendingTo | api_handlers/notifications.js:120-125 | exactly the pending requests addressed to the caller |
| Notifications.Read | api_handlers/notifications.js:74-130 | failed post or request reads are store failures, and so are failed like or comment reads when the caller has posts; otherwise the read succeeds, with the pending requests addressed to the caller newest first and, when the caller has posts, the newest 50 likes and the newest 50 comments on the posts read |
| Notifications.ReadKeepsNewest | api_handlers/notifications.js:86-130 | the requests are newest first; a like or comment on a post read that is left out is no newer than any like or comment kept |
| Notifications.NoPostsNoReactions | api_handlers/notifications.js:91-118 | without posts the likes and comments tables do not affect the answer, and no like or comment is read |
| Notifications.RequestItems | api_handlers/notifications.js:147-157 | one friend-request item per pending request, in order, named via the actor map |
| Notifications.LikeItems | api_handlers/notifications.js:159-171 | exactly the likes by someone other than the caller, as like items |
| Notifications.CommentItems | api_handlers/notifications.js:173-186 | exactly the comments by someone other than the caller, as comment items preferring the stored name |
| Notifications.CandidatesComplete | api_handlers/notifications.js:145-186 | every pending request, every other user's like and every other user's comment becomes an item |
| Notifications.ActorNames | api_handlers/notifications.js:132-143 | a referenced actor known to the directory is named by their display name, an unknown one 'Membre' |
| Notifications.CountsPartition | api_handlers/notifications.js:192-197 | the three per-kind counts add up to the number of items |
| Notifications.Summarize | api_handlers/notifications.js:188-197 | the items are the first min(limit, n) of the stable newest-first sort; total is their number and each per-kind count is the number of items of that kind, the three adding up to the total |
| Notifications.TiesKeepMergeOrder | api_handlers/notifications.js:145-190 | items with equal timestamps keep the merge order (requests, likes, comments, each in read order): those the limit keeps come first and those it cuts follow; uncut, the digest holds all of them in that order |
| Notifications.NoOwnActivity | api_handlers/notifications.js:161-175 | no delivered like or comment item is the caller's own |
| Notifications.Notify | api_handlers/notifications.js:45-197 | preflight, 405 for non-GET, 401 without token or account; for a known caller the answer is the read's error or the digest of the candidates built from the reads, cut to the clamped limit; a digest has at most the clamped limit of items, newest first |
| Notifications.NotifyIsNewestOfReads | api_handlers/notifications.js:45-197 | when the reads succeed the digest holds min(limit, candidates) items taken from the candidates, newest first, and a candidate left out is no newer than any item kept |
| Notifications.DigestIsNewest | api_handlers/notifications.js:188-190 | the cut keeps candidates only, newest first, and drops none newer than one it keeps |
| Sorting.SortDescSorted | api_handlers/notifications.js:188 | the sort yields non-increasing timestamps |
| Sorting.SortDescStable | api_handlers/notifications.js:188 | the sort keeps the relative order of items with equal timestamps |
| Media.FindPost | api/media/like.js:70-78 | the post found carries the id; none exactly when no post does |
| Media.ExistingLike | api/media/like.js:80-85 | the existing like is found exactly when the caller has one like on the post, and it is that like |
| Media.DropLike | api/media/like.js:88-92 | exactly the likes with another id remain |
| Media.SetLikeCount | api/media/like.js:104-109 | only the named post's counter changes |
| Media.ToggleLike | api/media/like.js:60-119 | missing id → 400, unknown post → 404, an existing post always toggles; with a like: exactly that like removed, count max(0, c-1), liked false; without: exactly one like appended, count c+1, liked true; comments untouched |
| Media.DropLikeOnly | api/media/like.js:87-95 | removing the caller's only like of a post leaves none of theirs on it |
| Media.ToggleTwiceRestores | api/media/like.js:87-119 | from a consistent state, two toggles restore the caller's like membership and the counter |
| Media.CommentText | api_legacy/media/comment.js:60-67 | blank after trimming → 400, trimmed text longer than 500 UTF-16 code units → 400; a string that is not blank and at most 500 code units once trimmed is accepted as its trimmed text |
| Media.PostComment | api_legacy/media/comment.js:74-118 | unresolved caller → 401, unknown post → 404; for a resolved caller and an existing post it succeeds exactly when a name can be derived; the stored comment carries the caller, the derived name and the text; the comment count becomes (old or 0) + 1 on that post alone; likes untouched |
| Media.AddComment | api_legacy/media/comment.js:60-118 | the full comment rule: field checks, the length limit on the trimmed text in UTF-16 code units, then for acceptable text exactly `PostComment` (401 for an unresolved caller, 404 for an unknown post, success when a name can be derived), storing the trimmed comment and incrementing that post's counter alone |
| Media.SetCommentCount | api_legacy/media/comment.js:109-118 | only the named post's comment counter changes |
| Media.CommentLengthBoundary | api_legacy/media/comment.js:65-67 | exactly 500 UTF-16 code units are accepted, 501 refused |
| Media.CommentLengthCountsCodeUnits | api_legacy/media/comment.js:65-67 | 300 characters outside the Basic Multilingual Plane are 600 code units and are refused |
| Media.StoredCommentIsTrimmed | api_legacy/media/comment.js:100 | the stored content is already trimmed: trimming it again changes nothing |
| Media.DeletePost | api_handlers/media/delete.js:60-90 | missing id → 400, unknown → 404, not the owner → 403 with nothing deleted, the owner always succeeds; on success exactly the post, its likes and its comments are gone and the file path is returned when there is one |
| Media.DeleteLeavesNoOrphans | api_handlers/media/delete.js:88-90 | after a delete no like or comment refers to the deleted post |
| Media.FeedLimit | api_legacy/media/feed.js:38 | the page size is min(given or 10, 50) |
| Media.FeedOffset | api_legacy/media/feed.js:39 | the offset is max(given or 0, 0) |
| Media.Window | api_legacy/media/feed.js:41-45 | the window is the rows at offset .. offset+limit-1 that exist |
| Media.Flagged | api_legacy/media/feed.js:65-68 | each entry is its post unchanged, in order, with the liked flag |
| Media.Feed | api_legacy/media/feed.js:38-73 | the entries are the window's posts in order; `liked_by_me` holds exactly when the caller liked the post, false for anonymous callers; hasMore holds exactly when offset + limit < count |
| Media.FeedKeepsPosts | api_legacy/media/feed.js:65-68 | every entry's post is a stored post, unchanged |
| Media.WindowNext | api_legacy/media/feed.js:41-45 | consecutive windows join up with no gap or overlap |
| Media.FeedNextPage | api_legacy/media/feed.js:73 | offset + limit < count exactly when the next page is not empty |
| Media.FeedWindowAt | api_legacy/media/feed.js:41-45 | a page is the window of the newest-first posts at its offset |
| Media.FeedHasMore | api_legacy/media/feed.js:73 | `hasMore` says exactly that the next page is not empty |
| Media.PostsOf | api_handlers/media/user.js:52-57 | exactly the posts of the user |
| Media.UserPosts | api_handlers/media/user.js:20-61 | neither id nor name → 400, unknown name → 404; once the owner is known a failed read is 500 and a readable one answers the owner's posts newest first, the first min(limit or 6, 12) |
| Media.UserPostsTake | api_handlers/media/user.js:50 | the count asked for is min(limit or 6, 12) |
| Media.NewestPosts | api_handlers/media/user.js:52-57 | at most the count asked for of the owner's stored posts, newest first |
| Media.UserPostsIsNewest | api_handlers/media/user.js:52-57 | an owner's post missing from the answer is no newer than any post in it |
| MediaHandlers.LikeEndpoint | api/media/like.js:40-119 | POST only, 401 without token; a signed-in POST answers exactly `Media.ToggleLike`, its errors included |
| MediaHandlers.CommentEndpoint | api_legacy/media/comment.js:40-118 | POST only, 401 without token, field checks before any lookup; with a token the answer is the comment rule's stored comment and count, or its error |
| MediaHandlers.DeleteEndpoint | api_handlers/media/delete.js:40-92 | POST only, 401 without token; with a token the answer is the delete rule's result or its error |
| MediaHandlers.FeedEndpoint | api_legacy/media/feed.js:24-73 | GET only; a readable posts table answers exactly the feed page |
| MediaHandlers.FeedPostsIndependentOfCaller | api_legacy/media/feed.js:41-68 | anonymous and signed-in callers see the same posts in the same order |
| MediaHandlers.UserPostsEndpoint | api_handlers/media/user.js:9-61 | GET only; the answer is the user-posts rule's posts or its error; neither id nor name → 400; at most 12 posts |
| Chat.Send | api_handlers/chat/send.js:38-75 | empty or blank → 400; over 500 UTF-16 code units counted before trimming → 400; the stored message is the trimmed text with the caller, e-mail and derived name, appended to the messages |
| Chat.SendEndpoint | api_handlers/chat/send.js:8-92 | preflight, POST only, 401 without token or account; for a known caller the answer is the send rule's stored messages and message, or its error |
| Chat.ResendStoresSameText | api_handlers/chat/send.js:55-71 | sending the stored text again stores the same text |
| Chat.LimitCountsSurroundingSpace | api_handlers/chat/send.js:59-61 | a message of exactly 500 code units plus one trailing space is refused although its trimmed text fits |
| Compositions.HeroCandidate | api/compositions/index.js:81-88 | a hero survives exactly when name and role are truthy and non-empty after trimming, and the kept hero is the trimmed pair |
| Compositions.CleanHeroes | api/compositions/index.js:81-87 | the surviving heroes, all trimmed and non-empty, each coming from some input hero |
| Compositions.NormalizeHeroes | api/compositions/index.js:81-88 | the first min(5, survivors) survivors in order |
| Compositions.HeroRoundTrip | api/compositions/index.js:81-88 | a stored hero sent back survives unchanged |
| Compositions.CleanStoredHeroes | api/compositions/index.js:81-87 | a stored hero list sent back survives whole |
| Compositions.NormalizeIdempotent | api/compositions/index.js:81-88 | normalising a normalised list sent back gives the same list |
| Compositions.Save | api/compositions/index.js:73-108 | a missing or blank name → 400, non-array heroes → 400, no hero surviving normalisation → 400, and otherwise success; the stored composition has the trimmed name, the normalised heroes, `is_shared` as a boolean, the caller as owner and the derived owner name |
| Compositions.VisibleOf | api/compositions/index.js:42 | exactly the compositions the caller owns or that are shared |
| Compositions.ListVisible | api/compositions/index.js:37-58 | a readable table always answers, with exactly the visible compositions, newest first; a failed read is a store failure |
| Compositions.SaveThenList | api/compositions/index.js:37-108 | after a save the owner sees the composition, and others see it exactly when it is shared |
| Compositions.CompositionsEndpoint | api/compositions/index.js:8-125 | preflight; 401 without token or account; 405 for other verbs; for a known caller GET answers exactly the visible listing and POST exactly the save rule's result or its error |
| Compositions.MemberIds | api/compositions/share.js:74 | exactly the string ids that are not blank |
| Compositions.Dedupe | api/compositions/share.js:74 | the same ids with no duplicates |
| Compositions.DedupeIsFirstOccurrences | api/compositions/share.js:74 | the de-duplication keeps exactly the first occurrence of each id, in order |
| Compositions.LinksFor | api/compositions/share.js:76-79 | one link per member, in order, each carrying the composition id |
| Compositions.LinksForMembers | api/compositions/share.js:76-79 | with distinct members, the links are distinct and link exactly those members |
| Compositions.MarkShared | api/compositions/share.js:94-97 | only the named composition becomes shared |
| Compositions.Share | api/compositions/share.js:46-97 | missing id or empty member list → 400; a non-string or unknown id → 404, a non-owner → 403, a failed insert → its classified error, all with nothing written; the owner's share with a successful insert succeeds, adding the links for the unique members and marking the composition shared |
| Compositions.ShareLinksEachMemberOnce | api/compositions/share.js:74-79 | each distinct non-blank member is linked exactly once |
| Compositions.ShareMakesVisible | api/compositions/share.js:94-97 | after a share every caller sees the composition |
| Compositions.ShareEndpoint | api/compositions/share.js:8-29 | POST only, checked before the caller; 401 without token; with a token the answer is the share rule's result or its error |
| AuthProfile.ViewOf | api/auth/profile.js:43-54 | absent username, bio and avatar read as '' and absent lanes as []; present ones as stored |
| AuthProfile.Merge | api/auth/profile.js:104-109 | a truthy username replaces, any string bio replaces, a truthy avatar replaces, an array of lanes replaces cut to 2; everything else keeps the prior value |
| AuthProfile.Apply | api/auth/profile.js:104-109 | the saved metadata reads back each string field as merged (username, bio, avatar URL) and the merged lanes |
| AuthProfile.EmptySaveKeepsView | api/auth/profile.js:104-109 | saving an empty body leaves the profile view unchanged |
| AuthProfile.MergeIdempotent | api/auth/profile.js:104-109 | saving the same body twice stores what saving it once stores |
| AuthProfile.SaveThenView | api/auth/profile.js:43-109 | after a save the view shows each field the body set and the prior value of the others |
| AuthProfile.PayloadFor | api/auth/profile.js:104-121 | the e-mail is sent exactly when truthy and different from the current one; the password exactly when truthy |
| AuthProfile.CurrentEmailNotResent | api/auth/profile.js:115-117 | re-sending the current e-mail, or none, never asks for an e-mail change |
| AuthProfile.ProfileEndpoint | api/auth/profile.js:8-151 | preflight; 405 for other verbs; 401 without token or account; GET answers exactly the view of the caller's account; POST answers the update payload for that account unless the provider refuses it (400) |
| Users.PublicProfileOf | api_legacy/users/profile.js:52-60 | the username falls back to 'Membre' and bio and avatar to '' |
| Users.LookupAsWritten | api/users/index.js:43-63 | as written: by id when given, otherwise by the name `String(username)`, even with no username |
| Users.Lookup | api_legacy/users/profile.js:16-49 | neither id nor name → 400; an id takes precedence; otherwise the first account whose derived name matches ignoring case; no match → 404 |
| Users.LookupAsWrittenAgrees | api/users/index.js:43-63 | with an id or a name given, the written lookup is the intended one |
| Users.ProfileFlagAloneFindsUndefined | api/users/index.js:30-63 | `?profile=1` alone returns an account named "Undefined" where the intended lookup answers 400 |
| Users.ListUsers | api/users/index.js:174-183 | every account's entry, in order, the caller's own only with `includeSelf` |
| Users.IncludeSelfOnlyAddsCaller | api/users/index.js:174-176 | removing the caller's entries from the `includeSelf` list gives the default list |
| Users.UsersEndpoint | api/users/index.js:25-185 | GET in profile mode is the public-profile lookup; POST in avatar mode is the avatar upload; other non-GET → 405; a plain GET lists for a known caller |
| Users.LegacyProfileEndpoint | api_legacy/users/profile.js:8-60 | GET only; neither id nor name → 400; a profile found by id carries that id |
| Users.ProfileEndpointsAgree | api_legacy/users/profile.js:16-60 | a profile query answers the same through both endpoints |
| Users.AvatarBranchAgrees | api/users/index.js:77-141 | the directory endpoint's avatar branch answers exactly as the avatar endpoint |
| Avatar.ParseDataUrl | api/users/avatar.js:63-66 | an accepted URL is `data:image/<png, jpeg, jpg or webp>;base64,<non-empty single-line payload>` and renders back to the input |
| Avatar.ParseRender | api/users/avatar.js:63-66 | every URL of that shape is accepted, with the same subtype and payload |
| Avatar.Extension | api/users/avatar.js:68-76 | the extension is png, jpeg or webp; `jpg` becomes `jpeg` and the others keep their name |
| Avatar.Sanitize | api/users/avatar.js:77 | one safe character per UTF-16 code unit of the name, and the name itself when it is all safe |
| Avatar.SanitizeChar | api/users/avatar.js:77 | a safe character is kept, any other becomes one underscore per UTF-16 code unit |
| Avatar.SanitizeAppend | api/users/avatar.js:77 | the replacement works character by character: sanitising a concatenation concatenates the results |
| Avatar.SanitizeBmp | api/users/avatar.js:77 | inside the Basic Multilingual Plane the length is kept and each character is kept exactly when safe, else replaced by an underscore |
| Avatar.SanitizeAstral | api/users/avatar.js:77 | a character outside the Basic Multilingual Plane becomes two underscores |
| Avatar.SanitizeIdempotent | api/users/avatar.js:77 | sanitising twice changes nothing more |
| Avatar.SafeName | api/users/avatar.js:77 | a falsy file name becomes 'avatar'; a string is sanitised |
| Avatar.Prepare | api/users/avatar.js:58-96 | missing URL → 400, wrong format → 400, over 2 MiB → 400, a bad file name → its error, a failed upload → 500, and otherwise success; an upload carries the normalised extension and path |
| Avatar.SizeLimitBoundary | api/users/avatar.js:72-74 | exactly 2·1024·1024 bytes are accepted, one more refused |
| Avatar.StoragePathSegments | api/users/avatar.js:78 | the path splits into `avatars`, the user id and `<time>_<name>.<ext>` |
| Avatar.PathStaysInUserDirectory | api/users/avatar.js:78 | the stored path stays inside the user's own directory |
| Avatar.JpgStoredAsJpeg | api/users/avatar.js:68-78 | a `jpg` upload is stored with the `jpeg` extension |
| Avatar.AvatarEndpoint | api/users/avatar.js:25-100 | preflight, POST only, 401 without token; an upload's extension is png, jpeg or webp |
| DevServer.CookiePair | server.js:93 | an item's name is the text before its first '=', its value the text up to the second '='; neither holds '=' |
| DevServer.CookieJar | server.js:92-96 | every entry comes from some item |
| DevServer.CookieJarNames | server.js:92-96 | a name is in the jar exactly when some item carries it |
| DevServer.CookieJarLastWins | server.js:92-96 | a later item with the same name overwrites an earlier one |
| DevServer.SessionIdFromCookie | server.js:90-98 | the session id read never holds '=' |
| DevServer.SingleCookie | server.js:90-98 | a header with the single cookie `name=value` yields value exactly when the name is `sessionId` |
| DevServer.OpenSession | server.js:200-209 | login adds exactly the new session, expiring seven days later, and keeps the others |
| DevServer.CloseSession | server.js:234-237 | logout removes the named session, if present, and keeps the others |
| DevServer.CheckSessionAsWritten | server.js:247-272 | as written: an inherited property name such as `constructor` passes the `!sessions[id]` test and answers authenticated without a user |
| DevServer.CheckSession | server.js:247-272 | the intended check: authenticated exactly for a held, unexpired session, returning its user; an expired one is removed with the cookie cleared |
| DevServer.CheckSessionAsWrittenAgrees | server.js:250 | the written check is the intended one except for inherited names the store does not hold |
| DevServer.ConstructorCookieAuthenticates | server.js:250-271 | `Cookie: sessionId=constructor` passes the written check against an empty store and fails the intended one |
| DevServer.Signup | server.js:100-157 | POST only; an unreadable body → 500; e-mail, password and username all required; with all three the answer is a provider refusal (400) or the echoed e-mail and username |
| DevServer.Login | server.js:159-225 | POST only; an unreadable body → 500; e-mail and password required; refused credentials → 401, accepted ones always log in; a success opens exactly one session for the account, expiring seven days later, and sets its cookie |
| DevServer.Logout | server.js:227-245 | POST; removes the presented session, if any, keeps the others, and always clears the cookie |
| DevServer.SessionCookieRoundTrip | server.js:90-98 | the cookie set at login is read back as the same session id |
| DevServer.LoginThenCheck | server.js:200-271 | after a login the check recognises the session until its expiry, inclusive, with the logged-in user |
| DevServer.LogoutThenCheck | server.js:234-254 | after a logout with the same cookie the check refuses it |
| DevServer.ExpiryBoundary | server.js:259-271 | a session is valid at its expiry time and removed one millisecond later |
| DevServer.Rewrite | server.js:50-65 | a listed path maps to its page, `/` to `/index.html`; any other path is unchanged |
| DevServer.RewriteIdempotent | server.js:50-65 | no page is rewritten twice |
| DevServer.Extname | server.js:77 | the extension is empty or a final '.'-suffix with no other '.' or '/' |
| DevServer.ContentType | server.js:77-83 | by extension: `.png` → image/png, `.js` → application/javascript, unlisted → text/html |
| DevServer.RewrittenPagesAreHtml | server.js:50-83 | every rewritten page is served as HTML |
| DevServer.RouteOf | server.js:32-65 | the four auth paths under `/api/` go to their handlers; every other path is a rewritten static file |

## Left out

- Supabase I/O is replaced by in-memory sequences. `order`/`limit`/`range` become explicit sort, prefix and window steps. The `perPage: 1000` cap on the user directory is not modelled: the directory is the whole sequence.
- Decoding the bearer token (base64 JSON with no signature check) is not modelled. The caller id is an input, absent when there is no token or it cannot be decoded.
- CORS headers, response bodies beyond what the contracts name (for example `updated_at` and the public URL of an upload), and request-stream parsing are not modelled.
- A request body the handlers cannot parse is answered 400 before any field is read, and this answer is not modelled: the JSON values of the model are already parsed, so no input stands for a rejected body. The lines are api/media/like.js:53-57, api_legacy/media/comment.js:53-57, api_handlers/media/delete.js:53-57, api_handlers/chat/send.js:44-49, api/compositions/index.js:63-67, api/compositions/share.js:36-40, api_handlers/friends.js:341-345, api_legacy/friends/request.js:41-45, api_handlers/friends/respond.js:41-45, api/auth/profile.js:82-86, api/users/index.js:93-97 and api/users/avatar.js:49-55. An absent body (`Undefined`) is a different input, modelled as a body with no fields. In server.js a body whose destructuring throws is answered 500 (server.js:113-114, 150-154), which `DevServer.Signup` models as `Internal` through `DevServer.Unreadable`.
- Concurrency is not modelled. The respond update is a blind update by id, and the like and comment counters are read-modify-write, so races between requests are not represented.
- Clocks are integer timestamps passed in. The parsing of dates for the notification sort is not modelled.
- `parseInt` on non-numeric text (NaN) is not modelled. Limits and offsets arrive already parsed or absent.
- Media.Window: a negative feed limit yields an empty window. The store's own answer for such a range is not modelled.
- Base64 decoding is not modelled. The decoded byte length of an avatar is an input.
- Media.Feed: the `hasMore` fallback for an unknown total count is not modelled, because the count query always returns a total here.
- Static-file reading, 404 pages and `randomBytes` session ids are not modelled. The session id is a parameter.
- DevServer.CookieJar: assigning a cookie named `__proto__` into a plain object has prototype side effects. These are not modelled; the jar is a map.
- Text.ToLower folds ASCII letters only. Unicode case mapping is not modelled.
- Json.ToJsString: a JSON number is modelled as an integer (`Json.Value.Num`) and `String` of it as its decimal digits. JavaScript numbers are IEEE doubles, so non-integers, integers beyond 2^53 in magnitude (which `JSON.parse` rounds) and integers of 10^21 or more (which `String` writes in exponent form) are not modelled. This reaches the stored hero names and roles (`String(hero.name).trim()`, api/compositions/index.js:84-85) only when a client sends numbers there.
- Strings are sequences of Unicode scalar values, so a lone surrogate code unit cannot occur. The lengths the handlers check are JavaScript's UTF-16 lengths (`Text.Utf16Length`).
- AuthProfile.Apply: a truthy non-string username, or a non-string bio or avatar URL, is sent to the provider as given (`Merge` and `PayloadFor` carry it) but reads back as absent, because the directory's metadata holds strings only.
- Failed writes are not modelled: the friend-request insert (api_handlers/friends.js:259-262, api_legacy/friends/request.js:110-113), the answer's update (api_handlers/friends.js:300-303, api_handlers/friends/respond.js:94-97), the like counter update (api/media/like.js:111-113), the comment insert (api_legacy/media/comment.js:105-107), the chat insert (api_handlers/chat/send.js:77-80) and the composition insert (api/compositions/index.js:110-113). Each answers 500 in the source; the model assumes the write succeeds. The ignored errors of the like insert or delete and of the comment-count update need no model.
- Failed user-directory reads (`listUsers`) are not modelled: api_handlers/friends.js:91-95 and 148-151, api_handlers/friends/search.js:57-60, api/friends/index.js:99-103, api/users/index.js:50-54 and 167-172, api_legacy/users/profile.js:36-39, api_handlers/media/user.js:32-35 and api_handlers/notifications.js:137-141. Each answers 500 in the source; the directory is an always-readable sequence here.
- Friends.List: the three listing reads share one table, so a failure of the incoming or outgoing read alone (api_handlers/friends.js:66-69 and 78-81, a 500) is not modelled; a broken table fails the first read.
- Friends.NormalizeQuery: lower-cases and trims the query; its contract states only the absence of upper-case letters and the length bound.
- Avatar.MimeType: the MIME type passed to storage carries no contract of its own; Avatar.Extension states the normalisation.
- The browser-side code in auth-session.js, the TikTok client and the environment script are not part of this model.
- The thin auth, chat-listing and comment-listing wrappers, whose only logic is a required-field check before a provider call, are not part of this model.

## Findings

| source | as written | input that shows it | evidently intended | confidence | as-written member | corrected member |
|---|---|---|---|---|---|---|
| api_handlers/friends.js:223-246 (also api_legacy/friends/request.js:74-97) | only the first row the store returns for the pair is checked | rows [a→b declined, a→b pending]; b sends a request to a | any pending or accepted row for the pair blocks the request, keeping at most one active row per pair | not executed | Friends.RequestAsWritten (Friends.RequestAsWrittenAddsSecondActiveRow) | Friends.Request (Friends.RequestPreservesValid, Friends.RequestBlocksRepeat) |
| api/users/index.js:55 | `String(username)` on an absent parameter looks up the name "undefined" | `GET /api/users?profile=1` with an account named "Undefined" | neither an id nor a username is a 400, as in the legacy profile endpoint | not executed | Users.LookupAsWritten (Users.ProfileFlagAloneFindsUndefined) | Users.Lookup (Users.LookupAsWrittenAgrees, Users.ProfileEndpointsAgree) |
| server.js:250 | `!sessions[sessionId]` on a plain object is false for inherited property names | `Cookie: sessionId=constructor` with no sessions | only sessions the store holds authenticate | not executed | DevServer.CheckSessionAsWritten (DevServer.ConstructorCookieAuthenticates) | DevServer.CheckSession (DevServer.LoginThenCheck, DevServer.ExpiryBoundary) |

The handlers in this model use the corrected members: `FriendHandlers.HandleRequest`
uses `Friends.Request` and `Users.UsersEndpoint` uses `Users.Lookup`.

=== FILE: auth_profile.dfy ===
/**
 * The signed-in user's own profile: the GET view with its defaults, and the
 * POST update, which merges the body into the stored `user_metadata` and
 * adds the e-mail and password changes the body asks for.
 */
module AuthProfile {

  import opened Base
  import opened Json
  import opened Directory
  import opened Sorting

  /** Lanes beyond the first two are dropped on save. */
  const MaxLanes := 2

  /** The GET response's `user` object (the provider's `updated_at` aside). */
  datatype View = View(id: Id, email: Option<string>, username: string, bio: string, avatarUrl: string, lanes: seq<Value>)

  /** GET: absent metadata fields read as '' and absent lanes as []. */
  function ViewOf(a: Account): (v: View)
    ensures v.id == a.id && v.email == a.email
    ensures v.username == "" <==> !Present(a.meta.username)
    ensures v.username != "" ==> a.meta.username == Some(v.username)
    ensures v.bio == "" <==> !Present(a.meta.bio)
    ensures v.bio != "" ==> a.meta.bio == Some(v.bio)
    ensures v.avatarUrl == "" <==> !Present(a.meta.avatarUrl)
    ensures v.avatarUrl != "" ==> a.meta.avatarUrl == Some(v.avatarUrl)
    ensures a.meta.lanes.Some? ==> v.lanes == a.meta.lanes.value
    ensures a.meta.lanes.None? ==> v.lanes == []
  {
    View(a.id, a.email, OrElse(a.meta.username, ""), OrElse(a.meta.bio, ""), OrElse(a.meta.avatarUrl, ""),
         a.meta.lanes.GetOr([]))
  }

  /** The `user_metadata` object the update sends. */
  datatype Update = Update(username: Value, bio: Value, avatarUrl: Value, lanes: seq<Value>)

  /** A stored optional string as the object property it is read from. */
  function FromOption(o: Option<string>): (v: Value)
    ensures o.None? ==> v == Undefined
    ensures o.Some? ==> v == Str(o.value)
  {
    match o
    case None => Undefined
    case Some(s) => Str(s)
  }

  /**
   * The merge of the body into the prior metadata: a truthy username replaces
   * the prior one, any string bio (even '') replaces the prior one, a truthy
   * avatar URL replaces the prior one, an array of lanes replaces the prior ones
   * cut to two; every other field keeps the prior value ('' or [] when absent).
   */
  function Merge(prior: Metadata, body: Value): (u: Update)
    ensures Truthy(Field(body, "username")) ==> u.username == Field(body, "username")
    ensures !Truthy(Field(body, "username")) ==> u.username == FromOption(prior.username)
    ensures Field(body, "bio").Str? ==> u.bio == Field(body, "bio")
    ensures !Field(body, "bio").Str? ==> u.bio == Str(OrElse(prior.bio, ""))
    ensures Truthy(Field(body, "avatar_url")) ==> u.avatarUrl == Field(body, "avatar_url")
    ensures !Truthy(Field(body, "avatar_url")) ==> u.avatarUrl == Str(OrElse(prior.avatarUrl, ""))
    ensures Field(body, "lanes").Arr? ==>
      var given := Field(body, "lanes").items;
      |u.lanes| == Min(MaxLanes, |given|) && u.lanes == given[..|u.lanes|]
    ensures !Field(body, "lanes").Arr? ==> u.lanes == prior.lanes.GetOr([])
  {
    var username := Field(body, "username");
    var bio := Field(body, "bio");
    var avatarUrl := Field(body, "avatar_url");
    var lanes := Field(body, "lanes");
    Update(
      if Truthy(username) then username else FromOption(prior.username),
      if bio.Str? then bio else Str(OrElse(prior.bio, "")),
      if Truthy(avatarUrl) then avatarUrl else Str(OrElse(prior.avatarUrl, "")),
      if lanes.Arr? then Take(lanes.items, MaxLanes) else prior.lanes.GetOr([]))
  }

  /** A string property as the typed metadata reads it back; other values read as absent. */
  function StringOf(v: Value): (o: Option<string>)
    ensures o.Some? <==> v.Str?
    ensures o.Some? ==> v == Str(o.value)
  {
    if v.Str? then Some(v.s) else None
  }

  /**
   * The metadata the account holds once the update is applied, as the
   * directory reads it back: every string field as sent, the lanes as sent.
   */
  function Apply(u: Update): (m: Metadata)
    ensures FromOption(m.username) == (if u.username.Str? then u.username else Undefined)
    ensures FromOption(m.bio) == (if u.bio.Str? then u.bio else Undefined)
    ensures FromOption(m.avatarUrl) == (if u.avatarUrl.Str? then u.avatarUrl else Undefined)
    ensures m.lanes == Some(u.lanes)
  {
    Metadata(StringOf(u.username), StringOf(u.bio), StringOf(u.avatarUrl), Some(u.lanes))
  }

  /** Saving an empty body leaves what GET shows unchanged. */
  lemma EmptySaveKeepsView(a: Account)
    ensures ViewOf(a.(meta := Apply(Merge(a.meta, Obj(map[]))))) == ViewOf(a)
  {
    var m := Apply(Merge(a.meta, Obj(map[])));
    assert m.username == a.meta.username;
  }

  /** Saving the same body twice stores what saving it once stores. */
  lemma MergeIdempotent(prior: Metadata, body: Value)
    ensures Merge(Apply(Merge(prior, body)), body) == Merge(prior, body)
  {
    var once := Merge(prior, body);
    var lanes := Field(body, "lanes");
    if !Truthy(Field(body, "username")) {
      assert StringOf(FromOption(prior.username)) == prior.username;
    }
    if lanes.Arr? {
      assert Take(once.lanes, MaxLanes) == once.lanes;
    }
  }

  /** What GET shows after a save: each field the body set, or the prior one. */
  lemma SaveThenView(a: Account, body: Value)
    ensures var v := ViewOf(a.(meta := Apply(Merge(a.meta, body))));
      && (Field(body, "username").Str? && Field(body, "username").s != "" ==> v.username == Field(body, "username").s)
      && (!Truthy(Field(body, "username")) ==> v.username == ViewOf(a).username)
      && (Field(body, "bio").Str? ==> v.bio == Field(body, "bio").s)
      && (!Field(body, "bio").Str? ==> v.bio == ViewOf(a).bio)
      && (!Truthy(Field(body, "avatar_url")) ==> v.avatarUrl == ViewOf(a).avatarUrl)
      && (Field(body, "lanes").Arr? ==> |v.lanes| <= MaxLanes)
      && (!Field(body, "lanes").Arr? ==> v.lanes == ViewOf(a).lanes)
  {
  }

  /** The update request: the metadata, and the e-mail and password changes when asked for. */
  datatype Payload = Payload(metadata: Update, email: Option<Value>, password: Option<Value>)

  /** `email !== user.email` is false only for the same string. */
  predicate SameEmail(v: Value, current: Option<string>) {
    current.Some? && v == Str(current.value)
  }

  function PayloadFor(a: Account, body: Value): (p: Payload)
    ensures p.metadata == Merge(a.meta, body)
    ensures p.email.Some? <==> Truthy(Field(body, "email")) && !SameEmail(Field(body, "email"), a.email)
    ensures p.email.Some? ==> p.email.value == Field(body, "email")
    ensures p.password.Some? <==> Truthy(Field(body, "newPassword"))
    ensures p.password.Some? ==> p.password.value == Field(body, "newPassword")
  {
    var email := Field(body, "email");
    var password := Field(body, "newPassword");
    Payload(
      Merge(a.meta, body),
      if Truthy(email) && !SameEmail(email, a.email) then Some(email) else None,
      if Truthy(password) then Some(password) else None)
  }

  /** Re-sending the current e-mail (or none) never asks the provider to change it. */
  lemma CurrentEmailNotResent(a: Account, fields: map<string, Value>)
    requires a.email.Some?
    ensures PayloadFor(a, Obj(fields["email" := Str(a.email.value)])).email.None?
    ensures PayloadFor(a, Obj(map[])).email.None? && PayloadFor(a, Obj(map[])).password.None?
  {
  }

  datatype Reply = Preflight | Profile(view: View) | Updated(payload: Payload)

  /**
   * GET and POST on the own profile: both need a bearer caller and an
   * account behind it; a refused update is a 400; any other verb is a 405.
   */
  function ProfileEndpoint(verb: Method, caller: Option<Id>, dir: seq<Account>, body: Value, updateFails: bool)
    : (r: Result<Reply>)
    ensures verb == Options ==> r == Ok(Preflight)
    ensures verb !in {Options, Get, Post} ==> r == Err(MethodNotAllowed)
    ensures verb in {Get, Post} && !Present(caller) ==> r == Err(NotAuthenticated)
    ensures verb in {Get, Post} && Present(caller) && !Known(dir, caller.value) ==> r == Err(CallerUnknown)
    ensures verb == Get && Present(caller) && Known(dir, caller.value) ==>
      r == Ok(Profile(ViewOf(FindById(dir, caller.value).value)))
    ensures verb == Post && Present(caller) && Known(dir, caller.value) && !updateFails ==>
      r == Ok(Updated(PayloadFor(FindById(dir, caller.value).value, body)))
    ensures verb == Get && r.Ok? ==> r.value.Profile? && r.value.view.id == caller.value
    ensures verb == Post && r.Ok? ==>
      && !updateFails && r.value.Updated?
      && exists a :: a in dir && a.id == caller.value && r.value.payload == PayloadFor(a, body)
    ensures verb == Post && Present(caller) && Known(dir, caller.value) && updateFails ==> r == Err(ProviderRejected)
  {
    if verb == Options then Ok(Preflight)
    else if verb !in {Get, Post} then Err(MethodNotAllowed)
    else if !Present(caller) then Err(NotAuthenticated)
    else match FindById(dir, caller.value)
      case None => Err(CallerUnknown)
      case Some(a) =>
        if verb == Get then Ok(Profile(ViewOf(a)))
        else if updateFails then Err(ProviderRejected)
        else Ok(Updated(PayloadFor(a, body)))
  }
}

=== FILE: avatar.dfy ===
/**
 * Avatar uploads: the accepted `data:` URLs (a restricted form of the syntax
 * of section 3 of RFC 2397: an image media type among png, jpeg, jpg and
 * webp, the `;base64` marker, a non-empty single-line payload), the MIME
 * normalisation of `jpg` to `jpeg`, the 2 MiB limit on the decoded payload,
 * the file-name sanitisation and the storage path.
 */
module Avatar {

  import opened Base
  import opened Text
  import opened Json
  import opened Directory

  const Prefix := "data:image/"
  const Marker := ";base64,"
  /** The subtypes of the alternation, in the order the pattern tries them. */
  const Subtypes: seq<string> := ["png", "jpeg", "jpg", "webp"]
  const MaxBytes := 2 * 1024 * 1024
  const DefaultName := "avatar"

  /** `.` in a pattern without the `s` flag matches anything but these. */
  predicate LineTerminator(c: char) {
    c == '\n' || c == '\r' || c == '\U{2028}' || c == '\U{2029}'
  }

  predicate SingleLine(s: string) {
    forall i :: 0 <= i < |s| ==> !LineTerminator(s[i])
  }

  datatype Match = Match(subtype: string, payload: string)

  /** What the pattern accepts, as the match that produced it. */
  predicate ValidMatch(m: Match) {
    m.subtype in Subtypes && m.payload != "" && SingleLine(m.payload)
  }

  function Render(m: Match): string {
    Prefix + m.subtype + Marker + m.payload
  }

  /** The first subtype, from index `k` on, that the text continues with, followed by the marker. */
  function SubtypeFrom(rest: string, k: nat): (r: Option<nat>)
    requires k <= |Subtypes|
    ensures r.Some? ==> k <= r.value < |Subtypes| && StartsWith(rest, Subtypes[r.value] + Marker)
    ensures r.None? ==> forall j :: k <= j < |Subtypes| ==> !StartsWith(rest, Subtypes[j] + Marker)
    decreases |Subtypes| - k
  {
    if k == |Subtypes| then None
    else if StartsWith(rest, Subtypes[k] + Marker) then Some(k)
    else SubtypeFrom(rest, k + 1)
  }

  /** `/^data:(image\/(png|jpeg|jpg|webp));base64,(.+)$/`. */
  function ParseDataUrl(s: string): (r: Option<Match>)
    ensures r.Some? ==> ValidMatch(r.value) && Render(r.value) == s
  {
    if !StartsWith(s, Prefix) then None
    else
      var rest := s[|Prefix|..];
      match SubtypeFrom(rest, 0)
      case None => None
      case Some(k) =>
        var sub := Subtypes[k];
        var payload := rest[|sub + Marker|..];
        if payload == "" || !SingleLine(payload) then None
        else
          assert s == Render(Match(sub, payload)) by {
            PrefixRest(s, Prefix);
            PrefixRest(rest, sub + Marker);
          }
          Some(Match(sub, payload))
  }

  /** A `;`-free prefix that the marker follows is delimited by it. */
  lemma MarkerDelimits(x: string, y: string, rest: string)
    requires ';' !in x && ';' !in y
    requires StartsWith(x + Marker + rest, y + Marker)
    ensures x == y
  {
    var t := x + Marker + rest;
    var u := y + Marker;
    assert t[..|u|] == u;
    // both x and y end where t has its first ';'
    assert t[|x|] == ';' && t[|y|] == u[|y|] == ';';
    forall k | 0 <= k < |x| ensures t[k] != ';' {
      assert t[k] == x[k];
    }
    forall k | 0 <= k < |y| ensures t[k] != ';' {
      assert t[k] == u[k] == y[k];
    }
    assert |x| == |y|;
    assert t[..|x|] == x && t[..|y|] == u[..|y|] == y;
  }

  /** No subtype text continues into another subtype followed by the marker. */
  lemma SubtypeUnique(sub: string, payload: string, j: nat)
    requires sub in Subtypes && j < |Subtypes|
    requires StartsWith(sub + Marker + payload, Subtypes[j] + Marker)
    ensures Subtypes[j] == sub
  {
    assert forall i :: 0 <= i < |Subtypes| ==> ';' !in Subtypes[i];
    MarkerDelimits(sub, Subtypes[j], payload);
  }

  /** Every match the pattern can produce is recovered from its rendering. */
  lemma ParseRender(m: Match)
    requires ValidMatch(m)
    ensures ParseDataUrl(Render(m)) == Some(m)
  {
    var s := Render(m);
    assert StartsWith(s, Prefix);
    var rest := s[|Prefix|..];
    assert rest == m.subtype + Marker + m.payload;
    var i :| 0 <= i < |Subtypes| && Subtypes[i] == m.subtype;
    assert StartsWith(rest, Subtypes[i] + Marker);
    var k := SubtypeFrom(rest, 0).value;
    SubtypeUnique(m.subtype, m.payload, k);
    assert rest[|m.subtype + Marker|..] == m.payload;
  }

  /** `mimeType.split('/')[1]` after `replace('image/jpg', 'image/jpeg')`. */
  function Extension(subtype: string): (ext: string)
    requires subtype in Subtypes
    ensures ext in {"png", "jpeg", "webp"}
    ensures subtype != "jpg" ==> ext == subtype
  {
    if subtype == "jpg" then "jpeg" else subtype
  }

  function MimeType(subtype: string): string
    requires subtype in Subtypes
  {
    "image/" + Extension(subtype)
  }

  /** The characters `[a-z0-9-_.]` (case-insensitively) keeps. */
  predicate SafeChar(c: char) {
    'a' <= c <= 'z' || 'A' <= c <= 'Z' || '0' <= c <= '9' || c == '-' || c == '_' || c == '.'
  }

  /**
   * What the replacement makes of one character: the pattern has no `u`
   * flag, so it matches UTF-16 code units and a character outside the Basic
   * Multilingual Plane, a surrogate pair, becomes two underscores.
   */
  function SanitizeChar(c: char): (r: string)
    ensures |r| == Utf16Units(c)
    ensures SafeChar(c) ==> r == [c]
    ensures !SafeChar(c) ==> forall i :: 0 <= i < |r| ==> r[i] == '_'
  {
    if SafeChar(c) then [c]
    else if c as int > 0xFFFF then "__"
    else "_"
  }

  /** `name.replace(/[^a-z0-9-_\.]/gi, '_')`. */
  function Sanitize(name: string): (r: string)
    ensures |r| == Utf16Length(name)
    ensures forall i :: 0 <= i < |r| ==> SafeChar(r[i])
    ensures (forall i :: 0 <= i < |name| ==> SafeChar(name[i])) ==> r == name
  {
    if name == [] then []
    else
      var rest := Sanitize(name[1..]);
      assert forall i :: 1 <= i < |name| ==> name[1..][i - 1] == name[i];
      SanitizeChar(name[0]) + rest
  }

  /** Sanitising works character by character. */
  lemma {:induction false} SanitizeAppend(a: string, b: string)
    ensures Sanitize(a + b) == Sanitize(a) + Sanitize(b)
    decreases |a|
  {
    if a == [] {
      assert a + b == b;
    } else {
      assert (a + b)[1..] == a[1..] + b;
      SanitizeAppend(a[1..], b);
    }
  }

  /**
   * On a name inside the Basic Multilingual Plane the length is kept and
   * the i-th character is kept exactly when it is safe, replaced by `_`
   * otherwise.
   */
  lemma {:induction false} SanitizeBmp(name: string)
    requires forall i :: 0 <= i < |name| ==> name[i] as int <= 0xFFFF
    ensures |Sanitize(name)| == |name|
    ensures forall i :: 0 <= i < |name| ==> Sanitize(name)[i] == if SafeChar(name[i]) then name[i] else '_'
    decreases |name|
  {
    if name != [] {
      var t := name[1..];
      assert forall i :: 0 <= i < |t| ==> t[i] == name[i + 1];
      SanitizeBmp(t);
      var r := Sanitize(name);
      assert r == SanitizeChar(name[0]) + Sanitize(t);
      forall i | 0 <= i < |name|
        ensures r[i] == if SafeChar(name[i]) then name[i] else '_'
      {
        if i > 0 {
          assert r[i] == Sanitize(t)[i - 1];
        }
      }
    }
  }

  /** A character outside the Basic Multilingual Plane turns into two underscores. */
  lemma SanitizeAstral(c: char)
    requires c as int > 0xFFFF
    ensures Sanitize([c]) == "__"
  {
    assert [c][1..] == [];
  }

  lemma SanitizeIdempotent(name: string)
    ensures Sanitize(Sanitize(name)) == Sanitize(name)
  {
  }

  /** `(fileName || 'avatar')`, then sanitised; a truthy non-string name throws. */
  function SafeName(fileName: Value): (r: Result<string>)
    ensures !Truthy(fileName) ==> r == Ok(DefaultName)
    ensures Truthy(fileName) && !fileName.Str? ==> r == Err(Internal)
    ensures fileName.Str? && fileName.s != "" ==> r == Ok(Sanitize(fileName.s))
  {
    if !Truthy(fileName) then
      assert Sanitize(DefaultName) == DefaultName by {
        assert forall i :: 0 <= i < |DefaultName| ==> SafeChar(DefaultName[i]);
      }
      Ok(DefaultName)
    else if !fileName.Str? then Err(Internal)
    else Ok(Sanitize(fileName.s))
  }

  datatype Upload = Upload(path: string, mimeType: string, extension: string)

  /** `avatars/<user>/<timestamp>_<safe name>.<extension>`. */
  function StoragePath(user: string, now: nat, safe: string, ext: string): string {
    "avatars/" + user + "/" + NatToString(now) + "_" + safe + "." + ext
  }

  /**
   * The upload once the caller is known: `decodedLength` is the byte length
   * of the decoded payload, `uploadFails` the storage outcome.
   */
  function Prepare(user: string, dataUrl: Value, fileName: Value, decodedLength: nat, now: nat, uploadFails: bool)
    : (r: Result<Upload>)
    ensures !Truthy(dataUrl) ==> r == Err(MissingField)
    ensures Truthy(dataUrl) && !dataUrl.Str? ==> r == Err(Internal)
    ensures dataUrl.Str? && dataUrl.s != "" && ParseDataUrl(dataUrl.s).None? ==> r == Err(UnsupportedFormat)
    ensures dataUrl.Str? && ParseDataUrl(dataUrl.s).Some? && decodedLength > MaxBytes ==> r == Err(TooLarge)
    ensures dataUrl.Str? && ParseDataUrl(dataUrl.s).Some? && decodedLength <= MaxBytes ==>
      && (SafeName(fileName).Err? ==> r == Err(SafeName(fileName).error))
      && (SafeName(fileName).Ok? && uploadFails ==> r == Err(StoreFailure))
      && (SafeName(fileName).Ok? && !uploadFails ==> r.Ok?)
    ensures r.Ok? ==> dataUrl.Str? && ParseDataUrl(dataUrl.s).Some? && decodedLength <= MaxBytes && !uploadFails
    ensures r.Ok? ==> var m := ParseDataUrl(dataUrl.s).value;
      && r.value.extension == Extension(m.subtype)
      && r.value.mimeType == "image/" + r.value.extension
      && SafeName(fileName).Ok?
      && r.value.path == StoragePath(user, now, SafeName(fileName).value, r.value.extension)
  {
    if !Truthy(dataUrl) then Err(MissingField)
    else if !dataUrl.Str? then Err(Internal)
    else match ParseDataUrl(dataUrl.s)
      case None => Err(UnsupportedFormat)
      case Some(m) =>
        if decodedLength > MaxBytes then Err(TooLarge)
        else
          var safe :- SafeName(fileName);
          var ext := Extension(m.subtype);
          if uploadFails then Err(StoreFailure)
          else Ok(Upload(StoragePath(user, now, safe, ext), MimeType(m.subtype), ext))
  }

  /** The size limit is inclusive. */
  lemma SizeLimitBoundary(user: string, m: Match, now: nat)
    requires ValidMatch(m)
    ensures Prepare(user, Str(Render(m)), Undefined, MaxBytes, now, false).Ok?
    ensures Prepare(user, Str(Render(m)), Undefined, MaxBytes + 1, now, false) == Err(TooLarge)
  {
    ParseRender(m);
  }

  /** The path's only separators are the two the template writes. */
  lemma StoragePathSegments(user: string, now: nat, safe: string, ext: string)
    requires '/' !in user && '/' !in ext
    requires forall i :: 0 <= i < |safe| ==> SafeChar(safe[i])
    ensures Split(StoragePath(user, now, safe, ext), '/') == ["avatars", user, NatToString(now) + "_" + safe + "." + ext]
  {
    var digits := NatToString(now);
    assert '/' !in digits by {
      forall i | 0 <= i < |digits| ensures digits[i] != '/' {
        assert IsDigit(digits[i]);
      }
    }
    assert '/' !in safe by {
      forall i | 0 <= i < |safe| ensures safe[i] != '/' {
        assert SafeChar(safe[i]);
      }
    }
    var file := digits + "_" + safe + "." + ext;
    assert '/' !in file;
    StoragePathShape(user, file, StoragePath(user, now, safe, ext));
    assert '/' !in "avatars";
    SplitAfter("avatars", user + ['/'] + file, '/');
    SplitAfter(user, file, '/');
    SplitNone(file, '/');
  }

  lemma StoragePathShape(user: string, file: string, path: string)
    requires path == "avatars/" + user + "/" + file
    ensures path == "avatars" + ['/'] + (user + ['/'] + file)
  {
  }

  /**
   * A user id without '/' keeps the upload inside that user's directory:
   * the path has exactly three segments, whatever file name was sent.
   */
  lemma PathStaysInUserDirectory(user: string, dataUrl: Value, fileName: Value, decodedLength: nat, now: nat)
    requires '/' !in user
    requires Prepare(user, dataUrl, fileName, decodedLength, now, false).Ok?
    ensures var p := Prepare(user, dataUrl, fileName, decodedLength, now, false).value.path;
      |Split(p, '/')| == 3 && Split(p, '/')[0] == "avatars" && Split(p, '/')[1] == user
  {
    var u := Prepare(user, dataUrl, fileName, decodedLength, now, false).value;
    assert '/' !in u.extension;
    StoragePathSegments(user, now, SafeName(fileName).value, u.extension);
  }

  /** The accepted subtypes written out: `jpg` names are stored as `jpeg`. */
  lemma JpgStoredAsJpeg(user: string, payload: string, fileName: Value, decodedLength: nat, now: nat)
    requires payload != "" && SingleLine(payload) && decodedLength <= MaxBytes && !Truthy(fileName)
    ensures var r := Prepare(user, Str(Render(Match("jpg", payload))), fileName, decodedLength, now, false);
      r.Ok? && r.value.mimeType == "image/jpeg" && EndsWith(r.value.path, ".jpeg")
  {
    ParseRender(Match("jpg", payload));
    var r := Prepare(user, Str(Render(Match("jpg", payload))), fileName, decodedLength, now, false);
    var p := r.value.path;
    assert p[|p| - 5..] == ".jpeg";
  }

  datatype Reply = Preflight | Uploaded(upload: Upload)

  /**
   * POST avatar: the preflight, then the verb, then the bearer caller, then
   * the body `{ dataUrl, fileName }` as `Prepare` checks it.
   */
  function AvatarEndpoint(verb: Method, caller: Option<Id>, body: Value, decodedLength: nat, now: nat, uploadFails: bool)
    : (r: Result<Reply>)
    ensures verb == Options ==> r == Ok(Preflight)
    ensures verb !in {Options, Post} ==> r == Err(MethodNotAllowed)
    ensures verb == Post && !Present(caller) ==> r == Err(NotAuthenticated)
    ensures verb == Post && Present(caller) ==>
      r == match Prepare(caller.value, Field(body, "dataUrl"), Field(body, "fileName"), decodedLength, now, uploadFails)
           case Ok(u) => Ok(Uploaded(u))
           case Err(e) => Err(e)
    ensures r.Ok? && r.value.Uploaded? ==> r.value.upload.extension in {"png", "jpeg", "webp"}
  {
    if verb == Options then Ok(Preflight)
    else if verb != Post then Err(MethodNotAllowed)
    else if !Present(caller) then Err(NotAuthenticated)
    else
      var u :- Prepare(caller.value, Field(body, "dataUrl"), Field(body, "fileName"), decodedLength, now, uploadFails);
      Ok(Uploaded(u))
  }
}

=== FILE: base.dfy ===
/**
 * Shared vocabulary of the handlers: optional values, results, the error
 * kinds every handler maps its failures to, and a store table that is either
 * readable or reports an error message.
 */
module Base {

  /** A value that may be absent (`undefined`/`null` in the handlers). */
  datatype Option<+T> = None | Some(value: T) {
    function GetOr(default: T): T {
      match this
      case Some(v) => v
      case None => default
    }
  }

  /** Every failure a handler reports, one constructor per distinct outcome. */
  datatype Error =
    | MissingField       // 400: a required body or query field is absent or blank
    | InvalidValue       // 400: a field has a value outside the accepted set
    | SelfTarget         // 400: a friend request addressed to the caller
    | AlreadyFriends     // 400: the pair is already connected
    | RequestPending     // 400: a request for the pair is still open
    | AlreadyHandled     // 400: the request was already answered
    | QueryTooShort      // 400: a search query under two UTF-16 code units
    | TooLong            // 400: a text over its length limit
    | UnsupportedFormat  // 400: a data URL the avatar pattern rejects
    | TooLarge           // 400: an avatar payload over the size limit
    | TableMissing       // 400: the store reports that the table does not exist
    | ProviderRejected   // 400: the identity provider refused to create or update an account
    | NotAuthenticated   // 401: no usable credential or session
    | SessionExpired     // 401: the session exists but is past its expiry
    | CallerUnknown      // 401: the caller's id does not resolve to an account
    | Forbidden          // 403: the caller does not own the object
    | NotFound           // 404: the referenced object does not exist
    | MethodNotAllowed   // 405
    | StoreFailure       // 500: any other store error
    | Internal           // 500: an exception the handler does not anticipate

  /** The HTTP status code each error kind is reported with. */
  function StatusCode(e: Error): (code: nat)
    ensures 400 <= code < 600
    ensures code == 400 <==> e.MissingField? || e.InvalidValue? || e.SelfTarget? || e.AlreadyFriends?
                             || e.RequestPending? || e.AlreadyHandled? || e.QueryTooShort? || e.TooLong?
                             || e.UnsupportedFormat? || e.TooLarge? || e.TableMissing? || e.ProviderRejected?
    ensures code == 500 <==> e.StoreFailure? || e.Internal?
  {
    match e
    case NotAuthenticated | SessionExpired | CallerUnknown => 401
    case Forbidden => 403
    case NotFound => 404
    case MethodNotAllowed => 405
    case StoreFailure | Internal => 500
    case _ => 400
  }

  datatype Result<+T> = Ok(value: T) | Err(error: Error) {
    predicate IsFailure() { Err? }

    function PropagateFailure<U>(): Result<U>
      requires Err?
    {
      Err(error)
    }

    function Extract(): T
      requires Ok?
    {
      value
    }
  }

  /** The HTTP request methods the handlers distinguish. */
  datatype Method = Get | Post | Put | Patch | Delete | Options | Head

  /** A store table as a handler sees it: its rows, or the error message of a failed read. */
  datatype Table<T> = Rows(rows: seq<T>) | Broken(message: string)

  /** JavaScript truthiness of an optional string: absent and '' are falsy. */
  predicate Present(s: Option<string>) {
    s.Some? && s.value != ""
  }

  /** `a || b` on optional strings. */
  function OrElse(a: Option<string>, b: string): (r: string)
    ensures Present(a) ==> r == a.value
    ensures !Present(a) ==> r == b
  {
    if Present(a) then a.value else b
  }
}

=== FILE: chat.dfy ===
/**
 * Sending a chat message: the caller must be authenticated and resolve to
 * an account; the message must be a non-blank string of at most 500
 * UTF-16 code units (counted before trimming) and is stored trimmed, under the
 * caller's display username.
 */
module Chat {

  import opened Base
  import opened Text
  import opened Directory
  import opened Json

  datatype Message = Message(userId: Id, email: Option<string>, username: string, text: string, createdAt: int)

  datatype Reply = Preflight | Created(messages: seq<Message>, message: Message)

  const MaxMessageLength := 500

  /** The POST branch once the caller's account is fetched. */
  function Send(messages: seq<Message>, caller: Id, account: Account, message: Value, now: int)
    : (r: Result<(seq<Message>, Message)>)
    requires account.id == caller
    ensures !Truthy(message) ==> r == Err(MissingField)
    ensures Truthy(message) && !message.Str? ==> r == Err(Internal)
    ensures message.Str? && message.s != "" && Trim(message.s) == "" ==> r == Err(MissingField)
    ensures message.Str? && Trim(message.s) != "" && Utf16Length(message.s) > MaxMessageLength ==> r == Err(TooLong)
    ensures r.Ok? ==> message.Str? && Trim(message.s) != "" && Utf16Length(message.s) <= MaxMessageLength
    ensures r.Ok? ==> var m := r.value.1;
      && m.text == Trim(message.s) && m.userId == caller && m.email == account.email
      && m.username == NameOr(account, "") && m.createdAt == now
    ensures r.Ok? ==> r.value.0 == messages + [r.value.1]
    ensures (Truthy(message) && message.Str? && Trim(message.s) != "" && Utf16Length(message.s) <= MaxMessageLength
             && (Present(account.meta.username) || account.email.Some?)) ==> r.Ok?
  {
    if !Truthy(message) then Err(MissingField)
    else if !message.Str? then Err(Internal)
    else if Trim(message.s) == "" then Err(MissingField)
    else if Utf16Length(message.s) > MaxMessageLength then Err(TooLong)
    else if !Present(account.meta.username) && account.email.None? then Err(Internal)
    else
      var m := Message(caller, account.email, NameOr(account, ""), Trim(message.s), now);
      Ok((messages + [m], m))
  }

  /** The endpoint: preflight, POST, else 405; a missing or undecodable token and an unknown caller are both refused with 401. */
  function SendEndpoint(verb: Method, caller: Option<Id>, dir: seq<Account>, messages: seq<Message>,
                        body: Value, now: int)
    : (r: Result<Reply>)
    ensures verb == Options ==> r == Ok(Preflight)
    ensures verb !in {Options, Post} ==> r == Err(MethodNotAllowed)
    ensures verb == Post && !Present(caller) ==> r == Err(NotAuthenticated)
    ensures verb == Post && Present(caller) && !Known(dir, caller.value) ==> r == Err(CallerUnknown)
    ensures verb == Post && Present(caller) && Known(dir, caller.value) ==>
      var a := FindById(dir, caller.value).value;
      r == match Send(messages, caller.value, a, Field(body, "message"), now)
           case Ok(sent) => Ok(Created(sent.0, sent.1))
           case Err(e) => Err(e)
    ensures r.Ok? && r.value.Created? ==> verb == Post && Present(caller) && Known(dir, caller.value)
                                          && r.value.message.userId == caller.value
  {
    if verb == Options then Ok(Preflight)
    else if verb != Post then Err(MethodNotAllowed)
    else if !Present(caller) then Err(NotAuthenticated)
    else match FindById(dir, caller.value)
      case None => Err(CallerUnknown)
      case Some(a) =>
        var (all, m) :- Send(messages, caller.value, a, Field(body, "message"), now);
        Ok(Created(all, m))
  }

  /**
   * Sending back a stored message's text stores the same text: trimming is
   * idempotent and never lengthens the text, so the checks pass again.
   */
  lemma ResendStoresSameText(messages: seq<Message>, caller: Id, account: Account, message: Value, now: int,
                             later: seq<Message>, at: int)
    requires account.id == caller
    requires Send(messages, caller, account, message, now).Ok?
    ensures var m := Send(messages, caller, account, message, now).value.1;
      var again := Send(later, caller, account, Str(m.text), at);
      again.Ok? && again.value.1.text == m.text
  {
    TrimIdempotent(message.s);
    TrimUtf16Length(message.s);
  }

  /**
   * The length limit applies to the text as sent, before trimming: a
   * message whose trimmed text has 500 code units is refused once trailing
   * space takes it past 500.
   */
  lemma LimitCountsSurroundingSpace(messages: seq<Message>, caller: Id, account: Account, text: string, now: int)
    requires account.id == caller
    requires Utf16Length(text) == MaxMessageLength && Tight(text)
    ensures Trim(text + " ") == text
    ensures Send(messages, caller, account, Str(text + " "), now) == Err(TooLong)
  {
    TrimPadded(text, " ");
    Utf16LengthAppend(text, " ");
  }
}

=== FILE: compositions.dfy ===
/**
 * Team compositions: saving one (name and heroes normalised, sharing flag
 * coerced), listing the ones a caller may see, and sharing one with a list
 * of members, which records one link per distinct member and then marks
 * the composition shared.
 */
module Compositions {

  import opened Base
  import opened Text
  import opened Directory
  import opened Json
  import Sorting

  datatype Hero = Hero(name: string, role: string)

  datatype Composition = Composition(
    id: Id,
    ownerId: Id,
    ownerUsername: string,
    name: string,
    isShared: bool,
    heroes: seq<Hero>,
    createdAt: int)

  datatype Link = Link(compositionId: Id, memberId: Id)

  datatype Store = Store(compositions: seq<Composition>, links: seq<Link>)

  datatype Reply = Preflight | Listed(compositions: seq<Composition>) | Saved(store: Store, saved: Composition) | Shared(store: Store)

  const MaxHeroes := 5

  function CompositionTime(c: Composition): int {
    c.createdAt
  }

  // ---------------------------------------------------------------------------
  // Heroes

  /** `hero && hero.name && hero.role`. */
  predicate HasNameAndRole(v: Value) {
    Truthy(v) && Truthy(Field(v, "name")) && Truthy(Field(v, "role"))
  }

  /** `hero.name.length > 0 && hero.role.length > 0`. */
  predicate Complete(h: Hero) {
    |h.name| > 0 && |h.role| > 0
  }

  /** Both fields are non-empty and carry no surrounding white space. */
  predicate Tidy(h: Hero) {
    Tight(h.name) && Tight(h.role)
  }

  /** `String(v[key]).trim()`. */
  function FieldText(v: Value, key: string): (t: string)
    ensures t == [] || Tight(t)
  {
    Trim(ToJsString(Field(v, key)))
  }

  /** `{ name: String(hero.name).trim(), role: String(hero.role).trim() }`. */
  function HeroOf(v: Value): (h: Hero)
    ensures Complete(h) ==> Tidy(h)
  {
    Hero(FieldText(v, "name"), FieldText(v, "role"))
  }

  /** One element through the filter, map and filter of the normalisation. */
  function HeroCandidate(v: Value): (r: Option<Hero>)
    ensures r.Some? ==> Tidy(r.value)
    ensures r.Some? <==> HasNameAndRole(v) && Complete(HeroOf(v))
    ensures r.Some? ==> r.value == HeroOf(v)
  {
    if !HasNameAndRole(v) then None
    else
      var h := HeroOf(v);
      if Complete(h) then Some(h) else None
  }

  function HeroCandidates(heroes: seq<Value>): (r: seq<Option<Hero>>)
    ensures |r| == |heroes|
    ensures forall i :: 0 <= i < |heroes| ==> r[i] == HeroCandidate(heroes[i])
  {
    seq(|heroes|, i requires 0 <= i < |heroes| => HeroCandidate(heroes[i]))
  }

  /** The surviving heroes in order. */
  function Survivors(cs: seq<Option<Hero>>): (r: seq<Hero>)
    ensures |r| <= |cs|
    ensures forall h :: h in r <==> Some(h) in cs
  {
    if cs == [] then []
    else
      assert forall c :: c in cs <==> c == cs[0] || c in cs[1..];
      (if cs[0].Some? then [cs[0].value] else []) + Survivors(cs[1..])
  }

  /** The normalisation before the cut to five. */
  function CleanHeroes(heroes: seq<Value>): (r: seq<Hero>)
    ensures |r| <= |heroes|
    ensures forall i :: 0 <= i < |r| ==> Tidy(r[i])
    ensures forall h :: h in r <==> exists i :: 0 <= i < |heroes| && HeroCandidate(heroes[i]) == Some(h)
  {
    var cs := HeroCandidates(heroes);
    var r := Survivors(cs);
    assert forall h :: h in r <==> exists i :: 0 <= i < |heroes| && HeroCandidate(heroes[i]) == Some(h) by {
      forall h ensures h in r <==> exists i :: 0 <= i < |heroes| && HeroCandidate(heroes[i]) == Some(h) {
        if h in r {
          var i :| 0 <= i < |cs| && cs[i] == Some(h);
          assert HeroCandidate(heroes[i]) == Some(h);
        }
      }
    }
    assert forall i :: 0 <= i < |r| ==> Tidy(r[i]) by {
      forall i | 0 <= i < |r| ensures Tidy(r[i]) {
        assert r[i] in r;
        var k :| 0 <= k < |cs| && cs[k] == Some(r[i]);
      }
    }
    r
  }

  /** The stored heroes: the clean ones in order, at most five. */
  function NormalizeHeroes(heroes: seq<Value>): (r: seq<Hero>)
    ensures |r| <= MaxHeroes
    ensures |r| == Sorting.Min(MaxHeroes, |CleanHeroes(heroes)|)
    ensures r == CleanHeroes(heroes)[..|r|]
  {
    Sorting.Take(CleanHeroes(heroes), MaxHeroes)
  }

  /** A stored hero as the JSON object a client sends back. */
  function HeroValue(h: Hero): Value {
    Obj(map["name" := Str(h.name), "role" := Str(h.role)])
  }

  function HeroValues(hs: seq<Hero>): (r: seq<Value>)
    ensures |r| == |hs|
    ensures forall i :: 0 <= i < |hs| ==> r[i] == HeroValue(hs[i])
  {
    seq(|hs|, i requires 0 <= i < |hs| => HeroValue(hs[i]))
  }

  lemma HeroRoundTrip(h: Hero)
    requires Tidy(h)
    ensures HeroCandidate(HeroValue(h)) == Some(h)
  {
    var v := HeroValue(h);
    assert Field(v, "name") == Str(h.name);
    assert Field(v, "role") == Str(h.role);
    TrimNoOuterSpace(h.name);
    TrimNoOuterSpace(h.role);
  }

  /** Only present candidates: the survivors are all of them, in order. */
  lemma {:induction false} SurvivorsOfPresent(cs: seq<Option<Hero>>, hs: seq<Hero>)
    requires |cs| == |hs|
    requires forall i :: 0 <= i < |cs| ==> cs[i] == Some(hs[i])
    ensures Survivors(cs) == hs
  {
    if cs != [] {
      SurvivorsOfPresent(cs[1..], hs[1..]);
      assert hs == [hs[0]] + hs[1..];
    }
  }

  /** Stored heroes sent back all survive the filter, in order. */
  lemma CleanStoredHeroes(hs: seq<Hero>)
    requires forall i :: 0 <= i < |hs| ==> Tidy(hs[i])
    ensures CleanHeroes(HeroValues(hs)) == hs
  {
    var cs := HeroCandidates(HeroValues(hs));
    forall i | 0 <= i < |cs| ensures cs[i] == Some(hs[i]) {
      HeroRoundTrip(hs[i]);
    }
    SurvivorsOfPresent(cs, hs);
  }

  /** Sending a saved hero list back normalises to the same list. */
  lemma NormalizeIdempotent(heroes: seq<Value>)
    ensures NormalizeHeroes(HeroValues(NormalizeHeroes(heroes))) == NormalizeHeroes(heroes)
  {
    var hs := NormalizeHeroes(heroes);
    assert forall i :: 0 <= i < |hs| ==> hs[i] == CleanHeroes(heroes)[i];
    CleanStoredHeroes(hs);
    assert Sorting.Take(hs, MaxHeroes) == hs;
  }

  // ---------------------------------------------------------------------------
  // Saving and listing

  /**
   * The POST branch once the caller's account is fetched: a non-blank name,
   * an array of heroes of which at least one survives normalisation.
   */
  function Save(s: Store, caller: Id, account: Account, body: Value, newId: Id, now: int)
    : (r: Result<(Store, Composition)>)
    requires account.id == caller
    ensures !Truthy(Field(body, "name")) ==> r == Err(MissingField)
    ensures Truthy(Field(body, "name")) && !Field(body, "name").Str? ==> r == Err(Internal)
    ensures (Field(body, "name").Str? && Truthy(Field(body, "name")) && Trim(Field(body, "name").s) != ""
             && !Field(body, "heroes").Arr?) ==> r == Err(InvalidValue)
    ensures Field(body, "name").Str? && Trim(Field(body, "name").s) == "" ==> r == Err(MissingField)
    ensures (Field(body, "name").Str? && Trim(Field(body, "name").s) != "" && Field(body, "heroes").Arr?)
            ==> (r.Ok? <==> NormalizeHeroes(Field(body, "heroes").items) != [])
    ensures (Field(body, "name").Str? && Trim(Field(body, "name").s) != "" && Field(body, "heroes").Arr?
             && NormalizeHeroes(Field(body, "heroes").items) == []) ==> r == Err(MissingField)
    ensures r.Ok? ==> var c := r.value.1;
      && Field(body, "name").Str? && c.name == Trim(Field(body, "name").s) && c.name != ""
      && Field(body, "heroes").Arr? && c.heroes == NormalizeHeroes(Field(body, "heroes").items) && c.heroes != []
      && c.isShared == Truthy(Field(body, "is_shared"))
      && c.ownerId == caller && c.ownerUsername == DisplayName(account)
      && c.id == newId && c.createdAt == now
    ensures r.Ok? ==> r.value.0 == Store(s.compositions + [r.value.1], s.links)
  {
    var name := Field(body, "name");
    var heroes := Field(body, "heroes");
    if !Truthy(name) then Err(MissingField)
    else if !name.Str? then Err(Internal)
    else if Trim(name.s) == "" then Err(MissingField)
    else if !heroes.Arr? then Err(InvalidValue)
    else
      var hs := NormalizeHeroes(heroes.items);
      if hs == [] then Err(MissingField)
      else
        var c := Composition(newId, caller, DisplayName(account), Trim(name.s), Truthy(Field(body, "is_shared")), hs, now);
        Ok((Store(s.compositions + [c], s.links), c))
  }

  /** `owner_id = caller OR is_shared`. */
  predicate VisibleTo(c: Composition, caller: Id) {
    c.ownerId == caller || c.isShared
  }

  function VisibleOf(rows: seq<Composition>, caller: Id): (r: seq<Composition>)
    ensures forall c :: c in r <==> c in rows && VisibleTo(c, caller)
  {
    if rows == [] then []
    else
      assert forall c :: c in rows <==> c == rows[0] || c in rows[1..];
      (if VisibleTo(rows[0], caller) then [rows[0]] else []) + VisibleOf(rows[1..], caller)
  }

  /** The GET branch: the visible compositions, newest first. */
  function ListVisible(table: Table<Composition>, caller: Id): (r: Result<seq<Composition>>)
    ensures table.Broken? ==> r == Err(StoreFailure)
    ensures table.Rows? ==> r.Ok?
    ensures r.Ok? ==> table.Rows? && Sorting.SortedDesc(r.value, CompositionTime)
    ensures r.Ok? ==> forall c :: c in r.value <==> c in table.rows && VisibleTo(c, caller)
  {
    match table
    case Broken(_) => Err(StoreFailure)
    case Rows(rows) =>
      var v := VisibleOf(rows, caller);
      Sorting.SortDescSorted(v, CompositionTime);
      assert forall c :: c in Sorting.SortDesc(v, CompositionTime) <==> c in v by {
        forall c ensures c in Sorting.SortDesc(v, CompositionTime) <==> c in v {
          Sorting.SortDescMembers(v, CompositionTime, c);
        }
      }
      Ok(Sorting.SortDesc(v, CompositionTime))
  }

  /** After a save, the owner sees the new composition, and anyone else sees it exactly when it is shared. */
  lemma SaveThenList(s: Store, caller: Id, account: Account, body: Value, newId: Id, now: int, viewer: Id)
    requires account.id == caller
    requires Save(s, caller, account, body, newId, now).Ok?
    ensures var (s', c) := Save(s, caller, account, body, newId, now).value;
      var listed := ListVisible(Rows(s'.compositions), viewer).value;
      && (viewer == caller ==> c in listed)
      && (viewer != caller ==> (c in listed <==> Truthy(Field(body, "is_shared"))))
  {
    var (s', c) := Save(s, caller, account, body, newId, now).value;
    assert c in s'.compositions;
    assert c.ownerId == caller && c.isShared == Truthy(Field(body, "is_shared"));
    var listed := ListVisible(Rows(s'.compositions), viewer).value;
    assert c in listed <==> VisibleTo(c, viewer);
  }

  // ---------------------------------------------------------------------------
  // Sharing

  /** `typeof id === 'string' && id.trim()`; the kept id itself is not trimmed. */
  function MemberIds(vs: seq<Value>): (r: seq<Id>)
    ensures forall x :: x in r <==> Str(x) in vs && Trim(x) != ""
  {
    if vs == [] then []
    else
      assert forall v :: v in vs <==> v == vs[0] || v in vs[1..];
      (if vs[0].Str? && Trim(vs[0].s) != "" then [vs[0].s] else []) + MemberIds(vs[1..])
  }

  predicate NoDuplicates<T(==)>(s: seq<T>) {
    forall i, j :: 0 <= i < j < |s| ==> s[i] != s[j]
  }

  /** `Array.from(new Set(ids))` continued from a set of ids already seen. */
  function DedupeFrom(ids: seq<Id>, seen: set<Id>): (r: seq<Id>)
    ensures forall x :: x in r <==> x in ids && x !in seen
    ensures NoDuplicates(r)
  {
    if ids == [] then []
    else
      assert forall x :: x in ids <==> x == ids[0] || x in ids[1..];
      if ids[0] in seen then DedupeFrom(ids[1..], seen)
      else [ids[0]] + DedupeFrom(ids[1..], seen + {ids[0]})
  }

  function Dedupe(ids: seq<Id>): (r: seq<Id>)
    ensures forall x :: x in r <==> x in ids
    ensures NoDuplicates(r)
  {
    DedupeFrom(ids, {})
  }

  /** Reference: the ids in order, each kept only at its first occurrence. */
  function FirstOccurrences(ids: seq<Id>): seq<Id> {
    if ids == [] then []
    else
      var init := ids[..|ids| - 1];
      var last := ids[|ids| - 1];
      FirstOccurrences(init) + (if last in init then [] else [last])
  }

  function Elements(s: seq<Id>): set<Id> {
    set x | x in s
  }

  lemma {:induction false} DedupeExtends(a: seq<Id>, b: seq<Id>)
    ensures FirstOccurrences(a + b) == FirstOccurrences(a) + DedupeFrom(b, Elements(a))
    decreases |b|
  {
    if b == [] {
      assert a + b == a;
    } else {
      var a' := a + [b[0]];
      assert a + b == a' + b[1..];
      assert a'[..|a'| - 1] == a && a'[|a'| - 1] == b[0];
      assert Elements(a') == Elements(a) + {b[0]};
      assert b[0] in Elements(a) <==> b[0] in a;
      DedupeExtends(a', b[1..]);
      if b[0] in a {
        assert Elements(a') == Elements(a);
      } else {
        assert FirstOccurrences(a') == FirstOccurrences(a) + [b[0]];
      }
    }
  }

  /** The de-duplication keeps exactly the first occurrence of each id, in order. */
  lemma DedupeIsFirstOccurrences(ids: seq<Id>)
    ensures Dedupe(ids) == FirstOccurrences(ids)
  {
    DedupeExtends([], ids);
    assert [] + ids == ids;
    assert Elements([]) == {};
  }

  function LinksFor(compositionId: Id, members: seq<Id>): (r: seq<Link>)
    ensures |r| == |members|
    ensures forall i :: 0 <= i < |r| ==> r[i] == Link(compositionId, members[i])
  {
    seq(|members|, i requires 0 <= i < |members| => Link(compositionId, members[i]))
  }

  function FindComposition(rows: seq<Composition>, id: Id): (r: Option<nat>)
    ensures r.Some? ==> r.value < |rows| && rows[r.value].id == id
    ensures r.None? <==> forall i :: 0 <= i < |rows| ==> rows[i].id != id
  {
    if rows == [] then None
    else if rows[0].id == id then Some(0)
    else
      var r := FindComposition(rows[1..], id);
      assert forall i :: 1 <= i < |rows| ==> rows[i] == rows[1..][i - 1];
      match r
      case None => None
      case Some(k) => Some(k + 1)
  }

  /** `update({ is_shared: true }).eq('id', id)`. */
  function MarkShared(rows: seq<Composition>, id: Id): (r: seq<Composition>)
    ensures |r| == |rows|
    ensures forall i :: 0 <= i < |rows| ==> r[i] == if rows[i].id == id then rows[i].(isShared := true) else rows[i]
  {
    seq(|rows|, i requires 0 <= i < |rows| => if rows[i].id == id then rows[i].(isShared := true) else rows[i])
  }

  /**
   * Sharing: the body must name a composition and a non-empty member list;
   * the composition must exist and belong to the caller. `linkError` is the
   * insert's error message, if it fails; the sharing flag is set only after
   * a successful insert.
   */
  function Share(s: Store, caller: Id, compositionId: Value, memberIds: Value, linkError: Option<string>)
    : (r: Result<Store>)
    ensures !Truthy(compositionId) ==> r == Err(MissingField)
    ensures Truthy(compositionId) && !(memberIds.Arr? && |memberIds.items| > 0) ==> r == Err(MissingField)
    ensures (Truthy(compositionId) && memberIds.Arr? && |memberIds.items| > 0
             && (!compositionId.Str? || FindComposition(s.compositions, compositionId.s).None?)) ==> r == Err(NotFound)
    ensures (Truthy(compositionId) && memberIds.Arr? && |memberIds.items| > 0 && compositionId.Str?
             && FindComposition(s.compositions, compositionId.s).Some?) ==>
      var owner := s.compositions[FindComposition(s.compositions, compositionId.s).value].ownerId;
      && (owner != caller ==> r == Err(Forbidden))
      && (owner == caller && linkError.Some? ==> r == Err(ClassifyTableError("composition_members", linkError.value)))
      && (owner == caller && linkError.None? ==> r.Ok?)
    ensures r.Ok? ==> linkError.None?
    ensures r.Ok? || r.error in {TableMissing, StoreFailure} ==>
      && compositionId.Str? && FindComposition(s.compositions, compositionId.s).Some?
      && s.compositions[FindComposition(s.compositions, compositionId.s).value].ownerId == caller
    ensures r.Ok? ==> var members := Dedupe(MemberIds(memberIds.items));
      && r.value.links == s.links + LinksFor(compositionId.s, members)
      && r.value.compositions == MarkShared(s.compositions, compositionId.s)
    ensures r.Err? && r.error in {TableMissing, StoreFailure} ==>
      linkError.Some? && r.error == ClassifyTableError("composition_members", linkError.value)
  {
    if !Truthy(compositionId) then Err(MissingField)
    else if !(memberIds.Arr? && |memberIds.items| > 0) then Err(MissingField)
    else if !compositionId.Str? then Err(NotFound)
    else match FindComposition(s.compositions, compositionId.s)
      case None => Err(NotFound)
      case Some(i) =>
        if s.compositions[i].ownerId != caller then Err(Forbidden)
        else
          var members := Dedupe(MemberIds(memberIds.items));
          match linkError
          case Some(message) => Err(ClassifyTableError("composition_members", message))
          case None =>
            Ok(Store(MarkShared(s.compositions, compositionId.s), s.links + LinksFor(compositionId.s, members)))
  }

  lemma LinksForMembers(cid: Id, members: seq<Id>)
    requires NoDuplicates(members)
    ensures NoDuplicates(LinksFor(cid, members))
    ensures forall m :: Link(cid, m) in LinksFor(cid, members) <==> m in members
    ensures forall l :: l in LinksFor(cid, members) ==> l.compositionId == cid
  {
    var links := LinksFor(cid, members);
    forall m ensures Link(cid, m) in links <==> m in members {
      if m in members {
        var i :| 0 <= i < |members| && members[i] == m;
        assert links[i] == Link(cid, m);
      }
    }
  }

  /** A successful share links each distinct non-blank member exactly once. */
  lemma ShareLinksEachMemberOnce(s: Store, caller: Id, cid: Id, memberIds: seq<Value>)
    requires Share(s, caller, Str(cid), Arr(memberIds), None).Ok?
    ensures var s' := Share(s, caller, Str(cid), Arr(memberIds), None).value;
      var added := s'.links[|s.links|..];
      && NoDuplicates(added)
      && (forall m :: Link(cid, m) in added <==> Str(m) in memberIds && Trim(m) != "")
      && (forall l :: l in added ==> l.compositionId == cid)
  {
    var s' := Share(s, caller, Str(cid), Arr(memberIds), None).value;
    var members := Dedupe(MemberIds(memberIds));
    assert s'.links[|s.links|..] == LinksFor(cid, members);
    LinksForMembers(cid, members);
  }

  /** After a successful share, every caller sees the composition. */
  lemma ShareMakesVisible(s: Store, caller: Id, cid: Id, memberIds: seq<Value>, viewer: Id)
    requires Share(s, caller, Str(cid), Arr(memberIds), None).Ok?
    ensures var s' := Share(s, caller, Str(cid), Arr(memberIds), None).value;
      exists c :: c in ListVisible(Rows(s'.compositions), viewer).value && c.id == cid
  {
    var s' := Share(s, caller, Str(cid), Arr(memberIds), None).value;
    var i := FindComposition(s.compositions, cid).value;
    assert s'.compositions[i].id == cid && s'.compositions[i].isShared;
    assert s'.compositions[i] in s'.compositions;
  }

  /** The endpoint for saving and listing: preflight, caller checks, then GET or POST. */
  function CompositionsEndpoint(verb: Method, caller: Option<Id>, dir: seq<Account>, s: Store, table: Table<Composition>,
                                body: Value, newId: Id, now: int)
    : (r: Result<Reply>)
    ensures verb == Options ==> r == Ok(Preflight)
    ensures verb != Options && !Present(caller) ==> r == Err(NotAuthenticated)
    ensures verb != Options && Present(caller) && !Known(dir, caller.value) ==> r == Err(CallerUnknown)
    ensures verb !in {Options, Get, Post} && Present(caller) && Known(dir, caller.value) ==> r == Err(MethodNotAllowed)
    ensures verb == Get && Present(caller) && Known(dir, caller.value) ==>
      r == match ListVisible(table, caller.value)
           case Ok(listed) => Ok(Listed(listed))
           case Err(e) => Err(e)
    ensures verb == Post && Present(caller) && Known(dir, caller.value) ==>
      var account := FindById(dir, caller.value).value;
      r == match Save(s, caller.value, account, body, newId, now)
           case Ok(saved) => Ok(Saved(saved.0, saved.1))
           case Err(e) => Err(e)
    ensures r.Ok? && r.value.Listed? ==>
      verb == Get && forall c :: c in r.value.compositions ==> VisibleTo(c, caller.value)
    ensures r.Ok? && r.value.Saved? ==> verb == Post && r.value.saved.ownerId == caller.value
  {
    if verb == Options then Ok(Preflight)
    else if !Present(caller) then Err(NotAuthenticated)
    else match FindById(dir, caller.value)
      case None => Err(CallerUnknown)
      case Some(account) =>
        if verb == Get then
          var listed :- ListVisible(table, caller.value);
          Ok(Listed(listed))
        else if verb == Post then
          var (store, c) :- Save(s, caller.value, account, body, newId, now);
          Ok(Saved(store, c))
        else Err(MethodNotAllowed)
  }

  /** The share endpoint: POST only, checked before the caller. */
  function ShareEndpoint(verb: Method, caller: Option<Id>, s: Store, body: Value, linkError: Option<string>)
    : (r: Result<Reply>)
    ensures verb == Options ==> r == Ok(Preflight)
    ensures verb !in {Options, Post} ==> r == Err(MethodNotAllowed)
    ensures verb == Post && !Present(caller) ==> r == Err(NotAuthenticated)
    ensures verb == Post && Present(caller) ==>
      r == match Share(s, caller.value, Field(body, "composition_id"), Field(body, "member_ids"), linkError)
           case Ok(shared) => Ok(Shared(shared))
           case Err(e) => Err(e)
    ensures r.Ok? && r.value.Shared? ==> verb == Post && Present(caller)
  {
    if verb == Options then Ok(Preflight)
    else if verb != Post then Err(MethodNotAllowed)
    else if !Present(caller) then Err(NotAuthenticated)
    else
      var store :- Share(s, caller.value, Field(body, "composition_id"), Field(body, "member_ids"), linkError);
      Ok(Shared(store))
  }
}

=== FILE: directory.dfy ===
/**
 * The user directory (the identity provider's account list) and the display
 * records the handlers derive from it: the display name with its fallbacks,
 * the name used for case-insensitive lookup, and the id-keyed actor map built
 * by `buildUsersMap` and its inline copies.
 */
module Directory {

  import opened Base
  import opened Text
  import Json

  type Id = string

  /** The `user_metadata` fields the handlers read. */
  datatype Metadata = Metadata(
    username: Option<string>,
    bio: Option<string>,
    avatarUrl: Option<string>,
    lanes: Option<seq<Json.Value>>)

  datatype Account = Account(id: Id, email: Option<string>, meta: Metadata)

  /** `account.email?.split('@')[0]`, absent when there is no e-mail. */
  function EmailLocal(a: Account): Option<string> {
    match a.email
    case None => None
    case Some(e) => Some(LocalPart(e))
  }

  /** `user_metadata?.username || email?.split('@')[0] || fallback`. */
  function NameOr(a: Account, fallback: string): (r: string)
    ensures Present(a.meta.username) ==> r == a.meta.username.value
    ensures !Present(a.meta.username) && Present(EmailLocal(a)) ==> r == EmailLocal(a).value
    ensures !Present(a.meta.username) && !Present(EmailLocal(a)) ==> r == fallback
  {
    OrElse(a.meta.username, OrElse(EmailLocal(a), fallback))
  }

  /** The name shown for an account: metadata username, else e-mail local part, else 'Membre'. */
  function DisplayName(a: Account): (r: string)
    ensures r != ""
  {
    NameOr(a, "Membre")
  }

  /** The name a username lookup compares against: as `DisplayName`, but '' instead of 'Membre'. */
  function LookupName(a: Account): string {
    NameOr(a, "")
  }

  /** The two derivations differ only where the lookup name is empty. */
  lemma DisplayNameFromLookupName(a: Account)
    ensures DisplayName(a) == if LookupName(a) != "" then LookupName(a) else "Membre"
    ensures LookupName(a) != "" <==> Present(a.meta.username) || Present(EmailLocal(a))
  {
  }

  /** `getUserById` succeeds. */
  predicate Known(dir: seq<Account>, id: Id) {
    exists i :: 0 <= i < |dir| && dir[i].id == id
  }

  function Ids(dir: seq<Account>): set<Id> {
    set i | 0 <= i < |dir| :: dir[i].id
  }

  lemma KnownIds(dir: seq<Account>, id: Id)
    ensures Known(dir, id) <==> id in Ids(dir)
  {
  }

  /** `getUserById`: the account with that id (ids are unique in the directory). */
  function FindById(dir: seq<Account>, id: Id): (r: Option<Account>)
    ensures r.Some? <==> Known(dir, id)
    ensures r.Some? ==> r.value in dir && r.value.id == id
  {
    if dir == [] then None
    else if dir[0].id == id then Some(dir[0])
    else
      var r := FindById(dir[1..], id);
      assert forall i :: 1 <= i < |dir| ==> dir[i] == dir[1..][i - 1];
      if r.Some? then r
      else
        assert !Known(dir[1..], id);
        r
  }

  /** Case-insensitive equality of an account's lookup name with `name`. */
  predicate NameMatches(a: Account, name: string) {
    ToLower(LookupName(a)) == ToLower(name)
  }

  /**
   * `users.find(entry => lookupName(entry).toLowerCase() === name.toLowerCase())`:
   * the index of the first account whose lookup name matches.
   */
  function FindByName(dir: seq<Account>, name: string): (r: Option<nat>)
    ensures r.Some? ==> r.value < |dir| && NameMatches(dir[r.value], name)
    ensures r.Some? ==> forall j :: 0 <= j < r.value ==> !NameMatches(dir[j], name)
    ensures r.None? <==> forall j :: 0 <= j < |dir| ==> !NameMatches(dir[j], name)
  {
    if dir == [] then None
    else if NameMatches(dir[0], name) then Some(0)
    else
      var r := FindByName(dir[1..], name);
      assert forall j :: 1 <= j < |dir| ==> dir[j] == dir[1..][j - 1];
      match r
      case None => None
      case Some(k) => Some(k + 1)
  }

  /** The `{ id, email, username }` record the handlers attach to a user. */
  datatype Actor = Actor(id: Id, email: Option<string>, username: string)

  function ActorOf(a: Account): (r: Actor)
    ensures r.id == a.id && r.username != ""
  {
    Actor(a.id, a.email, DisplayName(a))
  }

  /** Reference resolution: the actor of the last account carrying `id`. */
  function Resolve(dir: seq<Account>, id: Id): (r: Option<Actor>)
    ensures r.Some? <==> Known(dir, id)
    ensures r.Some? ==> r.value.id == id
  {
    if dir == [] then None
    else
      var last := dir[|dir| - 1];
      if last.id == id then Some(ActorOf(last))
      else
        var r := Resolve(dir[..|dir| - 1], id);
        assert forall j :: 0 <= j < |dir| - 1 ==> dir[j] == dir[..|dir| - 1][j];
        r
  }

  /** Every actor is stored under its own id. */
  predicate KeyedById(m: map<Id, Actor>) {
    forall id :: id in m ==> m[id].id == id
  }

  /**
   * `buildUsersMap`: walks the directory in order and records the actor of
   * every account whose id is in `targets`, a later account overwriting an
   * earlier one with the same id.
   */
  function BuildActorMap(dir: seq<Account>, targets: set<Id>): (m: map<Id, Actor>)
    ensures forall id :: id in m ==> id in targets
    ensures KeyedById(m)
    decreases |dir|
  {
    if dir == [] then map[]
    else
      var m := BuildActorMap(dir[..|dir| - 1], targets);
      var last := dir[|dir| - 1];
      if last.id in targets then m[last.id := ActorOf(last)] else m
  }

  /** The actor map holds exactly the targets present in the directory, each resolved as `Resolve` does. */
  lemma {:induction false} BuildActorMapResolves(dir: seq<Account>, targets: set<Id>, id: Id)
    ensures id in BuildActorMap(dir, targets) <==> id in targets && Known(dir, id)
    ensures id in BuildActorMap(dir, targets) ==> Resolve(dir, id) == Some(BuildActorMap(dir, targets)[id])
    decreases |dir|
  {
    if dir != [] {
      var init := dir[..|dir| - 1];
      BuildActorMapResolves(init, targets, id);
      assert forall j :: 0 <= j < |dir| - 1 ==> dir[j] == init[j];
      if Known(dir, id) && dir[|dir| - 1].id != id {
        var j :| 0 <= j < |dir| && dir[j].id == id;
        assert init[j].id == id;
      }
    }
  }

  /** The lookup `usersMap.get(id)` as an option. */
  function Lookup(m: map<Id, Actor>, id: Id): Option<Actor> {
    if id in m then Some(m[id]) else None
  }
}

=== FILE: friend_handlers.dfy ===
/**
 * The HTTP endpoints over the friend state machine. The combined endpoint
 * dispatches on verb, query and body action; the standalone endpoints
 * expose one operation each and make their checks in a different order.
 *
 * The caller is the `sub` claim of the bearer token, already decoded: absent
 * when the header is missing or the token does not decode.
 */
module FriendHandlers {

  import opened Base
  import opened Directory
  import opened Json
  import opened Friends

  datatype Reply =
    | Preflight
    | Listed(listing: Listing)
    | Found(hits: seq<Hit>)
    | Sent(store: seq<FriendRequest>)
    | Answered(store: seq<FriendRequest>, status: Status)

  /** The caller id is a truthy string. */
  predicate Authenticated(caller: Option<Id>) {
    Present(caller)
  }

  /**
   * `handleRequest` once the caller is resolved: the target must be truthy,
   * differ from the caller and name an account; then the pair check, in
   * its corrected form (`Friends.Request`: any active row for the pair
   * blocks, not only the first one the store returns).
   */
  function HandleRequest(table: Table<FriendRequest>, dir: seq<Account>, caller: Id, target: Value, newId: Id, now: int)
    : (r: Result<seq<FriendRequest>>)
    ensures !Truthy(target) ==> r == Err(MissingField)
    ensures Truthy(target) && target == Str(caller) ==> r == Err(SelfTarget)
    ensures Truthy(target) && target != Str(caller) && !(target.Str? && Known(dir, target.s)) ==> r == Err(NotFound)
    ensures Truthy(target) && target != Str(caller) && target.Str? && Known(dir, target.s) ==>
      r == Request(table, caller, target.s, newId, now)
    ensures r.Ok? ==> target.Str? && target.s != caller && Known(dir, target.s)
    ensures r.Ok? ==> table.Rows? && r.value == table.rows + [NewRequest(newId, caller, target.s, now)]
  {
    if !Truthy(target) then Err(MissingField)
    else if target == Str(caller) then Err(SelfTarget)
    else if !(target.Str? && Known(dir, target.s)) then Err(NotFound)
    else Request(table, caller, target.s, newId, now)
  }

  /** The lookup and update of a parsed respond call; a non-string id matches no row. */
  function Decide(table: Table<FriendRequest>, caller: Id, requestId: Value, d: Decision, now: int)
    : (r: Result<(seq<FriendRequest>, Status)>)
    ensures !requestId.Str? ==> r == Err(NotFound)
    ensures requestId.Str? ==> r == ApplyDecision(table, caller, requestId.s, d, now)
    ensures r.Ok? ==> r.value.1 == NewStatus(d)
  {
    if !requestId.Str? then Err(NotFound)
    else ApplyDecision(table, caller, requestId.s, d, now)
  }

  /** `handleRespond` once the caller is resolved. */
  function HandleRespond(table: Table<FriendRequest>, caller: Id, requestId: Value, decision: Value, now: int)
    : (r: Result<(seq<FriendRequest>, Status)>)
    ensures !Truthy(requestId) || !Truthy(decision) ==> r == Err(MissingField)
    ensures Truthy(requestId) && Truthy(decision) && decision != Str("accept") && decision != Str("decline")
            ==> r == Err(InvalidValue)
    ensures Truthy(requestId) && !requestId.Str? && (decision == Str("accept") || decision == Str("decline"))
            ==> r == Err(NotFound)
    ensures Truthy(requestId) && requestId.Str? && decision == Str("accept") ==>
      r == ApplyDecision(table, caller, requestId.s, Accept, now)
    ensures Truthy(requestId) && requestId.Str? && decision == Str("decline") ==>
      r == ApplyDecision(table, caller, requestId.s, Decline, now)
    ensures r.Ok? ==> requestId.Str? && (decision == Str("accept") || decision == Str("decline"))
    ensures r.Ok? ==> (r.value.1 == Accepted <==> decision == Str("accept"))
  {
    var (id, d) :- ParseDecision(requestId, decision);
    Decide(table, caller, id, d, now)
  }

  /**
   * The combined endpoint: preflight, then the caller checks, then GET
   * (search when `mode` is 'search' or the normalised query is non-empty,
   * otherwise the listing) or POST (dispatch on `action`); any other verb
   * is refused.
   */
  function Handle(verb: Method, caller: Option<Id>, dir: seq<Account>, table: Table<FriendRequest>,
                  q: Option<string>, mode: Option<string>, body: Value, newId: Id, now: int)
    : (r: Result<Reply>)
    ensures verb == Options ==> r == Ok(Preflight)
    ensures verb != Options && !Authenticated(caller) ==> r == Err(NotAuthenticated)
    ensures verb != Options && Authenticated(caller) && !Known(dir, caller.value) ==> r == Err(CallerUnknown)
    ensures verb !in {Options, Get, Post} && Authenticated(caller) && Known(dir, caller.value)
            ==> r == Err(MethodNotAllowed)
    ensures verb == Get && Authenticated(caller) && Known(dir, caller.value)
            && (Text.ToLower(mode.GetOr("")) == "search" || NormalizeQuery(q) != "") ==>
      r == match Search(table, dir, caller.value, NormalizeQuery(q))
           case Ok(hits) => Ok(Found(hits)) case Err(e) => Err(e)
    ensures verb == Get && Authenticated(caller) && Known(dir, caller.value)
            && Text.ToLower(mode.GetOr("")) != "search" && NormalizeQuery(q) == "" ==>
      r == match List(table, dir, caller.value) case Ok(l) => Ok(Listed(l)) case Err(e) => Err(e)
    ensures verb == Get && r.Ok? ==>
      (r.value.Found? <==> Text.ToLower(mode.GetOr("")) == "search" || NormalizeQuery(q) != "")
    ensures verb == Get && r.Ok? ==> r.value.Found? || r.value.Listed?
    ensures verb == Post && r.Ok? ==> r.value.Sent? || r.value.Answered?
    ensures verb == Post && Authenticated(caller) && Known(dir, caller.value)
            && Field(body, "action") != Str("request") && Field(body, "action") != Str("respond")
            ==> r == Err(InvalidValue)
    ensures verb == Post && Authenticated(caller) && Known(dir, caller.value) && Field(body, "action") == Str("request") ==>
      r == match HandleRequest(table, dir, caller.value, Field(body, "user_id"), newId, now)
           case Ok(store) => Ok(Sent(store)) case Err(e) => Err(e)
    ensures verb == Post && Authenticated(caller) && Known(dir, caller.value) && Field(body, "action") == Str("respond") ==>
      r == match HandleRespond(table, caller.value, Field(body, "request_id"), Field(body, "decision"), now)
           case Ok(a) => Ok(Answered(a.0, a.1)) case Err(e) => Err(e)
    ensures r.Ok? && r.value.Sent? ==> Field(body, "action") == Str("request")
    ensures r.Ok? && r.value.Answered? ==> Field(body, "action") == Str("respond")
  {
    if verb == Options then Ok(Preflight)
    else if !Authenticated(caller) then Err(NotAuthenticated)
    else if !Known(dir, caller.value) then Err(CallerUnknown)
    else if verb == Get then
      var query := NormalizeQuery(q);
      if Text.ToLower(mode.GetOr("")) == "search" || query != "" then
        var hits :- Search(table, dir, caller.value, query);
        Ok(Found(hits))
      else
        var listing :- List(table, dir, caller.value);
        Ok(Listed(listing))
    else if verb == Post then
      var action := Field(body, "action");
      if action == Str("request") then
        var store :- HandleRequest(table, dir, caller.value, Field(body, "user_id"), newId, now);
        Ok(Sent(store))
      else if action == Str("respond") then
        var answer :- HandleRespond(table, caller.value, Field(body, "request_id"), Field(body, "decision"), now);
        Ok(Answered(answer.0, answer.1))
      else Err(InvalidValue)
    else Err(MethodNotAllowed)
  }

  /**
   * The standalone request endpoint: POST only; the body checks come before
   * the caller lookup.
   */
  function RequestEndpoint(verb: Method, caller: Option<Id>, dir: seq<Account>, table: Table<FriendRequest>,
                           body: Value, newId: Id, now: int)
    : (r: Result<Reply>)
    ensures verb == Options ==> r == Ok(Preflight)
    ensures verb != Options && verb != Post ==> r == Err(MethodNotAllowed)
    ensures verb == Post && !Authenticated(caller) ==> r == Err(NotAuthenticated)
    ensures verb == Post && Authenticated(caller) && !Truthy(Field(body, "user_id")) ==> r == Err(MissingField)
    ensures (verb == Post && Authenticated(caller) && Truthy(Field(body, "user_id"))
             && Field(body, "user_id") == Str(caller.value)) ==> r == Err(SelfTarget)
    ensures (verb == Post && Authenticated(caller) && Truthy(Field(body, "user_id"))
             && Field(body, "user_id") != Str(caller.value) && !Known(dir, caller.value)) ==> r == Err(CallerUnknown)
    ensures verb == Post && Authenticated(caller) && Known(dir, caller.value) ==>
      r == match HandleRequest(table, dir, caller.value, Field(body, "user_id"), newId, now)
           case Ok(store) => Ok(Sent(store)) case Err(e) => Err(e)
    ensures r.Ok? && r.value.Sent? ==> Known(dir, caller.value)
  {
    if verb == Options then Ok(Preflight)
    else if verb != Post then Err(MethodNotAllowed)
    else if !Authenticated(caller) then Err(NotAuthenticated)
    else
      var target := Field(body, "user_id");
      if !Truthy(target) then Err(MissingField)
      else if target == Str(caller.value) then Err(SelfTarget)
      else if !Known(dir, caller.value) then Err(CallerUnknown)
      else
        var store :- HandleRequest(table, dir, caller.value, target, newId, now);
        Ok(Sent(store))
  }

  /**
   * The standalone respond endpoint: POST only; the decision is read from
   * `action`, and the body checks come before the caller lookup.
   */
  function RespondEndpoint(verb: Method, caller: Option<Id>, dir: seq<Account>, table: Table<FriendRequest>,
                           body: Value, now: int)
    : (r: Result<Reply>)
    ensures verb == Options ==> r == Ok(Preflight)
    ensures verb != Options && verb != Post ==> r == Err(MethodNotAllowed)
    ensures verb == Post && !Authenticated(caller) ==> r == Err(NotAuthenticated)
    ensures (verb == Post && Authenticated(caller)
             && (!Truthy(Field(body, "request_id")) || !Truthy(Field(body, "action")))) ==> r == Err(MissingField)
    ensures (verb == Post && Authenticated(caller) && Truthy(Field(body, "request_id")) && Truthy(Field(body, "action"))
             && Field(body, "action") != Str("accept") && Field(body, "action") != Str("decline")) ==> r == Err(InvalidValue)
    ensures (verb == Post && Authenticated(caller) && ParseDecision(Field(body, "request_id"), Field(body, "action")).Ok?
             && !Known(dir, caller.value)) ==> r == Err(CallerUnknown)
    ensures verb == Post && Authenticated(caller) && Known(dir, caller.value) ==>
      r == match HandleRespond(table, caller.value, Field(body, "request_id"), Field(body, "action"), now)
           case Ok(a) => Ok(Answered(a.0, a.1)) case Err(e) => Err(e)
    ensures r.Ok? && r.value.Answered? ==> Known(dir, caller.value)
  {
    if verb == Options then Ok(Preflight)
    else if verb != Post then Err(MethodNotAllowed)
    else if !Authenticated(caller) then Err(NotAuthenticated)
    else
      var (id, d) :- ParseDecision(Field(body, "request_id"), Field(body, "action"));
      if !Known(dir, caller.value) then Err(CallerUnknown)
      else
        var answer :- Decide(table, caller.value, id, d, now);
        Ok(Answered(answer.0, answer.1))
  }

  /** The standalone search endpoint: GET only; the query length is checked before the caller lookup. */
  function SearchEndpoint(verb: Method, caller: Option<Id>, dir: seq<Account>, table: Table<FriendRequest>,
                          q: Option<string>)
    : (r: Result<Reply>)
    ensures verb == Options ==> r == Ok(Preflight)
    ensures verb != Options && verb != Get ==> r == Err(MethodNotAllowed)
    ensures verb == Get && !Authenticated(caller) ==> r == Err(NotAuthenticated)
    ensures verb == Get && Authenticated(caller) && Text.Utf16Length(NormalizeQuery(q)) < 2 ==> r == Err(QueryTooShort)
    ensures verb == Get && Authenticated(caller) && Text.Utf16Length(NormalizeQuery(q)) >= 2 && !Known(dir, caller.value)
            ==> r == Err(CallerUnknown)
    ensures verb == Get && Authenticated(caller) && Known(dir, caller.value) ==>
      r == match Search(table, dir, caller.value, NormalizeQuery(q))
           case Ok(hits) => Ok(Found(hits)) case Err(e) => Err(e)
    ensures r.Ok? && verb == Get ==> r.value.Found? && |r.value.hits| <= MaxCandidates
  {
    if verb == Options then Ok(Preflight)
    else if verb != Get then Err(MethodNotAllowed)
    else if !Authenticated(caller) then Err(NotAuthenticated)
    else
      var query := NormalizeQuery(q);
      if Text.Utf16Length(query) < 2 then Err(QueryTooShort)
      else if !Known(dir, caller.value) then Err(CallerUnknown)
      else
        var hits :- Search(table, dir, caller.value, query);
        Ok(Found(hits))
  }

  /** The standalone listing endpoint: GET only. */
  function ListEndpoint(verb: Method, caller: Option<Id>, dir: seq<Account>, table: Table<FriendRequest>)
    : (r: Result<Reply>)
    ensures verb == Options ==> r == Ok(Preflight)
    ensures verb != Options && verb != Get ==> r == Err(MethodNotAllowed)
    ensures verb == Get && !Authenticated(caller) ==> r == Err(NotAuthenticated)
    ensures verb == Get && Authenticated(caller) && !Known(dir, caller.value) ==> r == Err(CallerUnknown)
    ensures verb == Get && Authenticated(caller) && Known(dir, caller.value) && table.Rows? ==> r.Ok? && r.value.Listed?
    ensures verb == Get && Authenticated(caller) && Known(dir, caller.value) ==>
      r == match List(table, dir, caller.value) case Ok(l) => Ok(Listed(l)) case Err(e) => Err(e)
  {
    if verb == Options then Ok(Preflight)
    else if verb != Get then Err(MethodNotAllowed)
    else if !Authenticated(caller) then Err(NotAuthenticated)
    else if !Known(dir, caller.value) then Err(CallerUnknown)
    else
      var listing :- List(table, dir, caller.value);
      Ok(Listed(listing))
  }

  // ---------------------------------------------------------------------------
  // The combined and the standalone endpoints agree once the caller resolves.

  lemma ListEndpointsAgree(caller: Id, dir: seq<Account>, table: Table<FriendRequest>, body: Value, newId: Id, now: int)
    ensures Handle(Get, Some(caller), dir, table, None, None, body, newId, now) == ListEndpoint(Get, Some(caller), dir, table)
  {
    assert NormalizeQuery(None) == "" by {
      assert Text.AllSpace("");
    }
    assert Text.ToLower("") != "search";
  }

  lemma SearchEndpointsAgree(caller: Id, dir: seq<Account>, table: Table<FriendRequest>, q: Option<string>,
                             mode: Option<string>, body: Value, newId: Id, now: int)
    requires Authenticated(Some(caller)) && Known(dir, caller) && NormalizeQuery(q) != ""
    ensures Handle(Get, Some(caller), dir, table, q, mode, body, newId, now) == SearchEndpoint(Get, Some(caller), dir, table, q)
  {
  }

  lemma RequestEndpointsAgree(caller: Id, dir: seq<Account>, table: Table<FriendRequest>, target: Value, newId: Id, now: int)
    requires Known(dir, caller)
    ensures var body := Obj(map["action" := Str("request"), "user_id" := target]);
      Handle(Post, Some(caller), dir, table, None, None, body, newId, now)
      == RequestEndpoint(Post, Some(caller), dir, table, body, newId, now)
  {
    var body := Obj(map["action" := Str("request"), "user_id" := target]);
    assert Field(body, "action") == Str("request") && Field(body, "user_id") == target;
    if Authenticated(Some(caller)) {
      assert Str(caller) != Str("request") || caller == "request";
    } else {
      assert caller == "";
    }
  }

  /** The combined endpoint's `decision` field plays the role of the standalone endpoint's `action`. */
  lemma RespondEndpointsAgree(caller: Id, dir: seq<Account>, table: Table<FriendRequest>, requestId: Value,
                              decision: Value, now: int)
    requires Known(dir, caller)
    ensures Handle(Post, Some(caller), dir, table, None, None,
                   Obj(map["action" := Str("respond"), "request_id" := requestId, "decision" := decision]), "", now)
            == RespondEndpoint(Post, Some(caller), dir, table,
                               Obj(map["request_id" := requestId, "action" := decision]), now)
  {
    var b1 := Obj(map["action" := Str("respond"), "request_id" := requestId, "decision" := decision]);
    var b2 := Obj(map["request_id" := requestId, "action" := decision]);
    assert Field(b1, "action") == Str("respond");
    assert Field(b1, "request_id") == requestId && Field(b1, "decision") == decision;
    assert Field(b2, "request_id") == requestId && Field(b2, "action") == decision;
  }

  /**
   * The check order differs: for an unknown caller and a body without a
   * target, the combined endpoint refuses the caller while the standalone
   * endpoint refuses the body.
   */
  lemma RequestCheckOrderDiffers(dir: seq<Account>, table: Table<FriendRequest>)
    requires !Known(dir, "ghost")
    ensures Handle(Post, Some("ghost"), dir, table, None, None, Obj(map["action" := Str("request")]), "r", 0)
            == Err(CallerUnknown)
    ensures RequestEndpoint(Post, Some("ghost"), dir, table, Obj(map["action" := Str("request")]), "r", 0)
            == Err(MissingField)
  {
    assert Field(Obj(map["action" := Str("request")]), "user_id") == Undefined;
  }
}

=== FILE: friends.dfy ===
/**
 * The friend-relationship state machine over the `friend_requests` relation:
 * sending a request, answering it, listing a user's relationships, and
 * searching the directory with a relationship status per candidate.
 *
 * The store is a sequence of rows in the order the store returns them when
 * a read has no `order` clause.
 */
module Friends {

  import opened Base
  import opened Text
  import opened Directory
  import opened Json
  import Sorting

  datatype Status = Pending | Accepted | Declined

  datatype FriendRequest = FriendRequest(
    id: Id,
    requester: Id,
    addressee: Id,
    status: Status,
    createdAt: int,
    updatedAt: Option<int>)

  /** The row links `a` and `b`, in either direction. */
  predicate Between(r: FriendRequest, a: Id, b: Id) {
    (r.requester == a && r.addressee == b) || (r.requester == b && r.addressee == a)
  }

  predicate Involves(r: FriendRequest, u: Id) {
    r.requester == u || r.addressee == u
  }

  /** The other side of a row, seen from `u`. */
  function Counterpart(r: FriendRequest, u: Id): Id {
    if r.requester == u then r.addressee else r.requester
  }

  predicate Active(r: FriendRequest) {
    r.status == Pending || r.status == Accepted
  }

  function CreatedAt(r: FriendRequest): int {
    r.createdAt
  }

  // ---------------------------------------------------------------------------
  // Store invariants

  predicate UniqueIds(rows: seq<FriendRequest>) {
    forall i, j :: 0 <= i < j < |rows| ==> rows[i].id != rows[j].id
  }

  predicate NoSelfRows(rows: seq<FriendRequest>) {
    forall i :: 0 <= i < |rows| ==> rows[i].requester != rows[i].addressee
  }

  /** At most one pending-or-accepted row for any unordered pair of users. */
  predicate OneActivePerPair(rows: seq<FriendRequest>) {
    forall i, j :: 0 <= i < j < |rows| && Active(rows[i]) && Active(rows[j]) ==>
      !Between(rows[j], rows[i].requester, rows[i].addressee)
  }

  predicate Valid(rows: seq<FriendRequest>) {
    UniqueIds(rows) && NoSelfRows(rows) && OneActivePerPair(rows)
  }

  predicate FreshId(rows: seq<FriendRequest>, id: Id) {
    forall i :: 0 <= i < |rows| ==> rows[i].id != id
  }

  // ---------------------------------------------------------------------------
  // Sending a request

  /** The position of the first row for the pair: what `.or(pair).limit(1)` returns. */
  function FirstPairIndex(rows: seq<FriendRequest>, a: Id, b: Id): (r: Option<nat>)
    ensures r.Some? ==> r.value < |rows| && Between(rows[r.value], a, b)
    ensures r.Some? ==> forall j :: 0 <= j < r.value ==> !Between(rows[j], a, b)
    ensures r.None? <==> forall j :: 0 <= j < |rows| ==> !Between(rows[j], a, b)
  {
    if rows == [] then None
    else if Between(rows[0], a, b) then Some(0)
    else
      var r := FirstPairIndex(rows[1..], a, b);
      assert forall j :: 1 <= j < |rows| ==> rows[j] == rows[1..][j - 1];
      match r
      case None => None
      case Some(k) => Some(k + 1)
  }

  /** The row an accepted request inserts. */
  function NewRequest(id: Id, caller: Id, target: Id, now: int): FriendRequest {
    FriendRequest(id, caller, target, Pending, now, None)
  }

  /**
   * The existence check and insert of a friend request as the handlers
   * perform them: only the first row found for the pair is consulted.
   */
  function RequestAsWritten(table: Table<FriendRequest>, caller: Id, target: Id, newId: Id, now: int)
    : (r: Result<seq<FriendRequest>>)
    ensures table.Broken? ==> r == Err(ClassifyTableError("friend_requests", table.message))
    ensures table.Rows? && FirstPairIndex(table.rows, caller, target).Some? ==>
      var first := table.rows[FirstPairIndex(table.rows, caller, target).value];
      && (first.status == Accepted ==> r == Err(AlreadyFriends))
      && (first.status == Pending ==> r == Err(RequestPending))
    ensures r.Ok? <==> (table.Rows? &&
      (FirstPairIndex(table.rows, caller, target).None?
       || table.rows[FirstPairIndex(table.rows, caller, target).value].status == Declined))
    ensures r.Ok? ==> r.value == table.rows + [NewRequest(newId, caller, target, now)]
  {
    match table
    case Broken(message) => Err(ClassifyTableError("friend_requests", message))
    case Rows(rows) =>
      match FirstPairIndex(rows, caller, target)
      case Some(i) =>
        if rows[i].status == Accepted then Err(AlreadyFriends)
        else if rows[i].status == Pending then Err(RequestPending)
        else Ok(rows + [NewRequest(newId, caller, target, now)])
      case None => Ok(rows + [NewRequest(newId, caller, target, now)])
  }

  predicate PairHas(rows: seq<FriendRequest>, a: Id, b: Id, s: Status) {
    exists i :: 0 <= i < |rows| && Between(rows[i], a, b) && rows[i].status == s
  }

  /**
   * The check the relationship invariant calls for: any accepted row for the
   * pair blocks with "already friends", any pending row with "request pending".
   */
  function Request(table: Table<FriendRequest>, caller: Id, target: Id, newId: Id, now: int)
    : (r: Result<seq<FriendRequest>>)
    ensures table.Broken? ==> r == Err(ClassifyTableError("friend_requests", table.message))
    ensures table.Rows? && PairHas(table.rows, caller, target, Accepted) ==> r == Err(AlreadyFriends)
    ensures table.Rows? && !PairHas(table.rows, caller, target, Accepted) && PairHas(table.rows, caller, target, Pending)
            ==> r == Err(RequestPending)
    ensures r.Ok? <==> table.Rows? && !PairHas(table.rows, caller, target, Accepted)
                       && !PairHas(table.rows, caller, target, Pending)
    ensures r.Ok? ==> r.value == table.rows + [NewRequest(newId, caller, target, now)]
  {
    match table
    case Broken(message) => Err(ClassifyTableError("friend_requests", message))
    case Rows(rows) =>
      if PairHas(rows, caller, target, Accepted) then Err(AlreadyFriends)
      else if PairHas(rows, caller, target, Pending) then Err(RequestPending)
      else Ok(rows + [NewRequest(newId, caller, target, now)])
  }

  /** The corrected request keeps every store invariant. */
  lemma RequestPreservesValid(rows: seq<FriendRequest>, caller: Id, target: Id, newId: Id, now: int)
    requires Valid(rows) && caller != target && FreshId(rows, newId)
    requires Request(Rows(rows), caller, target, newId, now).Ok?
    ensures Valid(Request(Rows(rows), caller, target, newId, now).value)
  {
    var rows' := rows + [NewRequest(newId, caller, target, now)];
    var n := |rows|;
    forall i, j | 0 <= i < j < |rows'| && Active(rows'[i]) && Active(rows'[j])
      ensures !Between(rows'[j], rows'[i].requester, rows'[i].addressee)
    {
      if j == n {
        assert rows'[i] == rows[i];
        if Between(rows'[j], rows[i].requester, rows[i].addressee) {
          assert Between(rows[i], caller, target);
        }
      } else {
        assert rows'[i] == rows[i] && rows'[j] == rows[j];
      }
    }
  }

  /** Once a corrected request succeeds, a repeat in either direction is refused as pending. */
  lemma RequestBlocksRepeat(rows: seq<FriendRequest>, a: Id, b: Id, id1: Id, id2: Id, id3: Id, t1: int, t2: int)
    requires Request(Rows(rows), a, b, id1, t1).Ok?
    ensures var rows' := Request(Rows(rows), a, b, id1, t1).value;
      && Request(Rows(rows'), a, b, id2, t2) == Err(RequestPending)
      && Request(Rows(rows'), b, a, id3, t2) == Err(RequestPending)
  {
    var rows' := rows + [NewRequest(id1, a, b, t1)];
    assert Between(rows'[|rows|], a, b) && Between(rows'[|rows|], b, a);
    forall i | 0 <= i < |rows'| && Between(rows'[i], a, b)
      ensures rows'[i].status != Accepted
    {
      if i < |rows| {
        assert rows'[i] == rows[i];
      }
    }
    forall i | 0 <= i < |rows'| && Between(rows'[i], b, a)
      ensures rows'[i].status != Accepted
    {
      assert Between(rows'[i], a, b);
    }
  }

  /**
   * Counterexample for the first-row check: the pair's first row is declined
   * while a later row is still pending, so a request in the other direction
   * adds a second pending row for the same pair.
   */
  lemma RequestAsWrittenAddsSecondActiveRow()
    ensures var rows := [FriendRequest("r1", "a", "b", Declined, 1, Some(2)),
                         FriendRequest("r2", "a", "b", Pending, 3, None)];
      && Valid(rows)
      && RequestAsWritten(Rows(rows), "b", "a", "r3", 4).Ok?
      && !OneActivePerPair(RequestAsWritten(Rows(rows), "b", "a", "r3", 4).value)
  {
    var rows := [FriendRequest("r1", "a", "b", Declined, 1, Some(2)),
                 FriendRequest("r2", "a", "b", Pending, 3, None)];
    assert FirstPairIndex(rows, "b", "a") == Some(0);
    var rows' := RequestAsWritten(Rows(rows), "b", "a", "r3", 4).value;
    assert rows'[1] == rows[1] && rows'[2] == NewRequest("r3", "b", "a", 4);
    assert Active(rows'[1]) && Active(rows'[2]) && Between(rows'[2], rows'[1].requester, rows'[1].addressee);
  }

  /** Counterexample for the first-row check: repeating a successful request succeeds again. */
  lemma RequestAsWrittenRepeats()
    ensures var rows := [FriendRequest("r1", "a", "b", Declined, 1, Some(2))];
      && RequestAsWritten(Rows(rows), "a", "b", "r2", 3).Ok?
      && RequestAsWritten(Rows(RequestAsWritten(Rows(rows), "a", "b", "r2", 3).value), "a", "b", "r3", 4).Ok?
  {
    var rows := [FriendRequest("r1", "a", "b", Declined, 1, Some(2))];
    assert FirstPairIndex(rows, "a", "b") == Some(0);
    var rows' := rows + [NewRequest("r2", "a", "b", 3)];
    assert FirstPairIndex(rows', "a", "b") == Some(0);
  }

  // ---------------------------------------------------------------------------
  // Answering a request

  datatype Decision = Accept | Decline

  function NewStatus(d: Decision): Status {
    match d
    case Accept => Accepted
    case Decline => Declined
  }

  /**
   * The body checks of a respond call, made before any store access: both
   * fields truthy, and the decision one of the two accepted strings.
   */
  function ParseDecision(requestId: Value, decision: Value): (r: Result<(Value, Decision)>)
    ensures !Truthy(requestId) || !Truthy(decision) ==> r == Err(MissingField)
    ensures Truthy(requestId) && Truthy(decision) && decision != Str("accept") && decision != Str("decline")
            ==> r == Err(InvalidValue)
    ensures Truthy(requestId) && decision == Str("accept") ==> r == Ok((requestId, Accept))
    ensures Truthy(requestId) && decision == Str("decline") ==> r == Ok((requestId, Decline))
    ensures r.Ok? ==> r.value.0 == requestId
    ensures r.Ok? ==> (r.value.1 == Accept <==> decision == Str("accept"))
    ensures r.Ok? ==> (r.value.1 == Decline <==> decision == Str("decline"))
  {
    if !Truthy(requestId) || !Truthy(decision) then Err(MissingField)
    else if decision == Str("accept") then Ok((requestId, Accept))
    else if decision == Str("decline") then Ok((requestId, Decline))
    else Err(InvalidValue)
  }

  /** The position of the row with id `id`: what `.eq('id', id).single()` returns. */
  function FindRequest(rows: seq<FriendRequest>, id: Id): (r: Option<nat>)
    ensures r.Some? ==> r.value < |rows| && rows[r.value].id == id
    ensures r.Some? ==> forall j :: 0 <= j < r.value ==> rows[j].id != id
    ensures r.None? <==> FreshId(rows, id)
  {
    if rows == [] then None
    else if rows[0].id == id then Some(0)
    else
      var r := FindRequest(rows[1..], id);
      assert forall j :: 1 <= j < |rows| ==> rows[j] == rows[1..][j - 1];
      match r
      case None => None
      case Some(k) => Some(k + 1)
  }

  /** `update({ status, updated_at }).eq('id', id)`. */
  function Stamp(rows: seq<FriendRequest>, id: Id, s: Status, now: int): (r: seq<FriendRequest>)
    ensures |r| == |rows|
    ensures forall i :: 0 <= i < |rows| ==> r[i].id == rows[i].id
    ensures forall i :: 0 <= i < |rows| ==>
      r[i] == if rows[i].id == id then rows[i].(status := s, updatedAt := Some(now)) else rows[i]
  {
    seq(|rows|, i requires 0 <= i < |rows| =>
      if rows[i].id == id then rows[i].(status := s, updatedAt := Some(now)) else rows[i])
  }

  /**
   * Answering request `id`: not found, then not the addressee, then not
   * pending, then the one-shot status change. A failed read reports "not found".
   */
  function ApplyDecision(table: Table<FriendRequest>, caller: Id, id: Id, d: Decision, now: int)
    : (r: Result<(seq<FriendRequest>, Status)>)
    ensures table.Broken? || FreshId(table.rows, id) ==> r == Err(NotFound)
    ensures table.Rows? && !FreshId(table.rows, id) ==>
      var row := table.rows[FindRequest(table.rows, id).value];
      && (row.addressee != caller ==> r == Err(Forbidden))
      && (row.addressee == caller && row.status != Pending ==> r == Err(AlreadyHandled))
      && (row.addressee == caller && row.status == Pending ==> r.Ok?)
    ensures r.Ok? ==> r.value.1 == NewStatus(d) && r.value.1 != Pending
    ensures r.Ok? ==> |r.value.0| == |table.rows|
    ensures r.Ok? ==> forall i :: 0 <= i < |table.rows| && table.rows[i].id != id ==> r.value.0[i] == table.rows[i]
    ensures r.Ok? ==> forall i :: 0 <= i < |table.rows| && table.rows[i].id == id ==>
      r.value.0[i] == table.rows[i].(status := NewStatus(d), updatedAt := Some(now))
  {
    match table
    case Broken(_) => Err(NotFound)
    case Rows(rows) =>
      match FindRequest(rows, id)
      case None => Err(NotFound)
      case Some(i) =>
        if rows[i].addressee != caller then Err(Forbidden)
        else if rows[i].status != Pending then Err(AlreadyHandled)
        else Ok((Stamp(rows, id, NewStatus(d), now), NewStatus(d)))
  }

  /** Rows with the same ids in the same places are searched alike. */
  lemma {:induction false} FindRequestSameIds(rows: seq<FriendRequest>, rows': seq<FriendRequest>, id: Id)
    requires |rows'| == |rows| && forall i :: 0 <= i < |rows| ==> rows'[i].id == rows[i].id
    ensures FindRequest(rows', id) == FindRequest(rows, id)
    decreases |rows|
  {
    if rows != [] {
      FindRequestSameIds(rows[1..], rows'[1..], id);
    }
  }

  /** A request can be answered once: any second answer is refused as already handled. */
  lemma RespondTwiceFails(rows: seq<FriendRequest>, caller: Id, id: Id, d1: Decision, d2: Decision, t1: int, t2: int)
    requires ApplyDecision(Rows(rows), caller, id, d1, t1).Ok?
    ensures var rows' := ApplyDecision(Rows(rows), caller, id, d1, t1).value.0;
      ApplyDecision(Rows(rows'), caller, id, d2, t2) == Err(AlreadyHandled)
  {
    var rows' := ApplyDecision(Rows(rows), caller, id, d1, t1).value.0;
    assert rows' == Stamp(rows, id, NewStatus(d1), t1);
    FindRequestSameIds(rows, rows', id);
    var k := FindRequest(rows, id).value;
    assert rows'[k] == rows[k].(status := NewStatus(d1), updatedAt := Some(t1));
  }

  /**
   * A change that keeps every row's id and parties and only retires rows
   * (never makes one active) in place.
   */
  predicate Retires(rows: seq<FriendRequest>, rows': seq<FriendRequest>) {
    && |rows'| == |rows|
    && forall i :: 0 <= i < |rows| ==>
      && rows'[i].id == rows[i].id && rows'[i].requester == rows[i].requester
      && rows'[i].addressee == rows[i].addressee && (Active(rows'[i]) ==> Active(rows[i]))
  }

  lemma RetiresKeepsValid(rows: seq<FriendRequest>, rows': seq<FriendRequest>)
    requires Valid(rows) && Retires(rows, rows')
    ensures Valid(rows')
  {
    forall i, j | 0 <= i < j < |rows'| && Active(rows'[i]) && Active(rows'[j])
      ensures !Between(rows'[j], rows'[i].requester, rows'[i].addressee)
    {
      assert Active(rows[i]) && Active(rows[j]);
    }
  }

  /** Answering a request keeps every store invariant. */
  lemma RespondPreservesValid(rows: seq<FriendRequest>, caller: Id, id: Id, d: Decision, now: int)
    requires Valid(rows)
    requires ApplyDecision(Rows(rows), caller, id, d, now).Ok?
    ensures Valid(ApplyDecision(Rows(rows), caller, id, d, now).value.0)
  {
    var rows' := ApplyDecision(Rows(rows), caller, id, d, now).value.0;
    assert rows' == Stamp(rows, id, NewStatus(d), now);
    assert Retires(rows, rows');
    RetiresKeepsValid(rows, rows');
  }

  // ---------------------------------------------------------------------------
  // Listing relationships

  datatype IncomingEntry = IncomingEntry(id: Id, fromUser: Actor, createdAt: int)
  datatype OutgoingEntry = OutgoingEntry(id: Id, toUser: Actor, createdAt: int)
  datatype Listing = Listing(friends: seq<Actor>, incoming: seq<IncomingEntry>, outgoing: seq<OutgoingEntry>)

  function UpdatedKey(r: FriendRequest): int {
    r.updatedAt.GetOr(0)
  }

  predicate Unstamped(r: FriendRequest) {
    r.updatedAt.None?
  }

  predicate Stamped(r: FriendRequest) {
    r.updatedAt.Some?
  }

  /** `order('updated_at', { ascending: false })`: rows never updated come first, then newest update first. */
  function OrderByUpdatedDesc(rows: seq<FriendRequest>): (r: seq<FriendRequest>)
    ensures multiset(r) == multiset(rows)
  {
    var unstamped := Sorting.Filter(rows, Unstamped);
    var stamped := Sorting.Filter(rows, Stamped);
    SplitMultiset(rows);
    unstamped + Sorting.SortDesc(stamped, UpdatedKey)
  }

  /** Once a stamped row is listed, every later row is stamped no later than it. */
  lemma OrderByUpdatedDescOrdered(rows: seq<FriendRequest>, i: nat, j: nat)
    requires i < j < |OrderByUpdatedDesc(rows)|
    requires OrderByUpdatedDesc(rows)[i].updatedAt.Some?
    ensures var r := OrderByUpdatedDesc(rows);
      r[j].updatedAt.Some? && r[j].updatedAt.value <= r[i].updatedAt.value
  {
    var unstamped := Sorting.Filter(rows, Unstamped);
    var stamped := Sorting.Filter(rows, Stamped);
    var sorted := Sorting.SortDesc(stamped, UpdatedKey);
    SortedStamped(stamped);
    StampedAfterUnstamped(unstamped, sorted, i, j);
  }

  /** Sorting stamped rows keeps them stamped and puts them in non-increasing update order. */
  lemma SortedStamped(stamped: seq<FriendRequest>)
    requires forall k :: 0 <= k < |stamped| ==> Stamped(stamped[k])
    ensures var sorted := Sorting.SortDesc(stamped, UpdatedKey);
      (forall k :: 0 <= k < |sorted| ==> Stamped(sorted[k])) && Sorting.SortedDesc(sorted, UpdatedKey)
  {
    var sorted := Sorting.SortDesc(stamped, UpdatedKey);
    Sorting.SortDescSorted(stamped, UpdatedKey);
    forall k | 0 <= k < |sorted|
      ensures Stamped(sorted[k])
    {
      Sorting.SortDescMembers(stamped, UpdatedKey, sorted[k]);
    }
  }

  /** Unstamped rows followed by stamped rows in non-increasing order. */
  lemma StampedAfterUnstamped(unstamped: seq<FriendRequest>, sorted: seq<FriendRequest>, i: nat, j: nat)
    requires forall k :: 0 <= k < |unstamped| ==> Unstamped(unstamped[k])
    requires forall k :: 0 <= k < |sorted| ==> Stamped(sorted[k])
    requires Sorting.SortedDesc(sorted, UpdatedKey)
    requires i < j < |unstamped + sorted| && (unstamped + sorted)[i].updatedAt.Some?
    ensures var r := unstamped + sorted;
      r[j].updatedAt.Some? && r[j].updatedAt.value <= r[i].updatedAt.value
  {
    var r := unstamped + sorted;
    assert forall k :: 0 <= k < |unstamped| ==> r[k] == unstamped[k];
    assert forall k :: |unstamped| <= k < |r| ==> r[k] == sorted[k - |unstamped|];
  }

  /** Rows never updated first, then non-increasing `updated_at`. */
  predicate UpdatedDesc(rows: seq<FriendRequest>) {
    forall i, j :: 0 <= i < j < |rows| && rows[i].updatedAt.Some? ==>
      rows[j].updatedAt.Some? && rows[j].updatedAt.value <= rows[i].updatedAt.value
  }

  lemma OrderByUpdatedDescIsUpdatedDesc(rows: seq<FriendRequest>)
    ensures UpdatedDesc(OrderByUpdatedDesc(rows))
  {
    var r := OrderByUpdatedDesc(rows);
    forall i, j | 0 <= i < j < |r| && r[i].updatedAt.Some?
      ensures r[j].updatedAt.Some? && r[j].updatedAt.value <= r[i].updatedAt.value
    {
      OrderByUpdatedDescOrdered(rows, i, j);
    }
  }

  /** A row stamped no earlier than every row of an ordered list can go in front of it. */
  lemma UpdatedDescCons(h: FriendRequest, rest: seq<FriendRequest>)
    requires UpdatedDesc(rest)
    requires h.updatedAt.Some? ==>
      forall k :: 0 <= k < |rest| ==> rest[k].updatedAt.Some? && rest[k].updatedAt.value <= h.updatedAt.value
    ensures UpdatedDesc([h] + rest)
  {
    var s := [h] + rest;
    forall i, j | 0 <= i < j < |s| && s[i].updatedAt.Some?
      ensures s[j].updatedAt.Some? && s[j].updatedAt.value <= s[i].updatedAt.value
    {
      assert s[j] == rest[j - 1];
      if i > 0 {
        assert s[i] == rest[i - 1];
      }
    }
  }

  lemma SplitMultiset(rows: seq<FriendRequest>)
    ensures multiset(Sorting.Filter(rows, Unstamped))
            + multiset(Sorting.Filter(rows, Stamped)) == multiset(rows)
  {
    Sorting.FilterComplement(rows, Unstamped, Stamped);
  }

  function AcceptedLinks(rows: seq<FriendRequest>, caller: Id): seq<FriendRequest> {
    OrderByUpdatedDesc(Sorting.Filter(rows, (r: FriendRequest) => r.status == Accepted && Involves(r, caller)))
  }

  function IncomingLinks(rows: seq<FriendRequest>, caller: Id): seq<FriendRequest> {
    Sorting.SortDesc(Sorting.Filter(rows, (r: FriendRequest) => r.status == Pending && r.addressee == caller), CreatedAt)
  }

  function OutgoingLinks(rows: seq<FriendRequest>, caller: Id): seq<FriendRequest> {
    Sorting.SortDesc(Sorting.Filter(rows, (r: FriendRequest) => r.status == Pending && r.requester == caller), CreatedAt)
  }

  /** Every id the listing needs to resolve. */
  function ListUserIds(acc: seq<FriendRequest>, inc: seq<FriendRequest>, out: seq<FriendRequest>): set<Id> {
    (set r | r in acc :: r.requester) + (set r | r in acc :: r.addressee)
    + (set r | r in inc :: r.requester) + (set r | r in out :: r.addressee)
  }

  /** The links whose other side the actor map resolves, in their order. */
  function ResolvedLinks(links: seq<FriendRequest>, caller: Id, m: map<Id, Actor>): (r: seq<FriendRequest>)
    ensures |r| <= |links|
    ensures forall x :: x in r <==> x in links && Counterpart(x, caller) in m
  {
    if links == [] then []
    else
      assert forall x :: x in links <==> x == links[0] || x in links[1..];
      (if Counterpart(links[0], caller) in m then [links[0]] else []) + ResolvedLinks(links[1..], caller, m)
  }

  /** Dropping the unresolved links keeps the `updated_at` order. */
  lemma {:induction false} ResolvedLinksOrdered(links: seq<FriendRequest>, caller: Id, m: map<Id, Actor>)
    requires UpdatedDesc(links)
    ensures UpdatedDesc(ResolvedLinks(links, caller, m))
    decreases |links|
  {
    if links != [] {
      var t := links[1..];
      forall i, j | 0 <= i < j < |t| && t[i].updatedAt.Some?
        ensures t[j].updatedAt.Some? && t[j].updatedAt.value <= t[i].updatedAt.value
      {
        assert t[i] == links[i + 1] && t[j] == links[j + 1];
      }
      ResolvedLinksOrdered(t, caller, m);
      var rest := ResolvedLinks(t, caller, m);
      if Counterpart(links[0], caller) in m {
        forall k | 0 <= k < |rest| && links[0].updatedAt.Some?
          ensures rest[k].updatedAt.Some? && rest[k].updatedAt.value <= links[0].updatedAt.value
        {
          assert rest[k] in rest;
          var j :| 0 <= j < |t| && t[j] == rest[k];
          assert links[j + 1] == rest[k];
        }
        UpdatedDescCons(links[0], rest);
        assert ResolvedLinks(links, caller, m) == [links[0]] + rest;
      } else {
        assert ResolvedLinks(links, caller, m) == [] + rest;
      }
    }
  }

  /** The actors on the other side of `links`, skipping those the map does not resolve. */
  function FriendsOf(links: seq<FriendRequest>, caller: Id, m: map<Id, Actor>): (f: seq<Actor>)
    ensures |f| <= |links|
    ensures forall a :: a in f ==> exists r :: r in links && Counterpart(r, caller) in m && a == m[Counterpart(r, caller)]
    ensures forall r :: r in links && Counterpart(r, caller) in m ==> m[Counterpart(r, caller)] in f
  {
    if links == [] then []
    else
      var rest := FriendsOf(links[1..], caller, m);
      assert forall r :: r in links <==> r == links[0] || r in links[1..];
      var o := Counterpart(links[0], caller);
      if o in m then [m[o]] + rest else rest
  }

  /** `f` lists, in order, the actors on the other side of the links `kept`. */
  predicate ActorsFor(f: seq<Actor>, kept: seq<FriendRequest>, caller: Id, m: map<Id, Actor>) {
    && |f| == |kept|
    && forall i :: 0 <= i < |f| ==> Counterpart(kept[i], caller) in m && f[i] == m[Counterpart(kept[i], caller)]
  }

  lemma ActorsForCons(a: Actor, f: seq<Actor>, x: FriendRequest, kept: seq<FriendRequest>, caller: Id, m: map<Id, Actor>)
    requires ActorsFor(f, kept, caller, m)
    requires Counterpart(x, caller) in m && a == m[Counterpart(x, caller)]
    ensures ActorsFor([a] + f, [x] + kept, caller, m)
  {
    var g, l := [a] + f, [x] + kept;
    forall i | 1 <= i < |g|
      ensures Counterpart(l[i], caller) in m && g[i] == m[Counterpart(l[i], caller)]
    {
      assert g[i] == f[i - 1] && l[i] == kept[i - 1];
    }
  }

  /** The i-th friend is the other side of the i-th resolved link. */
  lemma {:induction false} FriendsOfFollowsLinks(links: seq<FriendRequest>, caller: Id, m: map<Id, Actor>)
    ensures ActorsFor(FriendsOf(links, caller, m), ResolvedLinks(links, caller, m), caller, m)
    decreases |links|
  {
    if links != [] {
      FriendsOfFollowsLinks(links[1..], caller, m);
      var kept := ResolvedLinks(links[1..], caller, m);
      var rest := FriendsOf(links[1..], caller, m);
      var o := Counterpart(links[0], caller);
      if o in m {
        assert ResolvedLinks(links, caller, m) == [links[0]] + kept;
        assert FriendsOf(links, caller, m) == [m[o]] + rest;
        ActorsForCons(m[o], rest, links[0], kept, caller, m);
      } else {
        assert ResolvedLinks(links, caller, m) == [] + kept;
        assert FriendsOf(links, caller, m) == rest;
      }
    }
  }

  function IncomingTime(x: IncomingEntry): int {
    x.createdAt
  }

  function OutgoingTime(x: OutgoingEntry): int {
    x.createdAt
  }

  /** Entries built from the later links of a newest-first read are no newer than its first link. */
  lemma IncomingHeadNewest(links: seq<FriendRequest>, rest: seq<IncomingEntry>, m: map<Id, Actor>)
    requires links != [] && Sorting.SortedDesc(links, CreatedAt)
    requires forall x :: x in rest ==>
      exists r :: r in links[1..] && r.requester in m && x == IncomingEntry(r.id, m[r.requester], r.createdAt)
    ensures forall k :: 0 <= k < |rest| ==> IncomingTime(rest[k]) <= links[0].createdAt
  {
    forall k | 0 <= k < |rest|
      ensures IncomingTime(rest[k]) <= links[0].createdAt
    {
      assert rest[k] in rest;
      var q :| q in links[1..] && q.requester in m && rest[k] == IncomingEntry(q.id, m[q.requester], q.createdAt);
      var j :| 0 <= j < |links| - 1 && links[1..][j] == q;
      assert links[j + 1] == q;
    }
  }

  function IncomingOf(links: seq<FriendRequest>, m: map<Id, Actor>): (e: seq<IncomingEntry>)
    ensures |e| <= |links|
    ensures forall x :: x in e ==>
      exists r :: r in links && r.requester in m && x == IncomingEntry(r.id, m[r.requester], r.createdAt)
    ensures forall r :: r in links && r.requester in m ==> IncomingEntry(r.id, m[r.requester], r.createdAt) in e
    ensures Sorting.SortedDesc(links, CreatedAt) ==> Sorting.SortedDesc(e, IncomingTime)
  {
    if links == [] then []
    else
      var rest := IncomingOf(links[1..], m);
      assert forall r :: r in links <==> r == links[0] || r in links[1..];
      var r := links[0];
      Sorting.SortedDescTail(links, CreatedAt);
      if r.requester in m then
        var x := IncomingEntry(r.id, m[r.requester], r.createdAt);
        assert Sorting.SortedDesc(links, CreatedAt) ==> Sorting.SortedDesc([x] + rest, IncomingTime) by {
          if Sorting.SortedDesc(links, CreatedAt) {
            IncomingHeadNewest(links, rest, m);
            Sorting.SortedDescCons(x, rest, IncomingTime);
          }
        }
        [x] + rest
      else
        rest
  }

  /** Entries built from the later links of a newest-first read are no newer than its first link. */
  lemma OutgoingHeadNewest(links: seq<FriendRequest>, rest: seq<OutgoingEntry>, m: map<Id, Actor>)
    requires links != [] && Sorting.SortedDesc(links, CreatedAt)
    requires forall x :: x in rest ==>
      exists r :: r in links[1..] && r.addressee in m && x == OutgoingEntry(r.id, m[r.addressee], r.createdAt)
    ensures forall k :: 0 <= k < |rest| ==> OutgoingTime(rest[k]) <= links[0].createdAt
  {
    forall k | 0 <= k < |rest|
      ensures OutgoingTime(rest[k]) <= links[0].createdAt
    {
      assert rest[k] in rest;
      var q :| q in links[1..] && q.addressee in m && rest[k] == OutgoingEntry(q.id, m[q.addressee], q.createdAt);
      var j :| 0 <= j < |links| - 1 && links[1..][j] == q;
      assert links[j + 1] == q;
    }
  }

  function OutgoingOf(links: seq<FriendRequest>, m: map<Id, Actor>): (e: seq<OutgoingEntry>)
    ensures |e| <= |links|
    ensures forall x :: x in e ==>
      exists r :: r in links && r.addressee in m && x == OutgoingEntry(r.id, m[r.addressee], r.createdAt)
    ensures forall r :: r in links && r.addressee in m ==> OutgoingEntry(r.id, m[r.addressee], r.createdAt) in e
    ensures Sorting.SortedDesc(links, CreatedAt) ==> Sorting.SortedDesc(e, OutgoingTime)
  {
    if links == [] then []
    else
      var rest := OutgoingOf(links[1..], m);
      assert forall r :: r in links <==> r == links[0] || r in links[1..];
      var r := links[0];
      Sorting.SortedDescTail(links, CreatedAt);
      if r.addressee in m then
        var x := OutgoingEntry(r.id, m[r.addressee], r.createdAt);
        assert Sorting.SortedDesc(links, CreatedAt) ==> Sorting.SortedDesc([x] + rest, OutgoingTime) by {
          if Sorting.SortedDesc(links, CreatedAt) {
            OutgoingHeadNewest(links, rest, m);
            Sorting.SortedDescCons(x, rest, OutgoingTime);
          }
        }
        [x] + rest
      else
        rest
  }

  /** The actor map the listing builds for everyone its three reads mention. */
  function ListActors(rows: seq<FriendRequest>, dir: seq<Account>, caller: Id): map<Id, Actor> {
    BuildActorMap(dir, ListUserIds(AcceptedLinks(rows, caller), IncomingLinks(rows, caller), OutgoingLinks(rows, caller)))
  }

  /**
   * Friends, incoming and outgoing requests of `caller`, each list following
   * its read; a failed first read is classified.
   */
  function List(table: Table<FriendRequest>, dir: seq<Account>, caller: Id): (r: Result<Listing>)
    ensures table.Broken? ==> r == Err(ClassifyTableError("friend_requests", table.message))
    ensures table.Rows? ==> r.Ok?
    ensures table.Rows? ==> var m := ListActors(table.rows, dir, caller);
      && r.value.friends == FriendsOf(AcceptedLinks(table.rows, caller), caller, m)
      && r.value.incoming == IncomingOf(IncomingLinks(table.rows, caller), m)
      && r.value.outgoing == OutgoingOf(OutgoingLinks(table.rows, caller), m)
  {
    match table
    case Broken(message) => Err(ClassifyTableError("friend_requests", message))
    case Rows(rows) =>
      var m := ListActors(rows, dir, caller);
      Ok(Listing(FriendsOf(AcceptedLinks(rows, caller), caller, m), IncomingOf(IncomingLinks(rows, caller), m),
                 OutgoingOf(OutgoingLinks(rows, caller), m)))
  }

  /**
   * The order of the listing: friends follow their accepted rows, never
   * updated first and then by `updated_at` descending, each friend being
   * the directory's actor for the other side of its row; incoming and
   * outgoing requests are newest first.
   */
  lemma ListOrder(rows: seq<FriendRequest>, dir: seq<Account>, caller: Id)
    ensures var l := List(Rows(rows), dir, caller).value;
      var kept := ResolvedLinks(AcceptedLinks(rows, caller), caller, ListActors(rows, dir, caller));
      && UpdatedDesc(kept)
      && |l.friends| == |kept|
      && (forall i :: 0 <= i < |kept| ==> Resolve(dir, Counterpart(kept[i], caller)) == Some(l.friends[i]))
      && Sorting.SortedDesc(l.incoming, IncomingTime)
      && Sorting.SortedDesc(l.outgoing, OutgoingTime)
  {
    var m := ListActors(rows, dir, caller);
    var ids := ListUserIds(AcceptedLinks(rows, caller), IncomingLinks(rows, caller), OutgoingLinks(rows, caller));
    var acc := AcceptedLinks(rows, caller);
    var kept := ResolvedLinks(acc, caller, m);
    var l := List(Rows(rows), dir, caller).value;
    OrderByUpdatedDescIsUpdatedDesc(Sorting.Filter(rows, (r: FriendRequest) => r.status == Accepted && Involves(r, caller)));
    ResolvedLinksOrdered(acc, caller, m);
    FriendsOfFollowsLinks(acc, caller, m);
    forall i | 0 <= i < |kept|
      ensures Resolve(dir, Counterpart(kept[i], caller)) == Some(l.friends[i])
    {
      BuildActorMapResolves(dir, ids, Counterpart(kept[i], caller));
    }
    Sorting.SortDescSorted(Sorting.Filter(rows, (r: FriendRequest) => r.status == Pending && r.addressee == caller), CreatedAt);
    Sorting.SortDescSorted(Sorting.Filter(rows, (r: FriendRequest) => r.status == Pending && r.requester == caller), CreatedAt);
  }

  /** Membership in the listing's link lists is membership in the filtered store. */
  lemma LinksMembers(rows: seq<FriendRequest>, caller: Id, r: FriendRequest)
    ensures r in AcceptedLinks(rows, caller) <==> r in rows && r.status == Accepted && Involves(r, caller)
    ensures r in IncomingLinks(rows, caller) <==> r in rows && r.status == Pending && r.addressee == caller
    ensures r in OutgoingLinks(rows, caller) <==> r in rows && r.status == Pending && r.requester == caller
  {
    var accF := Sorting.Filter(rows, (r: FriendRequest) => r.status == Accepted && Involves(r, caller));
    assert r in AcceptedLinks(rows, caller) <==> r in multiset(accF);
    Sorting.SortDescMembers(Sorting.Filter(rows, (r: FriendRequest) => r.status == Pending && r.addressee == caller), CreatedAt, r);
    Sorting.SortDescMembers(Sorting.Filter(rows, (r: FriendRequest) => r.status == Pending && r.requester == caller), CreatedAt, r);
    if r in rows {
      var i :| 0 <= i < |rows| && rows[i] == r;
    }
  }

  /** The friends are the resolved other sides of the caller's accepted rows. */
  lemma ListFriends(rows: seq<FriendRequest>, dir: seq<Account>, caller: Id)
    ensures var l := List(Rows(rows), dir, caller).value;
      forall a :: a in l.friends <==>
        exists r :: r in rows && r.status == Accepted && Involves(r, caller) && Known(dir, Counterpart(r, caller))
                    && Some(a) == Resolve(dir, Counterpart(r, caller))
  {
    var acc := AcceptedLinks(rows, caller);
    var ids := ListUserIds(acc, IncomingLinks(rows, caller), OutgoingLinks(rows, caller));
    var m := BuildActorMap(dir, ids);
    var f := List(Rows(rows), dir, caller).value.friends;
    assert f == FriendsOf(acc, caller, m);
    forall a | a in f
      ensures exists r :: r in rows && r.status == Accepted && Involves(r, caller) && Known(dir, Counterpart(r, caller))
                          && Some(a) == Resolve(dir, Counterpart(r, caller))
    {
      var r :| r in acc && Counterpart(r, caller) in m && a == m[Counterpart(r, caller)];
      LinksMembers(rows, caller, r);
      BuildActorMapResolves(dir, ids, Counterpart(r, caller));
    }
    forall r | r in rows && r.status == Accepted && Involves(r, caller) && Known(dir, Counterpart(r, caller))
      ensures Resolve(dir, Counterpart(r, caller)).value in f
    {
      LinksMembers(rows, caller, r);
      assert Counterpart(r, caller) in ids;
      BuildActorMapResolves(dir, ids, Counterpart(r, caller));
    }
  }

  /** The incoming entries are the caller's pending received rows whose sender resolves. */
  lemma ListIncoming(rows: seq<FriendRequest>, dir: seq<Account>, caller: Id)
    ensures var l := List(Rows(rows), dir, caller).value;
      forall x :: x in l.incoming <==>
        exists r :: r in rows && r.status == Pending && r.addressee == caller && Known(dir, r.requester)
                    && x == IncomingEntry(r.id, Resolve(dir, r.requester).value, r.createdAt)
  {
    var inc := IncomingLinks(rows, caller);
    var ids := ListUserIds(AcceptedLinks(rows, caller), inc, OutgoingLinks(rows, caller));
    var m := BuildActorMap(dir, ids);
    var e := List(Rows(rows), dir, caller).value.incoming;
    assert e == IncomingOf(inc, m);
    forall x | x in e
      ensures exists r :: r in rows && r.status == Pending && r.addressee == caller && Known(dir, r.requester)
                          && x == IncomingEntry(r.id, Resolve(dir, r.requester).value, r.createdAt)
    {
      var r :| r in inc && r.requester in m && x == IncomingEntry(r.id, m[r.requester], r.createdAt);
      LinksMembers(rows, caller, r);
      BuildActorMapResolves(dir, ids, r.requester);
    }
    forall r | r in rows && r.status == Pending && r.addressee == caller && Known(dir, r.requester)
      ensures IncomingEntry(r.id, Resolve(dir, r.requester).value, r.createdAt) in e
    {
      LinksMembers(rows, caller, r);
      assert r.requester in ids;
      BuildActorMapResolves(dir, ids, r.requester);
    }
  }

  /** The outgoing entries are the caller's pending sent rows whose addressee resolves. */
  lemma ListOutgoing(rows: seq<FriendRequest>, dir: seq<Account>, caller: Id)
    ensures var l := List(Rows(rows), dir, caller).value;
      forall x :: x in l.outgoing <==>
        exists r :: r in rows && r.status == Pending && r.requester == caller && Known(dir, r.addressee)
                    && x == OutgoingEntry(r.id, Resolve(dir, r.addressee).value, r.createdAt)
  {
    var out := OutgoingLinks(rows, caller);
    var ids := ListUserIds(AcceptedLinks(rows, caller), IncomingLinks(rows, caller), out);
    var m := BuildActorMap(dir, ids);
    var e := List(Rows(rows), dir, caller).value.outgoing;
    assert e == OutgoingOf(out, m);
    forall x | x in e
      ensures exists r :: r in rows && r.status == Pending && r.requester == caller && Known(dir, r.addressee)
                          && x == OutgoingEntry(r.id, Resolve(dir, r.addressee).value, r.createdAt)
    {
      var r :| r in out && r.addressee in m && x == OutgoingEntry(r.id, m[r.addressee], r.createdAt);
      LinksMembers(rows, caller, r);
      BuildActorMapResolves(dir, ids, r.addressee);
    }
    forall r | r in rows && r.status == Pending && r.requester == caller && Known(dir, r.addressee)
      ensures OutgoingEntry(r.id, Resolve(dir, r.addressee).value, r.createdAt) in e
    {
      LinksMembers(rows, caller, r);
      assert r.addressee in ids;
      BuildActorMapResolves(dir, ids, r.addressee);
    }
  }

  /** No pending row links a pair that has an accepted row. */
  lemma AcceptedExcludesPending(rows: seq<FriendRequest>, k: nat, u: Id, v: Id)
    requires OneActivePerPair(rows) && k < |rows|
    requires rows[k].status == Accepted && Between(rows[k], u, v)
    ensures forall r :: r in rows && r.status == Pending ==> !Between(r, u, v)
  {
    forall r | r in rows && r.status == Pending
      ensures !Between(r, u, v)
    {
      var j :| 0 <= j < |rows| && rows[j] == r;
      if j < k {
        assert !Between(rows[k], rows[j].requester, rows[j].addressee);
      } else if k < j {
        assert !Between(rows[j], rows[k].requester, rows[k].addressee);
      }
    }
  }

  /** The listing of `u` when an accepted row links `u` and `v`: `v` is a friend and in no request entry. */
  lemma AcceptedPairListing(rows: seq<FriendRequest>, dir: seq<Account>, k: nat, u: Id, v: Id)
    requires OneActivePerPair(rows) && k < |rows| && u != v
    requires rows[k].status == Accepted && Between(rows[k], u, v)
    ensures var l := List(Rows(rows), dir, u).value;
      && (Known(dir, v) ==> Resolve(dir, v).value in l.friends)
      && (forall x :: x in l.incoming ==> x.fromUser.id != v)
      && (forall x :: x in l.outgoing ==> x.toUser.id != v)
  {
    var l := List(Rows(rows), dir, u).value;
    AcceptedExcludesPending(rows, k, u, v);
    ListFriends(rows, dir, u);
    assert rows[k] in rows && Counterpart(rows[k], u) == v;
    ListIncoming(rows, dir, u);
    forall x | x in l.incoming
      ensures x.fromUser.id != v
    {
      var r :| r in rows && r.status == Pending && r.addressee == u && Known(dir, r.requester)
               && x == IncomingEntry(r.id, Resolve(dir, r.requester).value, r.createdAt);
      assert x.fromUser.id == r.requester;
    }
    ListOutgoing(rows, dir, u);
    forall x | x in l.outgoing
      ensures x.toUser.id != v
    {
      var r :| r in rows && r.status == Pending && r.requester == u && Known(dir, r.addressee)
               && x == OutgoingEntry(r.id, Resolve(dir, r.addressee).value, r.createdAt);
      assert x.toUser.id == r.addressee;
    }
  }

  /**
   * Once the addressee accepts, each side lists the other as a friend and no
   * longer in an incoming or outgoing request.
   */
  lemma AcceptThenList(rows: seq<FriendRequest>, dir: seq<Account>, id: Id, now: int)
    requires Valid(rows) && !FreshId(rows, id)
    requires var row := rows[FindRequest(rows, id).value];
      ApplyDecision(Rows(rows), row.addressee, id, Accept, now).Ok?
    ensures var row := rows[FindRequest(rows, id).value];
      var a := row.requester;
      var b := row.addressee;
      var rows' := ApplyDecision(Rows(rows), b, id, Accept, now).value.0;
      var la := List(Rows(rows'), dir, a).value;
      var lb := List(Rows(rows'), dir, b).value;
      && (Known(dir, b) ==> Resolve(dir, b).value in la.friends)
      && (Known(dir, a) ==> Resolve(dir, a).value in lb.friends)
      && (forall x :: x in la.incoming ==> x.fromUser.id != b)
      && (forall x :: x in lb.incoming ==> x.fromUser.id != a)
      && (forall x :: x in la.outgoing ==> x.toUser.id != b)
      && (forall x :: x in lb.outgoing ==> x.toUser.id != a)
  {
    var k := FindRequest(rows, id).value;
    var a := rows[k].requester;
    var b := rows[k].addressee;
    var rows' := ApplyDecision(Rows(rows), b, id, Accept, now).value.0;
    RespondPreservesValid(rows, b, id, Accept, now);
    assert rows'[k].status == Accepted && rows'[k].requester == a && rows'[k].addressee == b;
    assert a != b;
    AcceptedPairListing(rows', dir, k, a, b);
    AcceptedPairListing(rows', dir, k, b, a);
  }

  // ---------------------------------------------------------------------------
  // Searching the directory

  datatype Candidate = Candidate(id: Id, email: Option<string>, username: string)

  /** The relationship shown next to a candidate; a declined row echoes its status. */
  datatype Relation = Friends | Outgoing | Incoming | Echoed(status: Status) | NoRelation

  datatype Hit = Hit(user: Candidate, relation: Relation)

  /** `q.trim().toLowerCase()` on the query parameter, '' when absent. */
  function NormalizeQuery(raw: Option<string>): (q: string)
    ensures |q| <= |raw.GetOr("")|
    ensures forall i :: 0 <= i < |q| ==> !('A' <= q[i] <= 'Z')
  {
    ToLower(Trim(raw.GetOr("")))
  }

  function CandidateOf(a: Account): Candidate {
    Candidate(a.id, a.email, DisplayName(a))
  }

  /** The lower-cased e-mail or display name contains the query. */
  predicate MatchesQuery(c: Candidate, q: string) {
    (c.email.Some? && Contains(ToLower(c.email.value), q)) || Contains(ToLower(c.username), q)
  }

  /** Every other account whose e-mail or display name matches, in directory order. */
  function Matching(dir: seq<Account>, caller: Id, q: string): (c: seq<Candidate>)
    ensures |c| <= |dir|
    ensures forall x :: x in c ==> x.id != caller && MatchesQuery(x, q) && exists a :: a in dir && x == CandidateOf(a)
    ensures forall a :: a in dir && a.id != caller && MatchesQuery(CandidateOf(a), q) ==> CandidateOf(a) in c
  {
    if dir == [] then []
    else
      var rest := Matching(dir[1..], caller, q);
      assert forall a :: a in dir <==> a == dir[0] || a in dir[1..];
      var c := CandidateOf(dir[0]);
      if dir[0].id != caller && MatchesQuery(c, q) then [c] + rest else rest
  }

  const MaxCandidates := 20

  /** The first twenty matches. */
  function Candidates(dir: seq<Account>, caller: Id, q: string): (c: seq<Candidate>)
    ensures |c| == Sorting.Min(MaxCandidates, |Matching(dir, caller, q)|)
    ensures c == Matching(dir, caller, q)[..|c|]
  {
    Sorting.Take(Matching(dir, caller, q), MaxCandidates)
  }

  /** The rows of the relationship read: caller to a candidate, or a candidate to the caller. */
  function Relevant(rows: seq<FriendRequest>, caller: Id, ids: set<Id>): (r: seq<FriendRequest>)
    ensures forall i :: 0 <= i < |r| ==> Involves(r[i], caller)
  {
    if rows == [] then []
    else
      var x := rows[0];
      var keep := (x.requester == caller && x.addressee in ids) || (x.requester in ids && x.addressee == caller);
      (if keep then [x] else []) + Relevant(rows[1..], caller, ids)
  }

  function RelationOf(r: FriendRequest, caller: Id): Relation {
    match r.status
    case Accepted => Friends
    case Pending => if r.requester == caller then Outgoing else Incoming
    case Declined => Echoed(Declined)
  }

  /** `statusByUser`: every row sets the entry of its other side, later rows overwriting earlier ones. */
  function StatusMap(rels: seq<FriendRequest>, caller: Id, acc: map<Id, Relation>): map<Id, Relation>
    decreases |rels|
  {
    if rels == [] then acc
    else StatusMap(rels[1..], caller, acc[Counterpart(rels[0], caller) := RelationOf(rels[0], caller)])
  }

  /** The last row for the pair in store order. */
  function LastPairRow(rows: seq<FriendRequest>, a: Id, b: Id): (r: Option<FriendRequest>)
    ensures r.Some? ==> r.value in rows && Between(r.value, a, b)
    ensures r.None? <==> forall i :: 0 <= i < |rows| ==> !Between(rows[i], a, b)
  {
    if rows == [] then None
    else
      var rest := LastPairRow(rows[1..], a, b);
      assert forall i :: 1 <= i < |rows| ==> rows[i] == rows[1..][i - 1];
      if rest.Some? then rest
      else if Between(rows[0], a, b) then Some(rows[0])
      else None
  }

  /** Reference: a candidate's relationship is the one recorded by the last row for the pair. */
  function LastRelation(rows: seq<FriendRequest>, caller: Id, c: Id): Relation {
    match LastPairRow(rows, caller, c)
    case None => NoRelation
    case Some(r) => RelationOf(r, caller)
  }

  /** `statusByUser.get(id) || 'none'`. */
  function RelationIn(m: map<Id, Relation>, id: Id): Relation {
    if id in m then m[id] else NoRelation
  }

  /** Directory search with the relationship of each of the first twenty matches. */
  function Search(table: Table<FriendRequest>, dir: seq<Account>, caller: Id, q: string): (r: Result<seq<Hit>>)
    ensures Utf16Length(q) < 2 ==> r == Err(QueryTooShort)
    ensures Utf16Length(q) >= 2 && Candidates(dir, caller, q) == [] ==> r == Ok([])
    ensures Utf16Length(q) >= 2 && Candidates(dir, caller, q) != [] && table.Broken? ==> r == Err(StoreFailure)
    ensures Utf16Length(q) >= 2 && table.Rows? ==> r.Ok?
    ensures r.Ok? ==> |r.value| == |Candidates(dir, caller, q)| <= MaxCandidates
    ensures r.Ok? ==> forall i :: 0 <= i < |r.value| ==> r.value[i].user == Candidates(dir, caller, q)[i]
    ensures r.Ok? ==> forall i :: 0 <= i < |r.value| ==> r.value[i].user.id != caller
  {
    if Utf16Length(q) < 2 then Err(QueryTooShort)
    else
      var cands := Candidates(dir, caller, q);
      if cands == [] then Ok([])
      else
        match table
        case Broken(_) => Err(StoreFailure)
        case Rows(rows) =>
          assert forall i :: 0 <= i < |cands| ==> cands[i] in Matching(dir, caller, q);
          var m := StatusMap(Relevant(rows, caller, set c | c in cands :: c.id), caller, map[]);
          Ok(seq(|cands|, i requires 0 <= i < |cands| => Hit(cands[i], RelationIn(m, cands[i].id))))
  }

  lemma {:induction false} StatusMapLast(rels: seq<FriendRequest>, caller: Id, acc: map<Id, Relation>, c: Id)
    requires c != caller
    requires forall i :: 0 <= i < |rels| ==> Involves(rels[i], caller)
    ensures LastPairRow(rels, caller, c).Some? ==>
      RelationIn(StatusMap(rels, caller, acc), c) == RelationOf(LastPairRow(rels, caller, c).value, caller)
    ensures LastPairRow(rels, caller, c).None? ==> RelationIn(StatusMap(rels, caller, acc), c) == RelationIn(acc, c)
    decreases |rels|
  {
    if rels != [] {
      var h := rels[0];
      var acc' := acc[Counterpart(h, caller) := RelationOf(h, caller)];
      assert forall i :: 1 <= i < |rels| ==> rels[i] == rels[1..][i - 1];
      StatusMapLast(rels[1..], caller, acc', c);
      assert Counterpart(h, caller) == c <==> Between(h, caller, c);
    }
  }

  lemma {:induction false} RelevantKeepsLast(rows: seq<FriendRequest>, caller: Id, ids: set<Id>, c: Id)
    requires c in ids
    ensures LastPairRow(Relevant(rows, caller, ids), caller, c) == LastPairRow(rows, caller, c)
    decreases |rows|
  {
    if rows != [] {
      RelevantKeepsLast(rows[1..], caller, ids, c);
      var x := rows[0];
      var rest := Relevant(rows[1..], caller, ids);
      if (x.requester == caller && x.addressee in ids) || (x.requester in ids && x.addressee == caller) {
        assert ([x] + rest)[0] == x && ([x] + rest)[1..] == rest;
      } else {
        assert [] + rest == rest;
        assert !Between(x, caller, c);
      }
    }
  }

  /**
   * Each hit carries the relationship of the last stored row between the
   * caller and that candidate, or none when there is no such row.
   */
  lemma SearchRelations(rows: seq<FriendRequest>, dir: seq<Account>, caller: Id, q: string)
    ensures var r := Search(Rows(rows), dir, caller, q);
      r.Ok? ==> forall i :: 0 <= i < |r.value| ==> r.value[i].relation == LastRelation(rows, caller, r.value[i].user.id)
  {
    var r := Search(Rows(rows), dir, caller, q);
    if r.Ok? && |r.value| > 0 {
      var cands := Candidates(dir, caller, q);
      var ids := set c | c in cands :: c.id;
      var rels := Relevant(rows, caller, ids);
      var m := StatusMap(rels, caller, map[]);
      forall i | 0 <= i < |r.value|
        ensures r.value[i].relation == LastRelation(rows, caller, r.value[i].user.id)
      {
        var c := cands[i];
        assert c in Matching(dir, caller, q);
        assert r.value[i] == Hit(c, RelationIn(m, c.id));
        StatusMapLast(rels, caller, map[], c.id);
        RelevantKeepsLast(rows, caller, ids, c.id);
      }
    }
  }
}

=== FILE: json.dfy ===
/**
 * Parsed JSON request bodies as the handlers inspect them: field access on a
 * possibly missing body, JavaScript truthiness, and the `String(...)`
 * conversion applied to hero names and roles.
 */
module Json {

  import opened Text

  datatype Value =
    | Undefined
    | Null
    | Bool(b: bool)
    | Num(n: int)
    | Str(s: string)
    | Arr(items: seq<Value>)
    | Obj(fields: map<string, Value>)

  /** JavaScript truthiness. */
  predicate Truthy(v: Value) {
    match v
    case Undefined | Null => false
    case Bool(b) => b
    case Num(n) => n != 0
    case Str(s) => s != ""
    case Arr(_) | Obj(_) => true
  }

  /** `(v || {}).key`: only objects carry the fields the handlers read. */
  function Field(v: Value, key: string): (r: Value)
    ensures !v.Obj? ==> r == Undefined
    ensures v.Obj? && key !in v.fields ==> r == Undefined
  {
    match v
    case Obj(fields) => if key in fields then fields[key] else Undefined
    case _ => Undefined
  }

  /** `String(v)`; array elements that are `null` or `undefined` render as ''. */
  function ToJsString(v: Value): (r: string)
    ensures v.Str? ==> r == v.s
    decreases v, 1
  {
    match v
    case Undefined => "undefined"
    case Null => "null"
    case Bool(b) => if b then "true" else "false"
    case Num(n) => IntToString(n)
    case Str(s) => s
    case Arr(items) => JoinFrom(v, 0)
    case Obj(_) => "[object Object]"
  }

  /** `items.slice(i).join(',')` for the array `v`, with `String` applied to each element. */
  function JoinFrom(v: Value, i: nat): string
    requires v.Arr? && i <= |v.items|
    decreases v, 0, |v.items| - i
  {
    if i == |v.items| then ""
    else
      var e := v.items[i];
      var part := if e.Undefined? || e.Null? then "" else ToJsString(e);
      if i + 1 == |v.items| then part else part + "," + JoinFrom(v, i + 1)
  }
}

=== FILE: media.dfy ===
/**
 * Media posts with their likes and comments: the like toggle with its stored
 * counter, adding a comment, deleting a post with everything attached to it,
 * the paginated feed, and the posts of one user.
 */
module Media {

  import opened Base
  import opened Text
  import opened Directory
  import opened Json
  import Sorting

  datatype Post = Post(
    id: Id,
    userId: Id,
    createdAt: int,
    filePath: Option<string>,
    likeCount: Option<int>,
    commentCount: Option<int>)

  datatype Like = Like(id: Id, postId: Id, userId: Id, createdAt: int)

  datatype Comment = Comment(id: Id, postId: Id, userId: Id, username: string, content: string, createdAt: int)

  datatype Store = Store(posts: seq<Post>, likes: seq<Like>, comments: seq<Comment>)

  function PostCreatedAt(p: Post): int {
    p.createdAt
  }

  /** `.eq('id', id).single()` on the posts: the first post with that id. */
  function FindPost(posts: seq<Post>, id: Id): (r: Option<nat>)
    ensures r.Some? ==> r.value < |posts| && posts[r.value].id == id
    ensures r.None? <==> forall i :: 0 <= i < |posts| ==> posts[i].id != id
  {
    if posts == [] then None
    else if posts[0].id == id then Some(0)
    else
      var r := FindPost(posts[1..], id);
      assert forall i :: 1 <= i < |posts| ==> posts[i] == posts[1..][i - 1];
      match r
      case None => None
      case Some(k) => Some(k + 1)
  }

  /** The post a body field names: a string id of an existing post. */
  function PostNamed(posts: seq<Post>, v: Value): (r: Option<nat>)
    ensures r.Some? ==> v.Str? && r.value < |posts| && posts[r.value].id == v.s
    ensures r.None? <==> !v.Str? || forall i :: 0 <= i < |posts| ==> posts[i].id != v.s
  {
    if v.Str? then FindPost(posts, v.s) else None
  }

  // ---------------------------------------------------------------------------
  // Likes

  /** The number of likes `user` has on `post`. */
  function LikesBy(likes: seq<Like>, post: Id, user: Id): nat {
    if likes == [] then 0
    else (if likes[0].postId == post && likes[0].userId == user then 1 else 0) + LikesBy(likes[1..], post, user)
  }

  lemma {:induction false} LikesByAppend(a: seq<Like>, b: seq<Like>, post: Id, user: Id)
    ensures LikesBy(a + b, post, user) == LikesBy(a, post, user) + LikesBy(b, post, user)
    decreases |a|
  {
    if a == [] {
      assert a + b == b;
    } else {
      assert (a + b)[0] == a[0] && (a + b)[1..] == a[1..] + b;
      LikesByAppend(a[1..], b, post, user);
    }
  }

  /** `maybeSingle()` on the caller's likes of the post: the like when there is exactly one, else none. */
  function ExistingLike(likes: seq<Like>, post: Id, user: Id): (r: Option<Like>)
    ensures r.Some? <==> LikesBy(likes, post, user) == 1
    ensures r.Some? ==> r.value in likes && r.value.postId == post && r.value.userId == user
  {
    if LikesBy(likes, post, user) != 1 then None
    else Some(TheLike(likes, post, user))
  }

  function TheLike(likes: seq<Like>, post: Id, user: Id): (l: Like)
    requires LikesBy(likes, post, user) >= 1
    ensures l in likes && l.postId == post && l.userId == user
  {
    if likes[0].postId == post && likes[0].userId == user then likes[0]
    else TheLike(likes[1..], post, user)
  }

  /** `delete().eq('id', id)`. */
  function DropLike(likes: seq<Like>, id: Id): (r: seq<Like>)
    ensures forall l :: l in r <==> l in likes && l.id != id
  {
    if likes == [] then []
    else
      assert forall l :: l in likes <==> l == likes[0] || l in likes[1..];
      (if likes[0].id != id then [likes[0]] else []) + DropLike(likes[1..], id)
  }

  /** The stored counter as the handlers read it: a missing counter counts as 0. */
  function LikeCountOf(p: Post): int {
    p.likeCount.GetOr(0)
  }

  /** `update({ like_count }).eq('id', id)`. */
  function SetLikeCount(posts: seq<Post>, id: Id, c: int): (r: seq<Post>)
    ensures |r| == |posts|
    ensures forall i :: 0 <= i < |posts| ==>
      r[i] == if posts[i].id == id then posts[i].(likeCount := Some(c)) else posts[i]
  {
    seq(|posts|, i requires 0 <= i < |posts| => if posts[i].id == id then posts[i].(likeCount := Some(c)) else posts[i])
  }

  datatype LikeOutcome = LikeOutcome(liked: bool, likeCount: int)

  /**
   * The like toggle: removes the caller's like when there is exactly one,
   * otherwise inserts one; the counter goes down (never below 0) or up.
   */
  function ToggleLike(s: Store, caller: Id, postId: Value, newId: Id, now: int): (r: Result<(Store, LikeOutcome)>)
    ensures !Truthy(postId) ==> r == Err(MissingField)
    ensures Truthy(postId) && PostNamed(s.posts, postId).None? ==> r == Err(NotFound)
    ensures Truthy(postId) && PostNamed(s.posts, postId).Some? ==> r.Ok?
    ensures r.Ok? ==> postId.Str? && PostNamed(s.posts, postId).Some?
    ensures r.Ok? ==> var c := LikeCountOf(s.posts[PostNamed(s.posts, postId).value]);
      && (r.value.1.liked <==> LikesBy(s.likes, postId.s, caller) != 1)
      && (r.value.1.liked ==> r.value.1.likeCount == c + 1
                              && LikesBy(r.value.0.likes, postId.s, caller) == LikesBy(s.likes, postId.s, caller) + 1)
      && (!r.value.1.liked ==> r.value.1.likeCount == Sorting.Max(0, c - 1)
                               && LikesBy(r.value.0.likes, postId.s, caller) == 0)
    ensures r.Ok? && r.value.1.liked ==> r.value.0.likes == s.likes + [Like(newId, postId.s, caller, now)]
    ensures r.Ok? && !r.value.1.liked ==>
      && ExistingLike(s.likes, postId.s, caller).Some?
      && r.value.0.likes == DropLike(s.likes, ExistingLike(s.likes, postId.s, caller).value.id)
    ensures r.Ok? ==> r.value.0.comments == s.comments
    ensures r.Ok? ==> r.value.0.posts == SetLikeCount(s.posts, postId.s, r.value.1.likeCount)
  {
    if !Truthy(postId) then Err(MissingField)
    else match PostNamed(s.posts, postId)
      case None => Err(NotFound)
      case Some(i) =>
        var pid := postId.s;
        var c := LikeCountOf(s.posts[i]);
        match ExistingLike(s.likes, pid, caller)
        case Some(l) =>
          var likes := DropLike(s.likes, l.id);
          var n := Sorting.Max(0, c - 1);
          DropLikeOnly(s.likes, l, pid, caller);
          Ok((Store(SetLikeCount(s.posts, pid, n), likes, s.comments), LikeOutcome(false, n)))
        case None =>
          var likes := s.likes + [Like(newId, pid, caller, now)];
          LikesByAppend(s.likes, [Like(newId, pid, caller, now)], pid, caller);
          Ok((Store(SetLikeCount(s.posts, pid, c + 1), likes, s.comments), LikeOutcome(true, c + 1)))
  }

  /** The count of a one-element sequence. */
  lemma LikesBySingle(x: Like, post: Id, user: Id)
    ensures LikesBy([x], post, user) == if x.postId == post && x.userId == user then 1 else 0
  {
    assert [x][1..] == [];
  }

  /** `DropLike` peels off the first row. */
  lemma DropLikeCons(likes: seq<Like>, id: Id, post: Id, user: Id)
    requires likes != []
    ensures LikesBy(DropLike(likes, id), post, user)
            == (if likes[0].id != id && likes[0].postId == post && likes[0].userId == user then 1 else 0)
               + LikesBy(DropLike(likes[1..], id), post, user)
  {
    var pre := if likes[0].id != id then [likes[0]] else [];
    LikesByAppend(pre, DropLike(likes[1..], id), post, user);
    if likes[0].id != id {
      LikesBySingle(likes[0], post, user);
    }
  }

  /** Removing the caller's only like of a post by its id leaves none of theirs on that post. */
  lemma {:induction false} DropLikeOnly(likes: seq<Like>, l: Like, post: Id, user: Id)
    requires LikesBy(likes, post, user) == 1 && l in likes && l.postId == post && l.userId == user
    ensures LikesBy(DropLike(likes, l.id), post, user) == 0
    decreases |likes|
  {
    var h := likes[0];
    DropLikeCons(likes, l.id, post, user);
    if h.postId == post && h.userId == user {
      if h != l {
        assert l in likes[1..];
        LikesByPositive(likes[1..], l, post, user);
        assert false;
      }
      NoLikesAfterDrop(likes[1..], l.id, post, user);
    } else {
      assert l in likes[1..];
      DropLikeOnly(likes[1..], l, post, user);
    }
  }

  lemma {:induction false} NoLikesAfterDrop(likes: seq<Like>, id: Id, post: Id, user: Id)
    requires LikesBy(likes, post, user) == 0
    ensures LikesBy(DropLike(likes, id), post, user) == 0
    decreases |likes|
  {
    if likes != [] {
      DropLikeCons(likes, id, post, user);
      NoLikesAfterDrop(likes[1..], id, post, user);
    }
  }

  lemma {:induction false} LikesByPositive(likes: seq<Like>, l: Like, post: Id, user: Id)
    requires l in likes && l.postId == post && l.userId == user
    ensures LikesBy(likes, post, user) >= 1
    decreases |likes|
  {
    if likes[0] != l {
      LikesByPositive(likes[1..], l, post, user);
    }
  }

  /** Rewriting counters keeps every id in place, so the post an id names does not move. */
  lemma {:induction false} FindPostSameIds(a: seq<Post>, b: seq<Post>, id: Id)
    requires |a| == |b| && forall i :: 0 <= i < |a| ==> a[i].id == b[i].id
    ensures FindPost(a, id) == FindPost(b, id)
    decreases |a|
  {
    if a != [] {
      FindPostSameIds(a[1..], b[1..], id);
    }
  }

  /**
   * From a state where the caller has at most one like on the post and the
   * counter covers it, two toggles restore whether the caller likes the post
   * and the counter; the second toggle reports the opposite of the first.
   */
  lemma ToggleTwiceRestores(s: Store, caller: Id, pid: Id, id1: Id, id2: Id, t1: int, t2: int)
    requires pid != "" && FindPost(s.posts, pid).Some?
    requires LikesBy(s.likes, pid, caller) <= 1
    requires LikeCountOf(s.posts[FindPost(s.posts, pid).value]) >= LikesBy(s.likes, pid, caller)
    ensures var r1 := ToggleLike(s, caller, Str(pid), id1, t1);
      && r1.Ok?
      && var r2 := ToggleLike(r1.value.0, caller, Str(pid), id2, t2);
      && r2.Ok?
      && r1.value.1.liked != r2.value.1.liked
      && (LikesBy(r2.value.0.likes, pid, caller) > 0 <==> LikesBy(s.likes, pid, caller) > 0)
      && r2.value.1.likeCount == LikeCountOf(s.posts[FindPost(s.posts, pid).value])
  {
    var i := FindPost(s.posts, pid).value;
    var r1 := ToggleLike(s, caller, Str(pid), id1, t1);
    var s1 := r1.value.0;
    FindPostSameIds(s.posts, s1.posts, pid);
    assert LikeCountOf(s1.posts[i]) == r1.value.1.likeCount;
  }

  // ---------------------------------------------------------------------------
  // Comments

  const MaxCommentLength := 500

  datatype CommentOutcome = CommentOutcome(comment: Comment, commentCount: int)

  /** A content the comment rule accepts: a string that is not blank and at most 500 code units once trimmed. */
  predicate AcceptableComment(content: Value) {
    content.Str? && Trim(content.s) != "" && Utf16Length(Trim(content.s)) <= MaxCommentLength
  }

  /**
   * The content check: a non-string content fails as `content.trim()`
   * would; blank content is missing; the trimmed content is limited to 500
   * UTF-16 code units.
   */
  function CommentText(content: Value): (r: Result<string>)
    requires Truthy(content)
    ensures !content.Str? ==> r == Err(Internal)
    ensures content.Str? && Trim(content.s) == "" ==> r == Err(MissingField)
    ensures content.Str? && Utf16Length(Trim(content.s)) > MaxCommentLength ==> r == Err(TooLong)
    ensures AcceptableComment(content) ==> r == Ok(Trim(content.s))
    ensures r.Ok? ==> content.Str? && r.value == Trim(content.s) && r.value != ""
                      && Utf16Length(r.value) <= MaxCommentLength
  {
    if !content.Str? then Err(Internal)
    else
      var text := Trim(content.s);
      if text == "" then Err(MissingField)
      else if Utf16Length(text) > MaxCommentLength then Err(TooLong)
      else Ok(text)
  }

  /**
   * Storing a checked comment: the caller must resolve and the post must
   * exist. The stored username is the metadata username or the e-mail local
   * part; an account without either fails as the handler's `email.split`
   * would.
   */
  function PostComment(s: Store, caller: Id, account: Option<Account>, postId: Value, text: string,
                       newId: Id, now: int)
    : (r: Result<(Store, CommentOutcome)>)
    ensures account.None? || account.value.id != caller ==> r == Err(CallerUnknown)
    ensures account.Some? && account.value.id == caller && PostNamed(s.posts, postId).None? ==> r == Err(NotFound)
    ensures account.Some? && account.value.id == caller && PostNamed(s.posts, postId).Some? ==>
      (r.Ok? <==> Present(account.value.meta.username) || account.value.email.Some?)
    ensures r.Err? && account.Some? && account.value.id == caller && PostNamed(s.posts, postId).Some? ==> r == Err(Internal)
    ensures r.Ok? ==> account.Some? && account.value.id == caller
    ensures r.Ok? ==> postId.Str? && PostNamed(s.posts, postId).Some?
    ensures r.Ok? ==> r.value.1.comment == Comment(newId, postId.s, caller, NameOr(account.value, ""), text, now)
    ensures r.Ok? ==> r.value.0.comments == s.comments + [r.value.1.comment]
    ensures r.Ok? ==> r.value.1.commentCount == s.posts[PostNamed(s.posts, postId).value].commentCount.GetOr(0) + 1
    ensures r.Ok? ==> r.value.0.likes == s.likes
    ensures r.Ok? ==> r.value.0.posts == SetCommentCount(s.posts, postId.s, r.value.1.commentCount)
  {
    if account.None? || account.value.id != caller then Err(CallerUnknown)
    else match PostNamed(s.posts, postId)
      case None => Err(NotFound)
      case Some(i) =>
        var a := account.value;
        if !Present(a.meta.username) && a.email.None? then Err(Internal)
        else
          var c := Comment(newId, postId.s, caller, NameOr(a, ""), text, now);
          var n := s.posts[i].commentCount.GetOr(0) + 1;
          Ok((Store(SetCommentCount(s.posts, postId.s, n), s.likes, s.comments + [c]), CommentOutcome(c, n)))
  }

  /**
   * Adding a comment: the post id and a non-blank content are required, the
   * trimmed content is limited to 500 UTF-16 code units, the caller must resolve,
   * the post must exist.
   */
  function AddComment(s: Store, caller: Id, account: Option<Account>, postId: Value, content: Value,
                      newId: Id, now: int)
    : (r: Result<(Store, CommentOutcome)>)
    ensures !Truthy(postId) || !Truthy(content) ==> r == Err(MissingField)
    ensures Truthy(postId) && content.Str? && content.s != "" && Trim(content.s) == "" ==> r == Err(MissingField)
    ensures Truthy(postId) && content.Str? && Utf16Length(Trim(content.s)) > MaxCommentLength ==> r == Err(TooLong)
    ensures Truthy(postId) && Truthy(content) && !content.Str? ==> r == Err(Internal)
    ensures Truthy(postId) && AcceptableComment(content) ==>
      r == PostComment(s, caller, account, postId, Trim(content.s), newId, now)
    ensures Truthy(postId) && AcceptableComment(content) && (account.None? || account.value.id != caller)
            ==> r == Err(CallerUnknown)
    ensures (Truthy(postId) && AcceptableComment(content) && account.Some? && account.value.id == caller
             && PostNamed(s.posts, postId).None?) ==> r == Err(NotFound)
    ensures (Truthy(postId) && AcceptableComment(content) && account.Some? && account.value.id == caller
             && PostNamed(s.posts, postId).Some?
             && (Present(account.value.meta.username) || account.value.email.Some?)) ==> r.Ok?
    ensures r.Ok? ==> account.Some? && account.value.id == caller
    ensures r.Ok? ==> content.Str? && r.value.1.comment.content != ""
                      && Utf16Length(r.value.1.comment.content) <= MaxCommentLength
    ensures r.Ok? ==> r.value.1.comment.content == Trim(content.s)
    ensures r.Ok? ==> postId.Str? && PostNamed(s.posts, postId).Some?
    ensures r.Ok? ==> var c := r.value.1.comment;
      && c.postId == postId.s && c.userId == caller && c.id == newId && c.createdAt == now
      && c.username == NameOr(account.value, "")
    ensures r.Ok? ==> r.value.0.comments == s.comments + [r.value.1.comment]
    ensures r.Ok? ==> r.value.1.commentCount == s.posts[PostNamed(s.posts, postId).value].commentCount.GetOr(0) + 1
    ensures r.Ok? ==> r.value.0.likes == s.likes
    ensures r.Ok? ==> r.value.0.posts == SetCommentCount(s.posts, postId.s, r.value.1.commentCount)
  {
    if !Truthy(postId) || !Truthy(content) then Err(MissingField)
    else
      var text :- CommentText(content);
      PostComment(s, caller, account, postId, text, newId, now)
  }

  /** `update({ comment_count }).eq('id', id)`. */
  function SetCommentCount(posts: seq<Post>, id: Id, c: int): (r: seq<Post>)
    ensures |r| == |posts|
    ensures forall i :: 0 <= i < |posts| ==>
      r[i] == if posts[i].id == id then posts[i].(commentCount := Some(c)) else posts[i]
  {
    seq(|posts|, i requires 0 <= i < |posts| => if posts[i].id == id then posts[i].(commentCount := Some(c)) else posts[i])
  }

  /**
   * The limit is inclusive: a comment of exactly 500 code units after
   * trimming is stored, one of 501 is refused.
   */
  lemma CommentLengthBoundary(s: Store, caller: Id, a: Account, pid: Id, text: string, longer: string,
                              newId: Id, now: int)
    requires a.id == caller && Present(a.meta.username)
    requires pid != "" && FindPost(s.posts, pid).Some?
    requires Tight(text) && Utf16Length(text) == MaxCommentLength
    requires Tight(longer) && Utf16Length(longer) == MaxCommentLength + 1
    ensures AddComment(s, caller, Some(a), Str(pid), Str(text), newId, now).Ok?
    ensures AddComment(s, caller, Some(a), Str(pid), Str(longer), newId, now) == Err(TooLong)
  {
    TrimNoOuterSpace(text);
    assert CommentText(Str(text)) == Ok(text);
    TrimNoOuterSpace(longer);
    assert CommentText(Str(longer)) == Err(TooLong);
  }

  /**
   * The limit counts code units, not characters: 300 characters above
   * U+FFFF are 600 units, and the comment is refused.
   */
  lemma CommentLengthCountsCodeUnits(text: string)
    requires |text| == 300 && forall i :: 0 <= i < |text| ==> text[i] as int > 0xFFFF
    ensures CommentText(Str(text)) == Err(TooLong)
  {
    TrimNoOuterSpace(text);
    Utf16LengthExtremes(text);
  }

  /** A stored comment's content is already trimmed. */
  lemma StoredCommentIsTrimmed(s: Store, caller: Id, account: Option<Account>, postId: Value, content: Value,
                               newId: Id, now: int)
    requires AddComment(s, caller, account, postId, content, newId, now).Ok?
    ensures var c := AddComment(s, caller, account, postId, content, newId, now).value.1.comment;
      Trim(c.content) == c.content
  {
    TrimIdempotent(content.s);
  }

  // ---------------------------------------------------------------------------
  // Deleting a post

  function LikesNotOn(likes: seq<Like>, pid: Id): (r: seq<Like>)
    ensures forall l :: l in r <==> l in likes && l.postId != pid
  {
    if likes == [] then []
    else
      assert forall l :: l in likes <==> l == likes[0] || l in likes[1..];
      (if likes[0].postId != pid then [likes[0]] else []) + LikesNotOn(likes[1..], pid)
  }

  function CommentsNotOn(comments: seq<Comment>, pid: Id): (r: seq<Comment>)
    ensures forall c :: c in r <==> c in comments && c.postId != pid
  {
    if comments == [] then []
    else
      assert forall c :: c in comments <==> c == comments[0] || c in comments[1..];
      (if comments[0].postId != pid then [comments[0]] else []) + CommentsNotOn(comments[1..], pid)
  }

  function PostsOtherThan(posts: seq<Post>, pid: Id): (r: seq<Post>)
    ensures forall p :: p in r <==> p in posts && p.id != pid
  {
    if posts == [] then []
    else
      assert forall p :: p in posts <==> p == posts[0] || p in posts[1..];
      (if posts[0].id != pid then [posts[0]] else []) + PostsOtherThan(posts[1..], pid)
  }

  /**
   * Deleting a post: owner only; the stored file is named for removal when
   * the post has one; the post, its likes and its comments go, nothing else.
   */
  function DeletePost(s: Store, caller: Id, postId: Value): (r: Result<(Store, Option<string>)>)
    ensures !Truthy(postId) ==> r == Err(MissingField)
    ensures Truthy(postId) && PostNamed(s.posts, postId).None? ==> r == Err(NotFound)
    ensures (Truthy(postId) && PostNamed(s.posts, postId).Some?
             && s.posts[PostNamed(s.posts, postId).value].userId != caller) ==> r == Err(Forbidden)
    ensures (Truthy(postId) && PostNamed(s.posts, postId).Some?
             && s.posts[PostNamed(s.posts, postId).value].userId == caller) ==> r.Ok?
    ensures r.Ok? ==> postId.Str? && PostNamed(s.posts, postId).Some?
                      && s.posts[PostNamed(s.posts, postId).value].userId == caller
    ensures r.Ok? ==> var post := s.posts[PostNamed(s.posts, postId).value];
      r.value.1 == (if Present(post.filePath) then post.filePath else None)
    ensures r.Ok? ==> forall p :: p in r.value.0.posts <==> p in s.posts && p.id != postId.s
    ensures r.Ok? ==> forall l :: l in r.value.0.likes <==> l in s.likes && l.postId != postId.s
    ensures r.Ok? ==> forall c :: c in r.value.0.comments <==> c in s.comments && c.postId != postId.s
  {
    if !Truthy(postId) then Err(MissingField)
    else match PostNamed(s.posts, postId)
      case None => Err(NotFound)
      case Some(i) =>
        var post := s.posts[i];
        if post.userId != caller then Err(Forbidden)
        else
          var file := if Present(post.filePath) then post.filePath else None;
          Ok((Store(PostsOtherThan(s.posts, postId.s), LikesNotOn(s.likes, postId.s), CommentsNotOn(s.comments, postId.s)), file))
  }

  /** After a delete, no like or comment refers to the deleted post any more. */
  lemma DeleteLeavesNoOrphans(s: Store, caller: Id, pid: Id)
    requires DeletePost(s, caller, Str(pid)).Ok?
    ensures var s' := DeletePost(s, caller, Str(pid)).value.0;
      && (forall i :: 0 <= i < |s'.likes| ==> s'.likes[i].postId != pid)
      && (forall i :: 0 <= i < |s'.comments| ==> s'.comments[i].postId != pid)
      && (forall i :: 0 <= i < |s'.posts| ==> s'.posts[i].id != pid)
      && LikesBy(s'.likes, pid, caller) == 0
  {
    var s' := DeletePost(s, caller, Str(pid)).value.0;
    assert forall i :: 0 <= i < |s'.likes| ==> s'.likes[i] in s'.likes;
    assert forall i :: 0 <= i < |s'.comments| ==> s'.comments[i] in s'.comments;
    assert forall i :: 0 <= i < |s'.posts| ==> s'.posts[i] in s'.posts;
    NoLikesOn(s'.likes, pid, caller);
  }

  lemma {:induction false} NoLikesOn(likes: seq<Like>, pid: Id, user: Id)
    requires forall i :: 0 <= i < |likes| ==> likes[i].postId != pid
    ensures LikesBy(likes, pid, user) == 0
    decreases |likes|
  {
    if likes != [] {
      NoLikesOn(likes[1..], pid, user);
    }
  }

  // ---------------------------------------------------------------------------
  // The feed

  datatype FeedEntry = FeedEntry(post: Post, likedByMe: bool)
  datatype FeedPage = FeedPage(entries: seq<FeedEntry>, hasMore: bool)

  const DefaultFeedLimit := 10
  const MaxFeedLimit := 50

  /** `Math.min(limit || 10, 50)`. */
  function FeedLimit(limit: Option<int>): (n: int)
    ensures n <= MaxFeedLimit
    ensures limit.None? ==> n == DefaultFeedLimit
    ensures limit.Some? ==> n == Sorting.Min(limit.value, MaxFeedLimit)
  {
    Sorting.Min(limit.GetOr(DefaultFeedLimit), MaxFeedLimit)
  }

  /** `Math.max(offset || 0, 0)`. */
  function FeedOffset(offset: Option<int>): (n: nat)
    ensures offset.Some? && offset.value >= 0 ==> n == offset.value
    ensures offset.None? || offset.value < 0 ==> n == 0
  {
    Sorting.Max(offset.GetOr(0), 0)
  }

  /** `range(offset, offset + limit - 1)`: the rows at positions offset .. offset+limit-1 that exist. */
  function Window<T>(s: seq<T>, offset: nat, limit: int): (w: seq<T>)
    ensures forall i :: 0 <= i < |w| ==> offset + i < |s| && w[i] == s[offset + i]
    ensures limit <= 0 || offset >= |s| ==> w == []
    ensures 0 < limit && offset + limit <= |s| ==> |w| == limit
    ensures 0 < limit && offset < |s| < offset + limit ==> offset + |w| == |s|
  {
    if limit <= 0 || offset >= |s| then []
    else s[offset..Sorting.Min(offset + limit, |s|)]
  }

  /** The caller has a like on the post. */
  predicate LikedBy(likes: seq<Like>, caller: Id, post: Id) {
    exists l :: l in likes && l.userId == caller && l.postId == post
  }

  /** Each post of the page with its `liked_by_me` flag. */
  function Flagged(page: seq<Post>, liked: Id -> bool): (r: seq<FeedEntry>)
    ensures |r| == |page|
    ensures forall i :: 0 <= i < |r| ==> r[i].post == page[i] && r[i].likedByMe == liked(page[i].id)
  {
    seq(|page|, i requires 0 <= i < |page| => FeedEntry(page[i], liked(page[i].id)))
  }

  /** The posts of one page, newest first: `order('created_at', desc).range(offset, offset + limit - 1)`. */
  function FeedWindow(rows: seq<Post>, limit: Option<int>, offset: Option<int>): (page: seq<Post>)
  {
    Window(Sorting.SortDesc(rows, PostCreatedAt), FeedOffset(offset), FeedLimit(limit))
  }

  /**
   * One page of the feed: posts newest first, the requested window, each
   * post flagged when the caller likes it. A failed likes read is ignored.
   */
  function Feed(posts: Table<Post>, likes: Table<Like>, caller: Option<Id>, limit: Option<int>, offset: Option<int>)
    : (r: Result<FeedPage>)
    ensures posts.Broken? ==> r == Err(StoreFailure)
    ensures posts.Rows? ==> r.Ok?
    ensures r.Ok? ==> var page := FeedWindow(posts.rows, limit, offset);
      && |r.value.entries| == |page|
      && (forall i :: 0 <= i < |page| ==> r.value.entries[i].post == page[i])
      && (r.value.hasMore <==> FeedOffset(offset) + FeedLimit(limit) < |posts.rows|)
    ensures r.Ok? && (!Present(caller) || likes.Broken?) ==>
      forall i :: 0 <= i < |r.value.entries| ==> !r.value.entries[i].likedByMe
    ensures r.Ok? && Present(caller) && likes.Rows? ==> forall i :: 0 <= i < |r.value.entries| ==>
      (r.value.entries[i].likedByMe <==> LikedBy(likes.rows, caller.value, r.value.entries[i].post.id))
  {
    match posts
    case Broken(_) => Err(StoreFailure)
    case Rows(rows) =>
      var page := FeedWindow(rows, limit, offset);
      var liked := if Present(caller) && likes.Rows? then (id => LikedBy(likes.rows, caller.value, id)) else (id => false);
      Ok(FeedPage(Flagged(page, liked), FeedOffset(offset) + FeedLimit(limit) < |rows|))
  }

  /** The entries are the window's posts, unchanged and in order; only the flag is added. */
  lemma FeedKeepsPosts(posts: seq<Post>, likes: Table<Like>, caller: Option<Id>, limit: Option<int>, offset: Option<int>)
    ensures var page := Feed(Rows(posts), likes, caller, limit, offset).value;
      var ordered := Sorting.SortDesc(posts, PostCreatedAt);
      && (forall i :: 0 <= i < |page.entries| ==> page.entries[i].post in posts)
      && Sorting.SortedDesc(seq(|page.entries|, i requires 0 <= i < |page.entries| => page.entries[i].post), PostCreatedAt)
  {
    var page := Feed(Rows(posts), likes, caller, limit, offset).value;
    var ordered := Sorting.SortDesc(posts, PostCreatedAt);
    Sorting.SortDescSorted(posts, PostCreatedAt);
    forall i | 0 <= i < |page.entries|
      ensures page.entries[i].post in posts
    {
      Sorting.SortDescMembers(posts, PostCreatedAt, page.entries[i].post);
    }
  }

  /** Two consecutive windows of a positive size join up with no gap and no overlap. */
  lemma WindowNext<T>(s: seq<T>, o: nat, n: int)
    requires n > 0
    ensures o + n < |s| <==> Window(s, o + n, n) != []
    ensures Window(s, o + n, n) != [] ==>
      |Window(s, o, n)| == n && Window(s, o, n) + Window(s, o + n, n) == s[o..o + n + |Window(s, o + n, n)|]
  {
    if o + n < |s| {
      var m := Sorting.Min(o + n + n, |s|);
      assert s[o..o + n] + s[o + n..m] == s[o..m];
    }
  }

  /**
   * With a positive page size, the next page (same limit, offset advanced by
   * the limit) is not empty exactly when rows remain past this one.
   */
  lemma FeedNextPage(posts: seq<Post>, limit: Option<int>, offset: nat)
    requires limit.Some? ==> limit.value > 0
    ensures offset + FeedLimit(limit) < |posts| <==> FeedWindow(posts, limit, Some(offset + FeedLimit(limit))) != []
  {
    var n := FeedLimit(limit);
    var ordered := Sorting.SortDesc(posts, PostCreatedAt);
    FeedWindowAt(posts, limit, offset + n);
    WindowNext(ordered, offset, n);
  }

  /** A page at a known offset is the window of the ordered posts there. */
  lemma FeedWindowAt(posts: seq<Post>, limit: Option<int>, offset: nat)
    ensures FeedWindow(posts, limit, Some(offset)) == Window(Sorting.SortDesc(posts, PostCreatedAt), offset, FeedLimit(limit))
  {
    assert FeedOffset(Some(offset)) == offset;
  }

  /** `hasMore` says exactly that the next page is not empty. */
  lemma FeedHasMore(posts: seq<Post>, likes: Table<Like>, caller: Option<Id>, limit: Option<int>, offset: nat)
    requires limit.Some? ==> limit.value > 0
    ensures Feed(Rows(posts), likes, caller, limit, Some(offset)).value.hasMore
        <==> FeedWindow(posts, limit, Some(offset + FeedLimit(limit))) != []
  {
    FeedNextPage(posts, limit, offset);
  }

  // ---------------------------------------------------------------------------
  // Posts of one user

  const DefaultUserPosts := 6
  const MaxUserPosts := 12

  function PostsOf(posts: seq<Post>, user: Id): (r: seq<Post>)
    ensures forall p :: p in r <==> p in posts && p.userId == user
  {
    if posts == [] then []
    else
      assert forall p :: p in posts <==> p == posts[0] || p in posts[1..];
      (if posts[0].userId == user then [posts[0]] else []) + PostsOf(posts[1..], user)
  }

  /** `Math.min(limit || 6, 12)`: how many posts a user-posts request asks for. */
  function UserPostsTake(limit: Option<int>): (n: int)
    ensures n <= MaxUserPosts
    ensures limit.None? ==> n == DefaultUserPosts
    ensures limit.Some? ==> n == Sorting.Min(limit.value, MaxUserPosts)
  {
    Sorting.Min(limit.GetOr(DefaultUserPosts), MaxUserPosts)
  }

  /**
   * The posts of a user named by id, or else by case-insensitive name:
   * newest first, at most `min(limit or 6, 12)` of them.
   */
  function UserPosts(posts: Table<Post>, dir: seq<Account>, userId: Option<string>, username: Option<string>,
                     limit: Option<int>)
    : (r: Result<seq<Post>>)
    ensures !Present(userId) && !Present(username) ==> r == Err(MissingField)
    ensures !Present(userId) && Present(username) && FindByName(dir, username.value).None? ==> r == Err(NotFound)
    ensures (Present(userId) || (Present(username) && FindByName(dir, username.value).Some?)) ==>
      (posts.Rows? ==> r.Ok?) && (posts.Broken? ==> r == Err(StoreFailure))
    ensures r.Ok? ==> |r.value| <= MaxUserPosts && |r.value| <= Sorting.Max(0, limit.GetOr(DefaultUserPosts))
    ensures r.Ok? ==> var owner := if Present(userId) then userId.value else dir[FindByName(dir, username.value).value].id;
      && posts.Rows?
      && (forall i :: 0 <= i < |r.value| ==> r.value[i].userId == owner && r.value[i] in posts.rows)
      && Sorting.SortedDesc(r.value, PostCreatedAt)
      && r.value == Sorting.Take(Sorting.SortDesc(PostsOf(posts.rows, owner), PostCreatedAt), UserPostsTake(limit))
  {
    if !Present(userId) && !Present(username) then Err(MissingField)
    else
      var owner :- if Present(userId) then Ok(userId.value)
                   else match FindByName(dir, username.value)
                     case None => Err(NotFound)
                     case Some(i) => Ok(dir[i].id);
      match posts
      case Broken(_) => Err(StoreFailure)
      case Rows(rows) => Ok(NewestPosts(rows, owner, UserPostsTake(limit)))
  }

  /** The first `n` of the owner's posts, newest first. */
  function NewestPosts(rows: seq<Post>, owner: Id, n: int): (r: seq<Post>)
    ensures |r| <= Sorting.Max(0, n)
    ensures forall i :: 0 <= i < |r| ==> r[i].userId == owner && r[i] in rows
    ensures Sorting.SortedDesc(r, PostCreatedAt)
  {
    var mine := PostsOf(rows, owner);
    var ordered := Sorting.SortDesc(mine, PostCreatedAt);
    var out := Sorting.Take(ordered, n);
    assert forall i :: 0 <= i < |out| ==> out[i] == ordered[i];
    assert forall p :: p in ordered ==> p in mine by {
      forall p | p in ordered
        ensures p in mine
      {
        Sorting.SortDescMembers(mine, PostCreatedAt, p);
      }
    }
    assert Sorting.SortedDesc(out, PostCreatedAt) by {
      Sorting.SortDescSorted(mine, PostCreatedAt);
    }
    out
  }

  /**
   * The user's posts are the newest ones: a post of the same owner that is
   * not returned is no newer than any post that is.
   */
  lemma UserPostsIsNewest(rows: seq<Post>, dir: seq<Account>, userId: Option<string>, username: Option<string>,
                          limit: Option<int>, kept: Post, left: Post)
    requires UserPosts(Rows(rows), dir, userId, username, limit).Ok?
    requires kept in UserPosts(Rows(rows), dir, userId, username, limit).value
    requires left in rows && left.userId == kept.userId
    requires left !in UserPosts(Rows(rows), dir, userId, username, limit).value
    ensures left.createdAt <= kept.createdAt
  {
    var r := UserPosts(Rows(rows), dir, userId, username, limit).value;
    var owner := if Present(userId) then userId.value else dir[FindByName(dir, username.value).value].id;
    var i :| 0 <= i < |r| && r[i] == kept;
    assert kept.userId == owner;
    Sorting.TakeSortDescGreatest(PostsOf(rows, owner), PostCreatedAt, UserPostsTake(limit), kept, left);
  }
}

=== FILE: media_handlers.dfy ===
/**
 * The HTTP endpoints over the media operations: each answers the preflight,
 * refuses any other verb than its own, and (for the writes) requires a
 * caller decoded from the bearer token before the operation runs. The
 * feed reads the caller only to flag liked posts and never refuses a
 * request for lack of one.
 */
module MediaHandlers {

  import opened Base
  import opened Directory
  import opened Json
  import opened Media

  datatype Reply =
    | Preflight
    | Toggled(store: Store, like: LikeOutcome)
    | Commented(store: Store, added: CommentOutcome)
    | Deleted(store: Store, removedFile: Option<string>)
    | Page(page: FeedPage)
    | Posts(posts: seq<Post>)

  /** POST like: toggles the caller's like on `postId`. */
  function LikeEndpoint(verb: Method, caller: Option<Id>, s: Store, postId: Value, newId: Id, now: int)
    : (r: Result<Reply>)
    ensures verb == Options ==> r == Ok(Preflight)
    ensures verb !in {Options, Method.Post} ==> r == Err(MethodNotAllowed)
    ensures verb == Method.Post && !Present(caller) ==> r == Err(NotAuthenticated)
    ensures verb == Method.Post && Present(caller) ==>
      r == match ToggleLike(s, caller.value, postId, newId, now)
           case Ok(p) => Ok(Toggled(p.0, p.1)) case Err(e) => Err(e)
    ensures r.Ok? && r.value != Preflight ==>
      && verb == Method.Post && Present(caller) && r.value.Toggled?
      && ToggleLike(s, caller.value, postId, newId, now) == Ok((r.value.store, r.value.like))
  {
    if verb == Options then Ok(Preflight)
    else if verb != Method.Post then Err(MethodNotAllowed)
    else if !Present(caller) then Err(NotAuthenticated)
    else
      var (store, outcome) :- ToggleLike(s, caller.value, postId, newId, now);
      Ok(Toggled(store, outcome))
  }

  /**
   * POST comment: the body checks run before the caller's account is
   * fetched, so a malformed body from an unknown caller is a 400, not a 401.
   */
  function CommentEndpoint(verb: Method, caller: Option<Id>, dir: seq<Account>, s: Store,
                           postId: Value, content: Value, newId: Id, now: int)
    : (r: Result<Reply>)
    ensures verb == Options ==> r == Ok(Preflight)
    ensures verb !in {Options, Method.Post} ==> r == Err(MethodNotAllowed)
    ensures verb == Method.Post && !Present(caller) ==> r == Err(NotAuthenticated)
    ensures verb == Method.Post && Present(caller) && (!Truthy(postId) || !Truthy(content)) ==> r == Err(MissingField)
    ensures (verb == Method.Post && Present(caller) && Truthy(postId) && content.Str? && Truthy(content)
             && Text.Trim(content.s) != "" && !Known(dir, caller.value)
             && Text.Utf16Length(Text.Trim(content.s)) <= MaxCommentLength) ==> r == Err(CallerUnknown)
    ensures verb == Method.Post && Present(caller) ==>
      r == match AddComment(s, caller.value, FindById(dir, caller.value), postId, content, newId, now)
           case Ok(added) => Ok(Commented(added.0, added.1))
           case Err(e) => Err(e)
    ensures r.Ok? && r.value != Preflight ==>
      && verb == Method.Post && Present(caller) && Known(dir, caller.value) && r.value.Commented?
      && r.value.added.comment.userId == caller.value
  {
    if verb == Options then Ok(Preflight)
    else if verb != Method.Post then Err(MethodNotAllowed)
    else if !Present(caller) then Err(NotAuthenticated)
    else
      var (store, outcome) :- AddComment(s, caller.value, FindById(dir, caller.value), postId, content, newId, now);
      Ok(Commented(store, outcome))
  }

  /** POST delete: only the owner may delete a post. */
  function DeleteEndpoint(verb: Method, caller: Option<Id>, s: Store, postId: Value): (r: Result<Reply>)
    ensures verb == Options ==> r == Ok(Preflight)
    ensures verb !in {Options, Method.Post} ==> r == Err(MethodNotAllowed)
    ensures verb == Method.Post && !Present(caller) ==> r == Err(NotAuthenticated)
    ensures verb == Method.Post && Present(caller) ==>
      r == match DeletePost(s, caller.value, postId)
           case Ok(deleted) => Ok(Deleted(deleted.0, deleted.1))
           case Err(e) => Err(e)
    ensures r.Ok? && r.value != Preflight ==>
      && verb == Method.Post && Present(caller) && r.value.Deleted?
      && postId.Str? && exists p :: p in s.posts && p.id == postId.s && p.userId == caller.value
  {
    if verb == Options then Ok(Preflight)
    else if verb != Method.Post then Err(MethodNotAllowed)
    else if !Present(caller) then Err(NotAuthenticated)
    else
      var (store, file) :- DeletePost(s, caller.value, postId);
      assert s.posts[PostNamed(s.posts, postId).value] in s.posts;
      Ok(Deleted(store, file))
  }

  /** GET feed: anonymous callers get the same page with every flag false. */
  function FeedEndpoint(verb: Method, caller: Option<Id>, posts: Table<Post>, likes: Table<Like>,
                        limit: Option<int>, offset: Option<int>)
    : (r: Result<Reply>)
    ensures verb == Options ==> r == Ok(Preflight)
    ensures verb !in {Options, Get} ==> r == Err(MethodNotAllowed)
    ensures verb == Get && posts.Rows? ==> r.Ok? && r.value.Page?
    ensures verb == Get && posts.Broken? ==> r == Err(StoreFailure)
    ensures verb == Get && posts.Rows? ==> r == Ok(Page(Feed(posts, likes, caller, limit, offset).value))
  {
    if verb == Options then Ok(Preflight)
    else if verb != Get then Err(MethodNotAllowed)
    else
      var page :- Feed(posts, likes, caller, limit, offset);
      Ok(Page(page))
  }

  /** An anonymous feed request sees the same posts, in the same order, as a signed-in one. */
  lemma FeedPostsIndependentOfCaller(posts: seq<Post>, likes: Table<Like>, a: Option<Id>, b: Option<Id>,
                                     limit: Option<int>, offset: Option<int>)
    ensures var pa := Feed(Rows(posts), likes, a, limit, offset).value;
      var pb := Feed(Rows(posts), likes, b, limit, offset).value;
      && |pa.entries| == |pb.entries| && pa.hasMore == pb.hasMore
      && forall i :: 0 <= i < |pa.entries| ==> pa.entries[i].post == pb.entries[i].post
  {
  }

  /** GET user posts, by id or by name. */
  function UserPostsEndpoint(verb: Method, posts: Table<Post>, dir: seq<Account>, userId: Option<string>,
                             username: Option<string>, limit: Option<int>)
    : (r: Result<Reply>)
    ensures verb == Options ==> r == Ok(Preflight)
    ensures verb !in {Options, Get} ==> r == Err(MethodNotAllowed)
    ensures verb == Get && !Present(userId) && !Present(username) ==> r == Err(MissingField)
    ensures verb == Get ==>
      r == match UserPosts(posts, dir, userId, username, limit)
           case Ok(found) => Ok(Posts(found))
           case Err(e) => Err(e)
    ensures r.Ok? && r.value.Posts? ==> verb == Get && |r.value.posts| <= MaxUserPosts
  {
    if verb == Options then Ok(Preflight)
    else if verb != Get then Err(MethodNotAllowed)
    else
      var found :- UserPosts(posts, dir, userId, username, limit);
      Ok(Posts(found))
  }
}

=== FILE: notifications.dfy ===
/**
 * The notification aggregator: pending friend requests addressed to the
 * caller, likes and comments by others on the caller's newest posts, merged
 * into one list newest first, cut to a clamped limit, with per-kind counts.
 */
module Notifications {

  import opened Base
  import opened Directory
  import opened Friends
  import opened Media
  import Sorting

  datatype FromUser = FromUser(id: Id, username: string)

  datatype Item =
    | RequestItem(createdAt: int, requestId: Id, from: FromUser)
    | LikeItem(createdAt: int, postId: Id, from: FromUser)
    | CommentItem(createdAt: int, postId: Id, content: string, from: FromUser)

  datatype Counts = Counts(total: nat, friendRequests: nat, likes: nat, comments: nat)

  datatype Digest = Digest(counts: Counts, items: seq<Item>)

  datatype Reply = Preflight | Delivered(digest: Digest)

  const DefaultLimit := 40
  const MinLimit := 5
  const MaxLimit := 100
  /** How many posts, likes and comments each store read returns at most. */
  const ReadCap := 50

  function ItemTime(i: Item): int {
    i.createdAt
  }

  /** `Math.min(Math.max(limit || 40, 5), 100)`. */
  function ClampLimit(limit: Option<int>): (n: int)
    ensures MinLimit <= n <= MaxLimit
    ensures limit.None? ==> n == DefaultLimit
    ensures limit.Some? && MinLimit <= limit.value <= MaxLimit ==> n == limit.value
    ensures limit.Some? && limit.value < MinLimit ==> n == MinLimit
    ensures limit.Some? && limit.value > MaxLimit ==> n == MaxLimit
  {
    Sorting.Min(Sorting.Max(limit.GetOr(DefaultLimit), MinLimit), MaxLimit)
  }

  /** `getUsername`: a truthy stored name wins, then the actor map's name, then 'Membre'. */
  function UsernameFor(m: map<Id, Actor>, id: Id, stored: string): (r: string)
    ensures r != ""
    ensures stored != "" ==> r == stored
    ensures stored == "" && id in m && m[id].username != "" ==> r == m[id].username
    ensures stored == "" && id !in m ==> r == "Membre"
  {
    if stored != "" then stored
    else match Lookup(m, id)
      case Some(a) => if a.username != "" then a.username else "Membre"
      case None => "Membre"
  }

  // ---------------------------------------------------------------------------
  // The store reads

  /** The caller's posts, newest first, at most 50: the posts read. */
  function RecentPosts(posts: seq<Post>, caller: Id): (r: seq<Post>)
    ensures |r| <= ReadCap
    ensures forall p :: p in r ==> p in posts && p.userId == caller
    ensures Sorting.SortedDesc(r, PostCreatedAt)
    ensures |PostsOf(posts, caller)| <= ReadCap ==> forall p :: p in r <==> p in posts && p.userId == caller
  {
    var mine := PostsOf(posts, caller);
    var sorted := Sorting.SortDesc(mine, PostCreatedAt);
    var r := Sorting.Take(sorted, ReadCap);
    assert forall p :: p in sorted <==> p in posts && p.userId == caller by {
      forall p ensures p in sorted <==> p in mine {
        Sorting.SortDescMembers(mine, PostCreatedAt, p);
      }
    }
    assert Sorting.SortedDesc(r, PostCreatedAt) by {
      Sorting.SortDescSorted(mine, PostCreatedAt);
      assert forall i :: 0 <= i < |r| ==> r[i] == sorted[i];
    }
    r
  }

  /** A post of the caller's that is not read is no newer than any post read. */
  lemma RecentPostsAreNewest(posts: seq<Post>, caller: Id, kept: Post, left: Post)
    requires kept in RecentPosts(posts, caller)
    requires left in posts && left.userId == caller && left !in RecentPosts(posts, caller)
    ensures left.createdAt <= kept.createdAt
  {
    Sorting.TakeSortDescGreatest(PostsOf(posts, caller), PostCreatedAt, ReadCap, kept, left);
  }

  /** The ids of the posts read. */
  function RecentPostIds(posts: seq<Post>, caller: Id): (r: set<Id>)
    ensures forall id :: id in r <==> exists p :: p in RecentPosts(posts, caller) && p.id == id
    ensures forall id :: id in r ==> exists p :: p in posts && p.userId == caller && p.id == id
    ensures PostsOf(posts, caller) == [] ==> r == {}
  {
    var recent := RecentPosts(posts, caller);
    if PostsOf(posts, caller) == [] then
      assert recent == [];
      {}
    else
      set p | p in recent :: p.id
  }

  function LikesOn(likes: seq<Like>, ids: set<Id>): (r: seq<Like>)
    ensures forall l :: l in r <==> l in likes && l.postId in ids
  {
    if likes == [] then []
    else
      assert forall l :: l in likes <==> l == likes[0] || l in likes[1..];
      (if likes[0].postId in ids then [likes[0]] else []) + LikesOn(likes[1..], ids)
  }

  function CommentsOn(comments: seq<Comment>, ids: set<Id>): (r: seq<Comment>)
    ensures forall c :: c in r <==> c in comments && c.postId in ids
  {
    if comments == [] then []
    else
      assert forall c :: c in comments <==> c == comments[0] || c in comments[1..];
      (if comments[0].postId in ids then [comments[0]] else []) + CommentsOn(comments[1..], ids)
  }

  /** `eq('status', 'pending').eq('addressee_id', caller)`. */
  function PendingTo(rows: seq<FriendRequest>, caller: Id): (r: seq<FriendRequest>)
    ensures forall q :: q in r <==> q in rows && q.status == Pending && q.addressee == caller
  {
    if rows == [] then []
    else
      assert forall q :: q in rows <==> q == rows[0] || q in rows[1..];
      (if rows[0].status == Pending && rows[0].addressee == caller then [rows[0]] else [])
      + PendingTo(rows[1..], caller)
  }

  function LikeTime(l: Like): int {
    l.createdAt
  }

  function CommentTime(c: Comment): int {
    c.createdAt
  }

  /** The members of the newest-first prefix of a read are members of the read. */
  lemma NewestMembers<T>(s: seq<T>, key: T -> int, n: int, x: T)
    requires x in Sorting.Take(Sorting.SortDesc(s, key), n)
    ensures x in s
  {
    Sorting.SortDescMembers(s, key, x);
  }

  /** The rows the handler fetched, in the order the store returns them. */
  datatype Reads = Reads(requests: seq<FriendRequest>, likes: seq<Like>, comments: seq<Comment>)

  /**
   * The four store reads; the likes and comments are only read when the
   * caller has posts, so their tables cannot fail the request otherwise.
   */
  function Read(posts: Table<Post>, likes: Table<Like>, comments: Table<Comment>, requests: Table<FriendRequest>,
                caller: Id)
    : (r: Result<Reads>)
    ensures posts.Broken? || requests.Broken? ==> r == Err(StoreFailure)
    ensures posts.Rows? && PostsOf(posts.rows, caller) != [] && (likes.Broken? || comments.Broken?)
            ==> r == Err(StoreFailure)
    ensures r.Ok? ==> posts.Rows? && requests.Rows?
    ensures r.Ok? ==> forall q :: q in r.value.requests <==> q in requests.rows && q.status == Pending && q.addressee == caller
    ensures r.Ok? ==> |r.value.likes| <= ReadCap && |r.value.comments| <= ReadCap
    ensures r.Ok? ==> forall l :: l in r.value.likes ==>
      likes.Rows? && l in likes.rows && exists p :: p in posts.rows && p.userId == caller && p.id == l.postId
    ensures r.Ok? ==> forall c :: c in r.value.comments ==>
      comments.Rows? && c in comments.rows && exists p :: p in posts.rows && p.userId == caller && p.id == c.postId
    ensures r.Ok? && PostsOf(posts.rows, caller) == [] ==> r.value.likes == [] && r.value.comments == []
    ensures posts.Rows? && requests.Rows? && (PostsOf(posts.rows, caller) != [] ==> likes.Rows? && comments.Rows?)
            ==> r.Ok?
    ensures r.Ok? ==> r.value.requests == Sorting.SortDesc(PendingTo(requests.rows, caller), CreatedAt)
    ensures r.Ok? && PostsOf(posts.rows, caller) != [] ==>
      var ids := RecentPostIds(posts.rows, caller);
      && likes.Rows? && comments.Rows?
      && r.value.likes == Sorting.Take(Sorting.SortDesc(LikesOn(likes.rows, ids), LikeTime), ReadCap)
      && r.value.comments == Sorting.Take(Sorting.SortDesc(CommentsOn(comments.rows, ids), CommentTime), ReadCap)
  {
    if posts.Broken? then Err(StoreFailure)
    else
      var ids := RecentPostIds(posts.rows, caller);
      RecentPostIdsEmpty(posts.rows, caller);
      if ids != {} && likes.Broken? then Err(StoreFailure)
      else if ids != {} && comments.Broken? then Err(StoreFailure)
      else if requests.Broken? then Err(StoreFailure)
      else
        var ls := if ids == {} then [] else Sorting.Take(Sorting.SortDesc(LikesOn(likes.rows, ids), LikeTime), ReadCap);
        var cs := if ids == {} then [] else Sorting.Take(Sorting.SortDesc(CommentsOn(comments.rows, ids), CommentTime), ReadCap);
        var qs := Sorting.SortDesc(PendingTo(requests.rows, caller), CreatedAt);
        assert forall l :: l in ls ==> l in LikesOn(likes.rows, ids) by {
          forall l | l in ls ensures l in LikesOn(likes.rows, ids) {
            NewestMembers(LikesOn(likes.rows, ids), LikeTime, ReadCap, l);
          }
        }
        assert forall c :: c in cs ==> c in CommentsOn(comments.rows, ids) by {
          forall c | c in cs ensures c in CommentsOn(comments.rows, ids) {
            NewestMembers(CommentsOn(comments.rows, ids), CommentTime, ReadCap, c);
          }
        }
        assert forall q :: q in qs <==> q in PendingTo(requests.rows, caller) by {
          forall q ensures q in qs <==> q in PendingTo(requests.rows, caller) {
            Sorting.SortDescMembers(PendingTo(requests.rows, caller), CreatedAt, q);
          }
        }
        Ok(Reads(qs, ls, cs))
  }

  /** The caller has recent post ids exactly when they have posts at all. */
  lemma RecentPostIdsEmpty(posts: seq<Post>, caller: Id)
    ensures RecentPostIds(posts, caller) == {} <==> PostsOf(posts, caller) == []
  {
    if PostsOf(posts, caller) != [] {
      var recent := RecentPosts(posts, caller);
      assert |recent| > 0;
      assert recent[0] in recent;
      assert recent[0].id in RecentPostIds(posts, caller);
    }
  }

  /**
   * The reads keep the newest rows: a like or comment on one of the posts
   * read that is not itself read is no newer than any like or comment read,
   * and the pending requests come newest first.
   */
  lemma ReadKeepsNewest(posts: Table<Post>, likes: Table<Like>, comments: Table<Comment>,
                        requests: Table<FriendRequest>, caller: Id,
                        keptLike: Like, leftLike: Like, keptComment: Comment, leftComment: Comment)
    requires Read(posts, likes, comments, requests, caller).Ok?
    ensures var fetched := Read(posts, likes, comments, requests, caller).value;
      && Sorting.SortedDesc(fetched.requests, CreatedAt)
      && (keptLike in fetched.likes && likes.Rows? && leftLike in likes.rows && leftLike !in fetched.likes
          && leftLike.postId in RecentPostIds(posts.rows, caller)
          ==> leftLike.createdAt <= keptLike.createdAt)
      && (keptComment in fetched.comments && comments.Rows? && leftComment in comments.rows
          && leftComment !in fetched.comments && leftComment.postId in RecentPostIds(posts.rows, caller)
          ==> leftComment.createdAt <= keptComment.createdAt)
  {
    var fetched := Read(posts, likes, comments, requests, caller).value;
    var ids := RecentPostIds(posts.rows, caller);
    Sorting.SortDescSorted(PendingTo(requests.rows, caller), CreatedAt);
    RecentPostIdsEmpty(posts.rows, caller);
    if keptLike in fetched.likes && likes.Rows? && leftLike in likes.rows && leftLike !in fetched.likes
       && leftLike.postId in ids {
      Sorting.TakeSortDescGreatest(LikesOn(likes.rows, ids), LikeTime, ReadCap, keptLike, leftLike);
    }
    if keptComment in fetched.comments && comments.Rows? && leftComment in comments.rows
       && leftComment !in fetched.comments && leftComment.postId in ids {
      Sorting.TakeSortDescGreatest(CommentsOn(comments.rows, ids), CommentTime, ReadCap, keptComment, leftComment);
    }
  }

  // ---------------------------------------------------------------------------
  // Building the items

  /** Everyone whose name an item may need: requesters, likers, commenters. */
  function ActorIds(fetched: Reads): set<Id> {
    (set q | q in fetched.requests :: q.requester)
    + (set l | l in fetched.likes :: l.userId)
    + (set c | c in fetched.comments :: c.userId)
  }

  function RequestItems(qs: seq<FriendRequest>, m: map<Id, Actor>): (r: seq<Item>)
    ensures |r| == |qs|
    ensures forall i :: 0 <= i < |r| ==>
      r[i] == RequestItem(qs[i].createdAt, qs[i].id, FromUser(qs[i].requester, UsernameFor(m, qs[i].requester, "")))
  {
    seq(|qs|, i requires 0 <= i < |qs| =>
      RequestItem(qs[i].createdAt, qs[i].id, FromUser(qs[i].requester, UsernameFor(m, qs[i].requester, ""))))
  }

  /** Likes by anyone but the caller, in read order. */
  function LikeItems(ls: seq<Like>, caller: Id, m: map<Id, Actor>): (r: seq<Item>)
    ensures forall i :: 0 <= i < |r| ==> r[i].LikeItem? && r[i].from.id != caller
    ensures forall x :: x in r <==>
      (exists l :: l in ls && l.userId != caller
                   && x == LikeItem(l.createdAt, l.postId, FromUser(l.userId, UsernameFor(m, l.userId, ""))))
  {
    if ls == [] then []
    else
      var l := ls[0];
      assert forall k :: k in ls <==> k == l || k in ls[1..];
      (if l.userId != caller then [LikeItem(l.createdAt, l.postId, FromUser(l.userId, UsernameFor(m, l.userId, "")))] else [])
      + LikeItems(ls[1..], caller, m)
  }

  /** Comments by anyone but the caller, in read order; the stored username is preferred. */
  function CommentItems(cs: seq<Comment>, caller: Id, m: map<Id, Actor>): (r: seq<Item>)
    ensures forall i :: 0 <= i < |r| ==> r[i].CommentItem? && r[i].from.id != caller
    ensures forall x :: x in r <==>
      (exists c :: c in cs && c.userId != caller
                   && x == CommentItem(c.createdAt, c.postId, c.content, FromUser(c.userId, UsernameFor(m, c.userId, c.username))))
  {
    if cs == [] then []
    else
      var c := cs[0];
      assert forall k :: k in cs <==> k == c || k in cs[1..];
      (if c.userId != caller
       then [CommentItem(c.createdAt, c.postId, c.content, FromUser(c.userId, UsernameFor(m, c.userId, c.username)))]
       else [])
      + CommentItems(cs[1..], caller, m)
  }

  /** The items before sorting: requests, then likes, then comments. */
  function Candidates(fetched: Reads, dir: seq<Account>, caller: Id): seq<Item> {
    var m := BuildActorMap(dir, ActorIds(fetched));
    RequestItems(fetched.requests, m) + LikeItems(fetched.likes, caller, m) + CommentItems(fetched.comments, caller, m)
  }

  /** How many items of each kind a list holds. */
  function CountRequests(items: seq<Item>): nat {
    if items == [] then 0 else (if items[0].RequestItem? then 1 else 0) + CountRequests(items[1..])
  }

  function CountLikes(items: seq<Item>): nat {
    if items == [] then 0 else (if items[0].LikeItem? then 1 else 0) + CountLikes(items[1..])
  }

  function CountComments(items: seq<Item>): nat {
    if items == [] then 0 else (if items[0].CommentItem? then 1 else 0) + CountComments(items[1..])
  }

  /** The three kinds partition every list. */
  lemma {:induction false} CountsPartition(items: seq<Item>)
    ensures CountRequests(items) + CountLikes(items) + CountComments(items) == |items|
    decreases |items|
  {
    if items != [] {
      CountsPartition(items[1..]);
    }
  }

  /** Sort newest first (stable), keep the first `n`, count. */
  function Summarize(candidates: seq<Item>, n: int): (d: Digest)
    requires n >= MinLimit
    ensures |d.items| == Sorting.Min(n, |candidates|)
    ensures d.items == Sorting.SortDesc(candidates, ItemTime)[..|d.items|]
    ensures d.counts == Counts(|d.items|, CountRequests(d.items), CountLikes(d.items), CountComments(d.items))
    ensures d.counts.friendRequests + d.counts.likes + d.counts.comments == d.counts.total
  {
    var items := Sorting.Take(Sorting.SortDesc(candidates, ItemTime), n);
    CountsPartition(items);
    Digest(Counts(|items|, CountRequests(items), CountLikes(items), CountComments(items)), items)
  }

  /**
   * The endpoint: preflight, GET only, an authenticated caller that
   * resolves to an account, then the reads and the digest.
   */
  function Notify(verb: Method, caller: Option<Id>, dir: seq<Account>, posts: Table<Post>, likes: Table<Like>,
                  comments: Table<Comment>, requests: Table<FriendRequest>, limit: Option<int>)
    : (r: Result<Reply>)
    ensures verb == Options ==> r == Ok(Preflight)
    ensures verb !in {Options, Get} ==> r == Err(MethodNotAllowed)
    ensures verb == Get && !Present(caller) ==> r == Err(NotAuthenticated)
    ensures verb == Get && Present(caller) && !Known(dir, caller.value) ==> r == Err(CallerUnknown)
    ensures r.Ok? && r.value.Delivered? ==>
      && verb == Get && Present(caller) && Known(dir, caller.value)
      && |r.value.digest.items| <= ClampLimit(limit)
      && Sorting.SortedDesc(r.value.digest.items, ItemTime)
    ensures verb == Get && Present(caller) && Known(dir, caller.value) ==>
      r == match Read(posts, likes, comments, requests, caller.value)
           case Ok(fetched) => Ok(Delivered(Summarize(Candidates(fetched, dir, caller.value), ClampLimit(limit))))
           case Err(e) => Err(e)
  {
    if verb == Options then Ok(Preflight)
    else if verb != Get then Err(MethodNotAllowed)
    else if !Present(caller) then Err(NotAuthenticated)
    else if !Known(dir, caller.value) then Err(CallerUnknown)
    else
      var fetched :- Read(posts, likes, comments, requests, caller.value);
      var d := Summarize(Candidates(fetched, dir, caller.value), ClampLimit(limit));
      Sorting.SortDescSorted(Candidates(fetched, dir, caller.value), ItemTime);
      Ok(Delivered(d))
  }

  // ---------------------------------------------------------------------------
  // Properties

  /**
   * The digest is the newest of what was read: every item comes from the
   * reads, the items are newest first, there are as many as the limit
   * allows, and a candidate left out is no newer than any item kept.
   */
  lemma NotifyIsNewestOfReads(caller: Id, dir: seq<Account>, posts: Table<Post>, likes: Table<Like>,
                              comments: Table<Comment>, requests: Table<FriendRequest>, limit: Option<int>,
                              kept: Item, left: Item)
    requires caller != "" && Known(dir, caller)
    requires Read(posts, likes, comments, requests, caller).Ok?
    ensures var c := Candidates(Read(posts, likes, comments, requests, caller).value, dir, caller);
      var r := Notify(Get, Some(caller), dir, posts, likes, comments, requests, limit);
      && r.Ok? && r.value.Delivered?
      && |r.value.digest.items| == Sorting.Min(ClampLimit(limit), |c|)
      && Sorting.SortedDesc(r.value.digest.items, ItemTime)
      && (forall x :: x in r.value.digest.items ==> x in c)
      && (kept in r.value.digest.items && left in c && left !in r.value.digest.items
          ==> ItemTime(left) <= ItemTime(kept))
  {
    var c := Candidates(Read(posts, likes, comments, requests, caller).value, dir, caller);
    assert Notify(Get, Some(caller), dir, posts, likes, comments, requests, limit)
           == Ok(Delivered(Summarize(c, ClampLimit(limit))));
    DigestIsNewest(c, ClampLimit(limit), kept, left);
  }

  lemma DigestIsNewest(c: seq<Item>, n: int, kept: Item, left: Item)
    requires n >= MinLimit
    ensures var items := Summarize(c, n).items;
      && Sorting.SortedDesc(items, ItemTime)
      && (forall x :: x in items ==> x in c)
      && (kept in items && left in c && left !in items ==> ItemTime(left) <= ItemTime(kept))
  {
    var items := Summarize(c, n).items;
    var sorted := Sorting.SortDesc(c, ItemTime);
    Sorting.SortDescSorted(c, ItemTime);
    assert forall i :: 0 <= i < |items| ==> items[i] == sorted[i];
    forall x | x in items
      ensures x in c
    {
      NewestMembers(c, ItemTime, n, x);
    }
    if kept in items && left in c && left !in items {
      Sorting.TakeSortDescGreatest(c, ItemTime, n, kept, left);
    }
  }

  /**
   * Items with the same timestamp keep the merge order: requests before
   * likes before comments, each in the order it was read; those the limit
   * keeps are the first of them.
   */
  lemma TiesKeepMergeOrder(fetched: Reads, dir: seq<Account>, caller: Id, n: int, k: int)
    requires n >= MinLimit
    ensures var c := Candidates(fetched, dir, caller);
      var items := Summarize(c, n).items;
      Sorting.WithKey(c, ItemTime, k)
      == Sorting.WithKey(items, ItemTime, k) + Sorting.WithKey(Sorting.SortDesc(c, ItemTime)[|items|..], ItemTime, k)
    ensures var c := Candidates(fetched, dir, caller);
      |Summarize(c, n).items| == |c| ==> Sorting.WithKey(Summarize(c, n).items, ItemTime, k) == Sorting.WithKey(c, ItemTime, k)
  {
    var c := Candidates(fetched, dir, caller);
    var items := Summarize(c, n).items;
    Sorting.SortDescSplitTies(c, ItemTime, |items|, k);
    assert Sorting.SortDesc(c, ItemTime)[..|items|] == items;
    if |items| == |c| {
      assert Sorting.SortDesc(c, ItemTime)[|items|..] == [];
    }
  }

  /** No like or comment item is the caller's own activity. */
  lemma NoOwnActivity(fetched: Reads, dir: seq<Account>, caller: Id, n: int, x: Item)
    requires n >= MinLimit
    requires x in Summarize(Candidates(fetched, dir, caller), n).items
    ensures x.LikeItem? || x.CommentItem? ==> x.from.id != caller
  {
    var c := Candidates(fetched, dir, caller);
    var m := BuildActorMap(dir, ActorIds(fetched));
    Sorting.SortDescMembers(c, ItemTime, x);
    assert x in c;
    if x in RequestItems(fetched.requests, m) {
      var i :| 0 <= i < |fetched.requests| && RequestItems(fetched.requests, m)[i] == x;
    }
  }

  /**
   * Every pending request addressed to the caller, every like and every
   * comment by someone else is a candidate, named as the directory names
   * its author (or by the comment's stored name).
   */
  lemma CandidatesComplete(fetched: Reads, dir: seq<Account>, caller: Id)
    ensures var m := BuildActorMap(dir, ActorIds(fetched));
      var c := Candidates(fetched, dir, caller);
      && (forall q :: q in fetched.requests ==>
            RequestItem(q.createdAt, q.id, FromUser(q.requester, UsernameFor(m, q.requester, ""))) in c)
      && (forall l :: l in fetched.likes && l.userId != caller ==>
            LikeItem(l.createdAt, l.postId, FromUser(l.userId, UsernameFor(m, l.userId, ""))) in c)
      && (forall cm :: cm in fetched.comments && cm.userId != caller ==>
            CommentItem(cm.createdAt, cm.postId, cm.content, FromUser(cm.userId, UsernameFor(m, cm.userId, cm.username))) in c)
  {
    var m := BuildActorMap(dir, ActorIds(fetched));
    var ri := RequestItems(fetched.requests, m);
    var li := LikeItems(fetched.likes, caller, m);
    var ci := CommentItems(fetched.comments, caller, m);
    forall q | q in fetched.requests
      ensures RequestItem(q.createdAt, q.id, FromUser(q.requester, UsernameFor(m, q.requester, ""))) in ri + li + ci
    {
      var i :| 0 <= i < |fetched.requests| && fetched.requests[i] == q;
      assert ri[i] in ri;
    }
  }

  /** A requester or liker known to the directory appears under their display name, others as 'Membre'. */
  lemma ActorNames(fetched: Reads, dir: seq<Account>, id: Id)
    requires id in ActorIds(fetched)
    ensures var m := BuildActorMap(dir, ActorIds(fetched));
      UsernameFor(m, id, "") == if Known(dir, id) then Resolve(dir, id).value.username else "Membre"
  {
    BuildActorMapResolves(dir, ActorIds(fetched), id);
  }

  /**
   * A caller without posts gets no like or comment notifications, and the
   * likes and comments tables do not affect the answer at all.
   */
  lemma NoPostsNoReactions(posts: Table<Post>, likes1: Table<Like>, likes2: Table<Like>,
                           comments1: Table<Comment>, comments2: Table<Comment>,
                           requests: Table<FriendRequest>, caller: Id)
    requires posts.Rows? && PostsOf(posts.rows, caller) == []
    ensures Read(posts, likes1, comments1, requests, caller) == Read(posts, likes2, comments2, requests, caller)
    ensures Read(posts, likes1, comments1, requests, caller).Ok? ==>
      var fetched := Read(posts, likes1, comments1, requests, caller).value;
      fetched.likes == [] && fetched.comments == []
  {
    RecentPostIdsEmpty(posts.rows, caller);
  }
}

=== FILE: server.dfy ===
/**
 * The development server: cookie parsing, the in-memory session store with
 * its login, logout and expiry check, the API routes it answers itself, the
 * page rewrites and the content type chosen by file extension.
 */
module DevServer {

  import opened Base
  import opened Text
  import opened Json
  import opened Directory

  // ---------------------------------------------------------------- cookies

  /** One `name=value` item of a Cookie header: the text before the first '=' and between the first and second. */
  function CookiePair(item: string): (r: (string, Option<string>))
    ensures '=' !in r.0
    ensures r.1.Some? ==> '=' !in r.1.value
    ensures '=' !in Trim(item) ==> r == (Trim(item), None)
  {
    var kv := Split(Trim(item), '=');
    (kv[0], if |kv| > 1 then Some(kv[1]) else None)
  }

  /** A Cookie header's items, each read as a name and an optional value. */
  function Pairs(items: seq<string>): (r: seq<(string, Option<string>)>)
    ensures |r| == |items| && forall i :: 0 <= i < |items| ==> r[i] == CookiePair(items[i])
  {
    seq(|items|, i requires 0 <= i < |items| => CookiePair(items[i]))
  }

  /** The pairs folded left to right into an object: a later name overwrites an earlier one. */
  function CookieJar(pairs: seq<(string, Option<string>)>): (jar: map<string, Option<string>>)
    ensures forall name :: name in jar ==> exists i :: 0 <= i < |pairs| && pairs[i] == (name, jar[name])
    decreases |pairs|
  {
    if pairs == [] then map[]
    else
      var n := |pairs| - 1;
      var init := pairs[..n];
      var jar := CookieJar(init);
      assert forall i :: 0 <= i < n ==> init[i] == pairs[i];
      jar[pairs[n].0 := pairs[n].1]
  }

  /** Reference reading: `i` is the last pair carrying `name`. */
  predicate LastWith(pairs: seq<(string, Option<string>)>, name: string, i: int) {
    && 0 <= i < |pairs| && pairs[i].0 == name
    && forall j :: i < j < |pairs| ==> pairs[j].0 != name
  }

  /** A name is in the jar exactly when some pair carries it. */
  lemma {:induction false} CookieJarNames(pairs: seq<(string, Option<string>)>, name: string)
    ensures name in CookieJar(pairs) <==> exists i :: 0 <= i < |pairs| && pairs[i].0 == name
    decreases |pairs|
  {
    if pairs != [] {
      var n := |pairs| - 1;
      var init := pairs[..n];
      CookieJarNames(init, name);
      assert CookieJar(pairs) == CookieJar(init)[pairs[n].0 := pairs[n].1];
      if pairs[n].0 != name && name !in CookieJar(init) {
        forall i | 0 <= i < |pairs| ensures pairs[i].0 != name {
          if i < n {
            assert init[i] == pairs[i];
          }
        }
      }
    }
  }

  /** The jar holds the value of the last pair carrying a name. */
  lemma {:induction false} CookieJarLastWins(pairs: seq<(string, Option<string>)>, name: string, i: int)
    requires LastWith(pairs, name, i)
    ensures name in CookieJar(pairs) && CookieJar(pairs)[name] == pairs[i].1
    decreases |pairs|
  {
    var n := |pairs| - 1;
    var init := pairs[..n];
    assert CookieJar(pairs) == CookieJar(init)[pairs[n].0 := pairs[n].1];
    if i < n {
      assert init[i] == pairs[i];
      assert LastWith(init, name, i);
      CookieJarLastWins(init, name, i);
    }
  }

  const SessionCookie := "sessionId"

  /** `getSessionIdFromCookie`: the `sessionId` entry of the Cookie header, if any. */
  function SessionIdFromCookie(header: Option<string>): (r: Option<string>)
    ensures r.Some? ==> '=' !in r.value
  {
    var items := Split(OrElse(header, ""), ';');
    var pairs := Pairs(items);
    var jar := CookieJar(pairs);
    if SessionCookie in jar then
      match jar[SessionCookie]
      case None => None
      case Some(v) =>
        assert '=' !in v by {
          var i :| 0 <= i < |pairs| && pairs[i] == (SessionCookie, Some(v));
          assert pairs[i] == CookiePair(items[i]);
        }
        Some(v)
    else None
  }

  /** An item `name=value` with neither part holding '='. */
  lemma CookiePairOf(name: string, value: string)
    requires name != "" && value != "" && !IsSpace(name[0]) && !IsSpace(value[|value| - 1])
    requires '=' !in name && '=' !in value
    ensures CookiePair(name + "=" + value) == (name, Some(value))
  {
    var item := name + "=" + value;
    assert Tight(item);
    TrimNoOuterSpace(item);
    assert item == name + ['='] + value;
    SplitAfter(name, value, '=');
    assert Split(value, '=') == [value];
  }

  /** A header of one item reads that item's pair. */
  lemma OneItemHeader(header: string, name: string, value: string)
    requires ';' !in header && CookiePair(header) == (name, Some(value))
    ensures SessionIdFromCookie(Some(header)) == if name == SessionCookie then Some(value) else None
  {
    SplitNone(header, ';');
    var pairs := Pairs([header]);
    assert pairs == [(name, Some(value))];
    assert pairs[..0] == [];
    var jar := CookieJar(pairs);
    assert jar == map[name := Some(value)];
  }

  /** A header holding the single cookie `name=value`. */
  lemma SingleCookie(name: string, value: string)
    requires name != "" && value != "" && !IsSpace(name[0]) && !IsSpace(value[|value| - 1])
    requires ';' !in name && ';' !in value && '=' !in name && '=' !in value
    ensures SessionIdFromCookie(Some(name + "=" + value)) == if name == SessionCookie then Some(value) else None
  {
    var header := name + "=" + value;
    assert ';' !in header;
    CookiePairOf(name, value);
    OneItemHeader(header, name, value);
  }

  // --------------------------------------------------------------- sessions

  const MaxAgeSeconds := 604800
  /** Seven days in milliseconds. */
  const SessionLifetime := 7 * 24 * 60 * 60 * 1000

  /** The `user` object a session carries. */
  datatype SessionUser = SessionUser(id: Id, email: Option<string>, username: Option<string>)

  datatype Session = Session(user: SessionUser, createdAt: int, expiresAt: int)

  type Sessions = map<string, Session>

  /** A value of `randomBytes(32).toString('hex')`. */
  predicate HexId(s: string) {
    |s| == 64 && forall i :: 0 <= i < |s| ==> ('0' <= s[i] <= '9' || 'a' <= s[i] <= 'f')
  }

  function LoginCookie(sid: string): string {
    "sessionId=" + sid + "; Path=/; HttpOnly; SameSite=Strict; Max-Age=" + NatToString(MaxAgeSeconds)
  }

  const ClearCookie := "sessionId=; Path=/; HttpOnly; SameSite=Strict; Max-Age=0"

  /** The store after a login under the fresh id `sid`. */
  function OpenSession(sessions: Sessions, sid: string, user: SessionUser, now: int): (r: Sessions)
    ensures r.Keys == sessions.Keys + {sid}
    ensures sid !in sessions ==> |r.Keys| == |sessions.Keys| + 1
    ensures r[sid].user == user && r[sid].expiresAt - now == MaxAgeSeconds * 1000
    ensures forall k :: k in sessions && k != sid ==> r[k] == sessions[k]
  {
    sessions[sid := Session(user, now, now + SessionLifetime)]
  }

  /** The store after a logout presenting `sid`. */
  function CloseSession(sessions: Sessions, sid: Option<string>): (r: Sessions)
    ensures Present(sid) ==> r.Keys == sessions.Keys - {sid.value}
    ensures !Present(sid) ==> r == sessions
    ensures forall k :: k in r ==> k in sessions && r[k] == sessions[k]
  {
    if Present(sid) then sessions - {sid.value} else sessions
  }

  /** What the session check answers, with the store it leaves behind. */
  datatype Check = Check(sessions: Sessions, reply: Result<Option<SessionUser>>, clearCookie: bool)

  /**
   * Property names every plain object inherits; `sessions[name]` is truthy
   * for each of them although the store never holds such a key.
   */
  const InheritedNames: set<string> := {
    "constructor", "__proto__", "toString", "toLocaleString", "valueOf", "hasOwnProperty",
    "isPrototypeOf", "propertyIsEnumerable", "__defineGetter__", "__defineSetter__",
    "__lookupGetter__", "__lookupSetter__"}

  /**
   * `handleSessionCheck` as written: an inherited name passes the
   * `!sessions[sessionId]` test, its `expiresAt` is undefined, and
   * `undefined < now` is false, so the check answers authenticated with no user.
   */
  function CheckSessionAsWritten(sessions: Sessions, sid: Option<string>, now: int): (r: Check)
    ensures !Present(sid) ==> r.reply == Err(NotAuthenticated)
    ensures Present(sid) && sid.value !in sessions && sid.value in InheritedNames ==> r.reply == Ok(None)
  {
    if !Present(sid) then Check(sessions, Err(NotAuthenticated), false)
    else if sid.value in sessions then CheckOwn(sessions, sid.value, now)
    else if sid.value in InheritedNames then Check(sessions, Ok(None), false)
    else Check(sessions, Err(NotAuthenticated), false)
  }

  /** The check for a session the store holds: past its expiry it is removed and refused. */
  function CheckOwn(sessions: Sessions, sid: string, now: int): (r: Check)
    requires sid in sessions
    ensures sessions[sid].expiresAt < now ==>
      r == Check(sessions - {sid}, Err(SessionExpired), true)
    ensures sessions[sid].expiresAt >= now ==>
      r == Check(sessions, Ok(Some(sessions[sid].user)), false)
  {
    if sessions[sid].expiresAt < now then Check(sessions - {sid}, Err(SessionExpired), true)
    else Check(sessions, Ok(Some(sessions[sid].user)), false)
  }

  /**
   * The intended check: an absent id, or one the store does not hold, is a
   * 401; an expired session is removed and refused; otherwise its user is
   * returned, so a session is still valid at the millisecond it expires.
   */
  function CheckSession(sessions: Sessions, sid: Option<string>, now: int): (r: Check)
    ensures r.reply.Ok? <==> Present(sid) && sid.value in sessions && sessions[sid.value].expiresAt >= now
    ensures r.reply.Ok? ==> r.reply.value == Some(sessions[sid.value].user) && r.sessions == sessions
    ensures !Present(sid) || sid.value !in sessions ==> r == Check(sessions, Err(NotAuthenticated), false)
    ensures r.reply == Err(SessionExpired) ==> r.clearCookie && r.sessions == sessions - {sid.value}
  {
    if !Present(sid) || sid.value !in sessions then Check(sessions, Err(NotAuthenticated), false)
    else CheckOwn(sessions, sid.value, now)
  }

  /** The two checks differ exactly on inherited names the store does not hold. */
  lemma CheckSessionAsWrittenAgrees(sessions: Sessions, sid: Option<string>, now: int)
    requires !Present(sid) || sid.value in sessions || sid.value !in InheritedNames
    ensures CheckSessionAsWritten(sessions, sid, now) == CheckSession(sessions, sid, now)
  {
  }

  /** `Cookie: sessionId=constructor` passes the written check against an empty store. */
  lemma ConstructorCookieAuthenticates(header: string, now: int)
    requires header == SessionCookie + "=constructor"
    ensures SessionIdFromCookie(Some(header)) == Some("constructor")
    ensures CheckSessionAsWritten(map[], SessionIdFromCookie(Some(header)), now).reply.Ok?
    ensures CheckSession(map[], SessionIdFromCookie(Some(header)), now).reply == Err(NotAuthenticated)
  {
    var name, value := SessionCookie, "constructor";
    assert '=' !in value && ';' !in value && !IsSpace(value[|value| - 1]);
    assert '=' !in name && ';' !in name && !IsSpace(name[0]);
    assert header == name + "=" + value;
    SingleCookie(name, value);
  }

  // -------------------------------------------------------------- endpoints

  datatype Reply =
    | Created(email: Value, username: Value)
    | LoggedIn(sessions: Sessions, setCookie: string)
    | LoggedOut(sessions: Sessions, setCookie: string)

  /** A JSON body whose destructuring throws: empty text parses to nothing, `null` has no fields. */
  predicate Unreadable(body: Value) {
    body.Undefined? || body.Null?
  }

  /** `handleSignup`: POST with e-mail, password and username, all truthy. */
  function Signup(verb: Method, body: Value, createFails: bool): (r: Result<Reply>)
    ensures verb != Post ==> r == Err(MethodNotAllowed)
    ensures verb == Post && Unreadable(body) ==> r == Err(Internal)
    ensures verb == Post && !Unreadable(body)
      && (!Truthy(Field(body, "email")) || !Truthy(Field(body, "password")) || !Truthy(Field(body, "username")))
      ==> r == Err(MissingField)
    ensures verb == Post && !Unreadable(body)
      && Truthy(Field(body, "email")) && Truthy(Field(body, "password")) && Truthy(Field(body, "username"))
      ==> r == (if createFails then Err(ProviderRejected) else Ok(Created(Field(body, "email"), Field(body, "username"))))
    ensures r.Ok? ==>
      && Truthy(Field(body, "email")) && Truthy(Field(body, "password")) && Truthy(Field(body, "username"))
      && r.value == Created(Field(body, "email"), Field(body, "username"))
  {
    if verb != Post then Err(MethodNotAllowed)
    else if Unreadable(body) then Err(Internal)
    else
      var email := Field(body, "email");
      var password := Field(body, "password");
      var username := Field(body, "username");
      if !Truthy(email) || !Truthy(password) || !Truthy(username) then Err(MissingField)
      else if createFails then Err(ProviderRejected)
      else Ok(Created(email, username))
  }

  /**
   * `handleLogin`: POST with a truthy e-mail and password; `account` is what
   * the password sign-in returns (absent when it refuses the credentials);
   * `sid` is the generated session id.
   */
  function Login(verb: Method, body: Value, account: Option<Account>, sessions: Sessions, sid: string, now: int)
    : (r: Result<Reply>)
    ensures verb != Post ==> r == Err(MethodNotAllowed)
    ensures verb == Post && Unreadable(body) ==> r == Err(Internal)
    ensures (verb == Post && !Unreadable(body)
             && (!Truthy(Field(body, "email")) || !Truthy(Field(body, "password")))) ==> r == Err(MissingField)
    ensures (verb == Post && !Unreadable(body) && Truthy(Field(body, "email")) && Truthy(Field(body, "password"))
             && account.Some?) ==> r.Ok?
    ensures (verb == Post && !Unreadable(body) && Truthy(Field(body, "email")) && Truthy(Field(body, "password"))
             && account.None?) ==> r == Err(NotAuthenticated)
    ensures r.Ok? ==>
      && account.Some? && r.value.LoggedIn?
      && r.value.sessions.Keys == sessions.Keys + {sid}
      && r.value.sessions[sid].user.id == account.value.id
      && r.value.sessions[sid].expiresAt == now + SessionLifetime
      && (forall k :: k in sessions && k != sid ==> r.value.sessions[k] == sessions[k])
      && r.value.setCookie == LoginCookie(sid)
  {
    if verb != Post then Err(MethodNotAllowed)
    else if Unreadable(body) then Err(Internal)
    else if !Truthy(Field(body, "email")) || !Truthy(Field(body, "password")) then Err(MissingField)
    else match account
      case None => Err(NotAuthenticated)
      case Some(a) =>
        var user := SessionUser(a.id, a.email, a.meta.username);
        Ok(LoggedIn(OpenSession(sessions, sid, user, now), LoginCookie(sid)))
  }

  /** `handleLogout`: POST; removes the presented session, if any, and always clears the cookie. */
  function Logout(verb: Method, cookieHeader: Option<string>, sessions: Sessions): (r: Result<Reply>)
    ensures verb != Post ==> r == Err(MethodNotAllowed)
    ensures verb == Post ==> r.Ok? && r.value.LoggedOut? && r.value.setCookie == ClearCookie
    ensures r.Ok? ==> var sid := SessionIdFromCookie(cookieHeader);
      && (Present(sid) ==> r.value.sessions.Keys == sessions.Keys - {sid.value})
      && (!Present(sid) ==> r.value.sessions == sessions)
      && forall k :: k in r.value.sessions ==> r.value.sessions[k] == sessions[k]
  {
    if verb != Post then Err(MethodNotAllowed)
    else Ok(LoggedOut(CloseSession(sessions, SessionIdFromCookie(cookieHeader)), ClearCookie))
  }

  /** The Cookie header a browser sends back after a login. */
  lemma SessionCookieRoundTrip(header: string, sid: string)
    requires HexId(sid) && header == SessionCookie + "=" + sid
    ensures SessionIdFromCookie(Some(header)) == Some(sid)
  {
    assert forall i :: 0 <= i < |sid| ==> sid[i] != ';' && sid[i] != '=';
    assert !IsSpace(sid[|sid| - 1]);
    var name := SessionCookie;
    assert '=' !in name && ';' !in name && !IsSpace(name[0]);
    SingleCookie(name, sid);
  }

  /** A login is recognised by the check until its expiry, inclusive. */
  lemma LoginThenCheck(body: Value, a: Account, sessions: Sessions, sid: string, now: int, at: int, header: string)
    requires HexId(sid) && header == SessionCookie + "=" + sid
    requires Login(Post, body, Some(a), sessions, sid, now).Ok?
    requires at <= now + SessionLifetime
    ensures var store := Login(Post, body, Some(a), sessions, sid, now).value.sessions;
      var c := CheckSession(store, SessionIdFromCookie(Some(header)), at);
      c.reply.Ok? && c.reply.value == Some(store[sid].user) && c.reply.value.value.id == a.id
  {
    SessionCookieRoundTrip(header, sid);
  }

  /** After a logout with the same cookie, the check refuses it. */
  lemma LogoutThenCheck(sessions: Sessions, cookieHeader: Option<string>, at: int)
    ensures var store := Logout(Post, cookieHeader, sessions).value.sessions;
      CheckSession(store, SessionIdFromCookie(cookieHeader), at).reply == Err(NotAuthenticated)
  {
  }

  /** A session expiring at `t` is valid at `t` and removed at `t + 1`. */
  lemma ExpiryBoundary(sessions: Sessions, sid: string)
    requires sid != "" && sid in sessions
    ensures CheckSession(sessions, Some(sid), sessions[sid].expiresAt).reply.Ok?
    ensures var c := CheckSession(sessions, Some(sid), sessions[sid].expiresAt + 1);
      c.reply == Err(SessionExpired) && sid !in c.sessions && c.clearCookie
  {
  }

  // ---------------------------------------------------------- static pages

  const Rewrites: map<string, string> := map[
    "/" := "/index.html",
    "/tournois" := "/tournois.html",
    "/contact" := "/contact.html",
    "/equipe" := "/equipe.html",
    "/roster-europe" := "/roster-europe.html",
    "/roster-feminin" := "/roster-feminin.html",
    "/roster-masculin" := "/roster-masculin.html",
    "/apropos" := "/apropos.html",
    "/galerie" := "/galerie.html",
    "/auth" := "/auth.html"]

  function Rewrite(path: string): (r: string)
    ensures path !in Rewrites ==> r == path
    ensures path in Rewrites ==> r == path + ".html" || (path == "/" && r == "/index.html")
  {
    if path in Rewrites then Rewrites[path] else path
  }

  /** No page is rewritten twice. */
  lemma RewriteIdempotent(path: string)
    ensures Rewrite(Rewrite(path)) == Rewrite(path)
  {
    if path in Rewrites {
      assert Rewrite(path) !in Rewrites;
    }
  }

  /**
   * `path.extname`: the last segment's text from its last '.', or '' when
   * the segment has no '.', starts with its only '.', or is '..'. Node also
   * skips trailing '/' before taking the last segment, which this does not;
   * the two differ only on a path ending in '/', and reading such a path as
   * a file fails before its content type is chosen.
   */
  function Extname(path: string): (ext: string)
    ensures ext == "" || (ext[0] == '.' && '.' !in ext[1..] && '/' !in ext && EndsWith(path, ext))
  {
    var start := match LastIndexOf(path, '/') case None => 0 case Some(k) => k + 1;
    var base := path[start..];
    match LastIndexOf(base, '.')
    case None => ""
    case Some(d) =>
      if d == 0 || base == ".." then ""
      else
        var ext := base[d..];
        assert ext[1..] == base[d + 1..];
        assert path[|path| - |ext|..] == ext;
        ext
  }

  const DefaultContentType := "text/html"

  /** The content type served for a file, by its extension. */
  function ContentType(path: string): (t: string)
    ensures Extname(path) !in {".js", ".css", ".json", ".avif", ".png"} ==> t == DefaultContentType
    ensures Extname(path) == ".png" ==> t == "image/png"
    ensures Extname(path) == ".js" ==> t == "application/javascript"
  {
    var ext := Extname(path);
    if ext == ".js" then "application/javascript"
    else if ext == ".css" then "text/css"
    else if ext == ".json" then "application/json"
    else if ext == ".avif" then "image/avif"
    else if ext == ".png" then "image/png"
    else DefaultContentType
  }

  /** Every `.html` file, in particular every rewritten page, is served as HTML. */
  lemma HtmlServedAsHtml(path: string)
    requires EndsWith(path, ".html")
    ensures ContentType(path) == DefaultContentType
  {
    var ext := Extname(path);
    if ext != "" {
      assert ext[|ext| - 1] == path[|path| - 1] == 'l';
    }
  }

  lemma RewrittenPagesAreHtml(path: string)
    requires path in Rewrites
    ensures ContentType(Rewrite(path)) == DefaultContentType
  {
    var r := Rewrite(path);
    if path != "/" {
      assert r[|r| - 5..] == ".html";
    }
    HtmlServedAsHtml(r);
  }

  // ----------------------------------------------------------------- routes

  datatype Route = SignupRoute | LoginRoute | LogoutRoute | SessionRoute | StaticFile(file: string)

  const ApiRoutes: map<string, Route> := map[
    "auth/signup" := SignupRoute, "auth/login" := LoginRoute,
    "auth/logout" := LogoutRoute, "auth/session" := SessionRoute]

  /** The four auth paths under `/api/` are answered here; every other path is a (rewritten) static file. */
  function RouteOf(path: string): (r: Route)
    ensures r.StaticFile? <==> !(StartsWith(path, "/api/") && path[5..] in ApiRoutes)
    ensures r.StaticFile? ==> r.file == Rewrite(path)
  {
    if StartsWith(path, "/api/") && path[5..] in ApiRoutes then ApiRoutes[path[5..]]
    else StaticFile(Rewrite(path))
  }
}

=== FILE: sorting.dfy ===
/**
 * Ordering and windowing of row lists: the store's `order(..., { ascending: false })`
 * and `Array.prototype.sort` with a descending comparator are both a stable
 * sort on an integer key; `limit`, `slice(0, n)` and `range` take a prefix or
 * a window.
 */
module Sorting {

  /** Neighbouring elements never increase in key. */
  predicate AdjacentDesc<T>(s: seq<T>, key: T -> int) {
    forall i, j :: 0 <= i < |s| && 0 <= j < |s| && j == i + 1 ==> key(s[i]) >= key(s[j])
  }

  /** Keys are non-increasing along the whole sequence. */
  predicate SortedDesc<T>(s: seq<T>, key: T -> int) {
    forall i, j :: 0 <= i < j < |s| ==> key(s[i]) >= key(s[j])
  }

  lemma {:induction false} AdjacentIsSorted<T>(s: seq<T>, key: T -> int)
    requires AdjacentDesc(s, key)
    ensures SortedDesc(s, key)
    decreases |s|
  {
    if |s| > 1 {
      var t := s[..|s| - 1];
      assert AdjacentDesc(t, key);
      AdjacentIsSorted(t, key);
      forall i, j | 0 <= i < j < |s|
        ensures key(s[i]) >= key(s[j])
      {
        if j < |s| - 1 {
          assert s[i] == t[i] && s[j] == t[j];
        } else if i < j - 1 {
          assert s[i] == t[i] && s[j - 1] == t[j - 1];
        }
      }
    }
  }

  /** The tail of a descending sequence is descending. */
  lemma SortedDescTail<T>(s: seq<T>, key: T -> int)
    requires s != []
    ensures SortedDesc(s, key) ==> SortedDesc(s[1..], key)
  {
    assert forall i :: 0 <= i < |s| - 1 ==> s[1..][i] == s[i + 1];
  }

  /** An element whose key bounds every key of a descending sequence can go in front of it. */
  lemma SortedDescCons<T>(x: T, s: seq<T>, key: T -> int)
    requires SortedDesc(s, key)
    requires forall k :: 0 <= k < |s| ==> key(s[k]) <= key(x)
    ensures SortedDesc([x] + s, key)
  {
    var r := [x] + s;
    forall i, j | 0 <= i < j < |r|
      ensures key(r[i]) >= key(r[j])
    {
      assert r[j] == s[j - 1];
      if i > 0 {
        assert r[i] == s[i - 1];
      }
    }
  }

  /** The elements of `s` with key `k`, in their order in `s`. */
  function WithKey<T>(s: seq<T>, key: T -> int, k: int): seq<T> {
    if s == [] then []
    else (if key(s[0]) == k then [s[0]] else []) + WithKey(s[1..], key, k)
  }

  lemma {:induction false} WithKeyAppend<T>(a: seq<T>, b: seq<T>, key: T -> int, k: int)
    ensures WithKey(a + b, key, k) == WithKey(a, key, k) + WithKey(b, key, k)
    decreases |a|
  {
    if a != [] {
      var h := if key(a[0]) == k then [a[0]] else [];
      assert (a + b)[0] == a[0];
      assert (a + b)[1..] == a[1..] + b;
      WithKeyAppend(a[1..], b, key, k);
      assert WithKey(a + b, key, k) == h + (WithKey(a[1..], key, k) + WithKey(b, key, k));
      assert WithKey(a, key, k) == h + WithKey(a[1..], key, k);
    } else {
      assert a + b == b;
    }
  }

  /**
   * Places `x` in front of the first element whose key is not greater than
   * its own, so that `x` precedes the elements of equal key.
   */
  function Insert<T>(x: T, s: seq<T>, key: T -> int): (r: seq<T>)
    ensures |r| == |s| + 1
    ensures multiset(r) == multiset(s) + multiset{x}
    ensures r[0] == x || (|s| > 0 && r[0] == s[0])
    ensures AdjacentDesc(s, key) ==> AdjacentDesc(r, key)
  {
    if |s| == 0 || key(s[0]) <= key(x) then
      assert AdjacentDesc(s, key) ==> AdjacentDesc([x] + s, key) by {
        if AdjacentDesc(s, key) {
          AdjacentCons(x, s, key);
        }
      }
      [x] + s
    else
      var t := Insert(x, s[1..], key);
      assert s == [s[0]] + s[1..];
      assert AdjacentDesc(s, key) ==> AdjacentDesc([s[0]] + t, key) by {
        if AdjacentDesc(s, key) {
          AdjacentTail(s, key);
          AdjacentCons(s[0], t, key);
        }
      }
      [s[0]] + t
  }

  /** An element no lower than the head keeps a descending sequence descending. */
  lemma AdjacentCons<T>(y: T, t: seq<T>, key: T -> int)
    requires AdjacentDesc(t, key) && (t == [] || key(y) >= key(t[0]))
    ensures AdjacentDesc([y] + t, key)
  {
    var r := [y] + t;
    forall i, j | 0 <= i < |r| && 0 <= j < |r| && j == i + 1
      ensures key(r[i]) >= key(r[j])
    {
      if i > 0 {
        assert r[i] == t[i - 1] && r[j] == t[j - 1];
      }
    }
  }

  /** The tail of a descending sequence is descending. */
  lemma AdjacentTail<T>(s: seq<T>, key: T -> int)
    requires AdjacentDesc(s, key) && s != []
    ensures AdjacentDesc(s[1..], key)
  {
    var t := s[1..];
    forall i, j | 0 <= i < |t| && 0 <= j < |t| && j == i + 1
      ensures key(t[i]) >= key(t[j])
    {
      assert t[i] == s[i + 1] && t[j] == s[j + 1];
    }
  }

  lemma {:induction false} InsertStable<T>(x: T, s: seq<T>, key: T -> int, k: int)
    ensures WithKey(Insert(x, s, key), key, k) == (if key(x) == k then [x] else []) + WithKey(s, key, k)
    decreases |s|
  {
    if |s| == 0 || key(s[0]) <= key(x) {
      InsertSteps(x, s, key);
      WithKeyCons(x, s, key, k);
    } else {
      var t := Insert(x, s[1..], key);
      InsertSteps(x, s, key);
      InsertStable(x, s[1..], key, k);
      WithKeyCons(s[0], t, key, k);
      assert s == [s[0]] + s[1..];
      WithKeyCons(s[0], s[1..], key, k);
    }
  }

  /** The two cases of an insertion, one step at a time. */
  lemma InsertSteps<T>(x: T, s: seq<T>, key: T -> int)
    ensures |s| == 0 || key(s[0]) <= key(x) ==> Insert(x, s, key) == [x] + s
    ensures |s| > 0 && key(s[0]) > key(x) ==> Insert(x, s, key) == [s[0]] + Insert(x, s[1..], key)
  {
  }

  lemma WithKeyCons<T>(y: T, t: seq<T>, key: T -> int, k: int)
    ensures WithKey([y] + t, key, k) == (if key(y) == k then [y] else []) + WithKey(t, key, k)
  {
    assert ([y] + t)[0] == y;
    assert ([y] + t)[1..] == t;
  }

  /** A stable sort by non-increasing key (insertion sort). */
  function SortDesc<T>(s: seq<T>, key: T -> int): (r: seq<T>)
    ensures |r| == |s|
    ensures multiset(r) == multiset(s)
    decreases |s|
  {
    if s == [] then []
    else
      assert s == [s[0]] + s[1..];
      Insert(s[0], SortDesc(s[1..], key), key)
  }

  /** Neighbours in the sorted sequence never increase in key. */
  lemma {:induction false} SortDescAdjacent<T>(s: seq<T>, key: T -> int)
    ensures AdjacentDesc(SortDesc(s, key), key)
    decreases |s|
  {
    if s != [] {
      SortDescAdjacent(s[1..], key);
    }
  }

  /** Sorting yields non-increasing keys throughout. */
  lemma SortDescSorted<T>(s: seq<T>, key: T -> int)
    ensures SortedDesc(SortDesc(s, key), key)
  {
    SortDescAdjacent(s, key);
    AdjacentIsSorted(SortDesc(s, key), key);
  }

  /** Sorting keeps the relative order of elements with equal keys. */
  lemma {:induction false} SortDescStable<T>(s: seq<T>, key: T -> int, k: int)
    ensures WithKey(SortDesc(s, key), key, k) == WithKey(s, key, k)
    decreases |s|
  {
    if s != [] {
      SortDescStable(s[1..], key, k);
      InsertStable(s[0], SortDesc(s[1..], key), key, k);
    }
  }

  /**
   * Cutting the sort after `m` elements splits each run of equal keys: the
   * part kept, then the part dropped, together the run in input order.
   */
  lemma SortDescSplitTies<T>(s: seq<T>, key: T -> int, m: nat, k: int)
    requires m <= |s|
    ensures WithKey(s, key, k) == WithKey(SortDesc(s, key)[..m], key, k) + WithKey(SortDesc(s, key)[m..], key, k)
  {
    var sorted := SortDesc(s, key);
    SortDescStable(s, key, k);
    assert sorted == sorted[..m] + sorted[m..];
    WithKeyAppend(sorted[..m], sorted[m..], key, k);
  }

  /** The elements of a sorted sequence are the elements of the input. */
  lemma SortDescMembers<T>(s: seq<T>, key: T -> int, x: T)
    ensures x in SortDesc(s, key) <==> x in s
  {
    var r := SortDesc(s, key);
    assert x in r <==> x in multiset(r);
    assert x in s <==> x in multiset(s);
  }

  function Min(a: int, b: int): int {
    if a <= b then a else b
  }

  function Max(a: int, b: int): int {
    if a >= b then a else b
  }

  /** `slice(0, n)` / `limit(n)`: the first `n` elements, none when `n` is not positive. */
  function Take<T>(s: seq<T>, n: int): (r: seq<T>)
    ensures |r| == if n <= 0 then 0 else Min(n, |s|)
    ensures r == s[..|r|]
  {
    if n <= 0 then [] else if n >= |s| then s else s[..n]
  }

  /**
   * The first `n` of a descending sort are the greatest: an element of the
   * input that is left out has a key no greater than any element kept.
   */
  lemma TakeSortDescGreatest<T>(s: seq<T>, key: T -> int, n: int, kept: T, left: T)
    requires kept in Take(SortDesc(s, key), n)
    requires left in s && left !in Take(SortDesc(s, key), n)
    ensures key(left) <= key(kept)
  {
    var r := SortDesc(s, key);
    var t := Take(r, n);
    SortDescMembers(s, key, left);
    SortDescSorted(s, key);
    var j :| 0 <= j < |r| && r[j] == left;
    var i :| 0 <= i < |t| && t[i] == kept;
    assert forall k :: 0 <= k < |t| ==> r[k] in t;
    assert t[i] == r[i] && i < j;
  }

  /** The elements of `s` satisfying `p`, in order. */
  function Filter<T>(s: seq<T>, p: T -> bool): (r: seq<T>)
    ensures |r| <= |s|
    ensures forall i :: 0 <= i < |r| ==> p(r[i])
    ensures forall i :: 0 <= i < |r| ==> r[i] in s
    ensures forall i :: 0 <= i < |s| && p(s[i]) ==> s[i] in r
  {
    if s == [] then []
    else
      var rest := Filter(s[1..], p);
      assert forall i :: 1 <= i < |s| ==> s[i] == s[1..][i - 1];
      if p(s[0]) then [s[0]] + rest else rest
  }


  /** `Filter` without its postconditions, so that proofs by induction over it stay small. */
  function Keep<T>(s: seq<T>, p: T -> bool): seq<T> {
    if s == [] then [] else (if p(s[0]) then [s[0]] else []) + Keep(s[1..], p)
  }

  lemma {:induction false} KeepIsFilter<T>(s: seq<T>, p: T -> bool)
    ensures Keep(s, p) == Filter(s, p)
  {
    if s != [] {
      KeepIsFilter(s[1..], p);
    }
  }

  lemma {:induction false} KeepComplement<T>(s: seq<T>, p: T -> bool, q: T -> bool)
    requires forall x :: p(x) != q(x)
    ensures multiset(Keep(s, p)) + multiset(Keep(s, q)) == multiset(s)
  {
    if s != [] {
      KeepComplement(s[1..], p, q);
      assert s == [s[0]] + s[1..];
    }
  }

  /** Filtering by two complementary predicates splits a sequence into two parts that together hold all of it. */
  lemma FilterComplement<T>(s: seq<T>, p: T -> bool, q: T -> bool)
    requires forall x :: p(x) != q(x)
    ensures multiset(Filter(s, p)) + multiset(Filter(s, q)) == multiset(s)
  {
    KeepIsFilter(s, p);
    KeepIsFilter(s, q);
    KeepComplement(s, p, q);
  }

  lemma {:induction false} FilterAppend<T>(a: seq<T>, b: seq<T>, p: T -> bool)
    ensures Filter(a + b, p) == Filter(a, p) + Filter(b, p)
    decreases |a|
  {
    if a != [] {
      assert (a + b)[0] == a[0];
      assert (a + b)[1..] == a[1..] + b;
      FilterAppend(a[1..], b, p);
      if p(a[0]) {
        assert Filter(a + b, p) == [a[0]] + (Filter(a[1..], p) + Filter(b, p));
      }
    } else {
      assert a + b == b;
    }
  }
}

=== FILE: text.dfy ===
/**
 * The string operations the handlers rely on, with ECMAScript semantics:
 * `trim`, `toLowerCase` (ASCII letters only), `includes`, `split` on one
 * character, and decimal rendering of integers.
 */
module Text {

  import opened Base

  /** The ECMAScript WhiteSpace and LineTerminator code points: what `trim` removes. */
  predicate IsSpace(c: char) {
    || c == '\t' || c == '\n' || c == '\U{000B}' || c == '\U{000C}' || c == '\r' || c == ' '
    || c == '\U{00A0}' || c == '\U{1680}' || ('\U{2000}' <= c <= '\U{200A}')
    || c == '\U{2028}' || c == '\U{2029}' || c == '\U{202F}' || c == '\U{205F}'
    || c == '\U{3000}' || c == '\U{FEFF}'
  }

  predicate AllSpace(s: string) {
    forall i :: 0 <= i < |s| ==> IsSpace(s[i])
  }

  /** The end of the run of white space starting at `i`. */
  function SpacesFrom(s: string, i: nat): (j: nat)
    requires i <= |s|
    ensures i <= j <= |s|
    ensures forall k :: i <= k < j ==> IsSpace(s[k])
    ensures j == |s| || !IsSpace(s[j])
    decreases |s| - i
  {
    if i < |s| && IsSpace(s[i]) then SpacesFrom(s, i + 1) else i
  }

  /** The start of the run of white space ending at `j`, going back no further than `lo`. */
  function SpacesBefore(s: string, j: nat, lo: nat): (i: nat)
    requires lo <= j <= |s|
    ensures lo <= i <= j
    ensures forall k :: i <= k < j ==> IsSpace(s[k])
    ensures i == lo || !IsSpace(s[i - 1])
    decreases j
  {
    if lo < j && IsSpace(s[j - 1]) then SpacesBefore(s, j - 1, lo) else j
  }

  /** `String.prototype.trim`. */
  function Trim(s: string): (r: string)
    ensures |r| <= |s|
    ensures r == [] || (!IsSpace(r[0]) && !IsSpace(r[|r| - 1]))
    ensures r == [] <==> AllSpace(s)
  {
    var a := SpacesFrom(s, 0);
    var b := SpacesBefore(s, |s|, a);
    assert a < b ==> !AllSpace(s) by {
      if a < b {
        NotAllSpace(s, a);
      }
    }
    s[a..b]
  }

  // ---------------------------------------------------------------------------
  // Length as JavaScript counts it

  /** The UTF-16 code units that encode `c`: a character above U+FFFF takes a surrogate pair. */
  function Utf16Units(c: char): nat {
    if c as int > 0xFFFF then 2 else 1
  }

  /** `String.prototype.length`: the number of UTF-16 code units, not of characters. */
  function Utf16Length(s: string): (n: nat)
    ensures |s| <= n <= 2 * |s|
  {
    if s == [] then 0 else Utf16Units(s[0]) + Utf16Length(s[1..])
  }

  /**
   * The length JavaScript reports equals the number of characters exactly
   * when all of them lie in the Basic Multilingual Plane, and is twice it
   * exactly when none does.
   */
  lemma {:induction false} Utf16LengthExtremes(s: string)
    ensures Utf16Length(s) == |s| <==> forall i :: 0 <= i < |s| ==> s[i] as int <= 0xFFFF
    ensures Utf16Length(s) == 2 * |s| <==> forall i :: 0 <= i < |s| ==> s[i] as int > 0xFFFF
    decreases |s|
  {
    if s != [] {
      Utf16LengthExtremes(s[1..]);
      assert forall i :: 1 <= i < |s| ==> s[i] == s[1..][i - 1];
    }
  }

  lemma {:induction false} Utf16LengthAppend(a: string, b: string)
    ensures Utf16Length(a + b) == Utf16Length(a) + Utf16Length(b)
    decreases |a|
  {
    if a == [] {
      assert a + b == b;
    } else {
      assert (a + b)[0] == a[0] && (a + b)[1..] == a[1..] + b;
      Utf16LengthAppend(a[1..], b);
    }
  }

  /** A prefix is never longer than the text. */
  lemma Utf16LengthPrefix(s: string, j: nat)
    requires j <= |s|
    ensures Utf16Length(s[..j]) <= Utf16Length(s)
  {
    var a, b := s[..j], s[j..];
    assert s == a + b;
    Utf16LengthAppend(a, b);
  }

  /** A suffix is never longer than the text. */
  lemma Utf16LengthSuffix(s: string, i: nat)
    requires i <= |s|
    ensures Utf16Length(s[i..]) <= Utf16Length(s)
  {
    var a, b := s[..i], s[i..];
    assert s == a + b;
    Utf16LengthAppend(a, b);
  }

  /** A slice is never longer than the text it is cut from. */
  lemma Utf16LengthSlice(s: string, i: nat, j: nat)
    requires i <= j <= |s|
    ensures Utf16Length(s[i..j]) <= Utf16Length(s)
  {
    var head := s[..j];
    Utf16LengthPrefix(s, j);
    Utf16LengthSuffix(head, i);
    assert head[i..] == s[i..j];
  }

  /** Trimming never makes a text longer in code units. */
  lemma TrimUtf16Length(s: string)
    ensures Utf16Length(Trim(s)) <= Utf16Length(s)
  {
    var a := SpacesFrom(s, 0);
    var b := SpacesBefore(s, |s|, a);
    assert Trim(s) == s[a..b];
    Utf16LengthSlice(s, a, b);
  }

  /** Non-empty, and neither starting nor ending with white space. */
  predicate Tight(s: string) {
    s != [] && !IsSpace(s[0]) && !IsSpace(s[|s| - 1])
  }

  /** A tight text is its own trim. */
  lemma TrimNoOuterSpace(s: string)
    requires Tight(s)
    ensures Trim(s) == s
  {
    assert SpacesFrom(s, 0) == 0;
    assert SpacesBefore(s, |s|, 0) == |s|;
    assert s[0..|s|] == s;
  }

  /** Trailing white space after a tight text is trimmed away. */
  lemma {:induction false} TrimPadded(s: string, pad: string)
    requires Tight(s) && AllSpace(pad)
    ensures Trim(s + pad) == s
    decreases |pad|
  {
    var t := s + pad;
    assert t[0] == s[0];
    assert SpacesFrom(t, 0) == 0;
    if pad == [] {
      assert t == s;
      TrimNoOuterSpace(s);
    } else {
      var u := s + pad[..|pad| - 1];
      TrimPadded(s, pad[..|pad| - 1]);
      assert u[0] == s[0];
      assert SpacesFrom(u, 0) == 0;
      assert t[..|t| - 1] == u;
      assert IsSpace(t[|t| - 1]);
      SpacesBeforePrefix(t, |t| - 1, 0);
      assert u[0..SpacesBefore(u, |u|, 0)] == s;
      assert SpacesBefore(t, |t|, 0) == SpacesBefore(u, |u|, 0);
      assert t[0..|s|] == s;
    }
  }

  /** Looking back from `j` reads only the text before `j`. */
  lemma {:induction false} SpacesBeforePrefix(s: string, j: nat, lo: nat)
    requires lo <= j <= |s|
    ensures SpacesBefore(s, j, lo) == SpacesBefore(s[..j], j, lo)
    decreases j
  {
    if lo < j {
      assert s[..j][j - 1] == s[j - 1];
      if IsSpace(s[j - 1]) {
        SpacesBeforePrefix(s, j - 1, lo);
        SpacesBeforePrefix(s[..j], j - 1, lo);
        assert s[..j][..j - 1] == s[..j - 1];
      }
    }
  }

  lemma NotAllSpace(s: string, i: nat)
    requires i < |s| && !IsSpace(s[i])
    ensures !AllSpace(s)
  {
  }

  /** Trimming twice is trimming once. */
  lemma TrimIdempotent(s: string)
    ensures Trim(Trim(s)) == Trim(s)
  {
    var r := Trim(s);
    if r != [] {
      TrimNoOuterSpace(r);
    }
  }


  function LowerChar(c: char): (d: char)
    ensures 'A' <= c <= 'Z' ==> d as int == c as int + 32
    ensures !('A' <= c <= 'Z') ==> d == c
  {
    if 'A' <= c <= 'Z' then (c as int + 32) as char else c
  }

  /** `String.prototype.toLowerCase`, restricted to ASCII letters. */
  function ToLower(s: string): (r: string)
    ensures |r| == |s|
    ensures forall i :: 0 <= i < |s| ==> r[i] == LowerChar(s[i])
    ensures forall i :: 0 <= i < |r| ==> !('A' <= r[i] <= 'Z')
  {
    seq(|s|, i requires 0 <= i < |s| => LowerChar(s[i]))
  }

  lemma ToLowerIdempotent(s: string)
    ensures ToLower(ToLower(s)) == ToLower(s)
  {
  }

  predicate StartsWith(s: string, p: string) {
    |p| <= |s| && s[..|p|] == p
  }

  /** A text that starts with `p` is `p` followed by the rest. */
  lemma PrefixRest(s: string, p: string)
    requires StartsWith(s, p)
    ensures s == p + s[|p|..]
  {
    assert s == s[..|p|] + s[|p|..];
  }

  predicate EndsWith(s: string, p: string) {
    |p| <= |s| && s[|s| - |p|..] == p
  }

  /** `sub` occurs in `s` at position `k`. */
  predicate OccursAt(s: string, sub: string, k: int) {
    0 <= k && k + |sub| <= |s| && s[k..k + |sub|] == sub
  }

  /** `String.prototype.includes`. */
  function Contains(s: string, sub: string): (b: bool)
    ensures b <==> exists k :: OccursAt(s, sub, k)
    decreases |s|
  {
    if StartsWith(s, sub) then
      assert OccursAt(s, sub, 0);
      true
    else if |s| == 0 then
      false
    else
      ShiftOccurs(s, sub);
      Contains(s[1..], sub)
  }

  /**
   * How a handler classifies the error message of a failed store call on
   * `table`: "table missing" when the message names the table and says it does
   * not exist, a plain store failure otherwise.
   */
  function ClassifyTableError(table: string, message: string): (e: Error)
    ensures e == TableMissing <==> Contains(message, table) && Contains(message, "does not exist")
    ensures e != TableMissing ==> e == StoreFailure
  {
    if Contains(message, table) && Contains(message, "does not exist") then TableMissing
    else StoreFailure
  }

  lemma ShiftOccurs(s: string, sub: string)
    requires |s| > 0 && !StartsWith(s, sub)
    ensures (exists k :: OccursAt(s, sub, k)) <==> (exists k :: OccursAt(s[1..], sub, k))
  {
    if k :| OccursAt(s, sub, k) {
      assert k != 0;
      assert s[1..][k - 1..k - 1 + |sub|] == s[k..k + |sub|];
      assert OccursAt(s[1..], sub, k - 1);
    }
    if k :| OccursAt(s[1..], sub, k) {
      assert s[1..][k..k + |sub|] == s[k + 1..k + 1 + |sub|];
      assert OccursAt(s, sub, k + 1);
    }
  }

  /** The index of the first occurrence of `c`, if any. */
  function IndexOf(s: string, c: char): (r: Option<nat>)
    ensures r.Some? ==> r.value < |s| && s[r.value] == c && c !in s[..r.value]
    ensures r.None? <==> c !in s
  {
    if c !in s then None
    else
      var i := IndexOf(s[..|s| - 1], c);
      if i.Some? then
        assert s[..i.value] == s[..|s| - 1][..i.value];
        i
      else Some(|s| - 1)
  }

  /** `s.lastIndexOf(c)`, absent for -1. */
  function LastIndexOf(s: string, c: char): (r: Option<nat>)
    ensures r.Some? ==> r.value < |s| && s[r.value] == c && c !in s[r.value + 1..]
    ensures r.None? <==> c !in s
  {
    if s == [] then None
    else if s[|s| - 1] == c then
      assert s[|s|..] == [];
      Some(|s| - 1)
    else
      var r := LastIndexOf(s[..|s| - 1], c);
      assert forall x :: x in s <==> x in s[..|s| - 1] || x == s[|s| - 1];
      if r.Some? then
        assert s[r.value + 1..] == s[..|s| - 1][r.value + 1..] + [s[|s| - 1]];
        r
      else r
  }

  /** `s.split(c)` for a one-character separator. */
  function Split(s: string, c: char): (parts: seq<string>)
    ensures |parts| >= 1
    ensures forall i :: 0 <= i < |parts| ==> c !in parts[i]
    decreases |s|
  {
    match IndexOf(s, c)
    case None => [s]
    case Some(k) => [s[..k]] + Split(s[k + 1..], c)
  }

  /** `parts.join(c)`. */
  function Join(parts: seq<string>, c: char): string
    requires |parts| >= 1
  {
    if |parts| == 1 then parts[0] else parts[0] + [c] + Join(parts[1..], c)
  }

  /** Splitting and joining on the same character gives back the text. */
  lemma {:induction false} JoinSplit(s: string, c: char)
    ensures Join(Split(s, c), c) == s
    decreases |s|
  {
    match IndexOf(s, c)
    case None =>
    case Some(k) =>
      var rest := Split(s[k + 1..], c);
      JoinSplit(s[k + 1..], c);
      assert Split(s, c) == [s[..k]] + rest;
      assert Join(Split(s, c), c) == s[..k] + [c] + Join(rest, c);
      assert s == s[..k] + [c] + s[k + 1..];
  }

  /** The first piece of a split is the text before the first separator. */
  lemma SplitHead(s: string, c: char)
    ensures var h := Split(s, c)[0];
      |h| <= |s| && s[..|h|] == h && c !in h && (|h| < |s| ==> s[|h|] == c)
      && (c !in s ==> h == s)
  {
  }

  /** A text without the separator splits into itself alone. */
  lemma SplitNone(s: string, c: char)
    requires c !in s
    ensures Split(s, c) == [s]
  {
  }

  /** Splitting at the first separator peels off the text before it. */
  lemma SplitAfter(a: string, b: string, c: char)
    requires c !in a
    ensures Split(a + [c] + b, c) == [a] + Split(b, c)
  {
    var s := a + [c] + b;
    assert s[|a|] == c;
    assert s[..|a|] == a;
    assert s[|a| + 1..] == b;
  }

  /** `email.split('@')[0]`: the local part of an e-mail address. */
  function LocalPart(email: string): (r: string)
    ensures |r| <= |email| && email[..|r|] == r && '@' !in r
    ensures '@' in email ==> email[|r|] == '@'
    ensures '@' !in email ==> r == email
  {
    SplitHead(email, '@');
    Split(email, '@')[0]
  }

  function DigitChar(d: nat): char
    requires d < 10
  {
    "0123456789"[d]
  }

  predicate IsDigit(c: char) {
    '0' <= c <= '9'
  }

  /** Decimal rendering of a natural number, without leading zeros. */
  function NatToString(n: nat): (r: string)
    ensures |r| >= 1
    ensures forall i :: 0 <= i < |r| ==> IsDigit(r[i])
    ensures |r| > 1 ==> r[0] != '0'
    decreases n
  {
    if n < 10 then [DigitChar(n)] else NatToString(n / 10) + [DigitChar(n % 10)]
  }

  /** The value of a decimal digit string. */
  function DigitsValue(s: string): nat
    requires forall i :: 0 <= i < |s| ==> IsDigit(s[i])
    decreases |s|
  {
    if s == [] then 0
    else
      var d := s[|s| - 1];
      assert IsDigit(d);
      10 * DigitsValue(s[..|s| - 1]) + (d as int - '0' as int)
  }

  /** Reading a rendered number gives back the number. */
  lemma {:induction false} NatToStringRoundTrip(n: nat)
    ensures DigitsValue(NatToString(n)) == n
    decreases n
  {
    if n >= 10 {
      NatToStringRoundTrip(n / 10);
      var r := NatToString(n);
      assert r[..|r| - 1] == NatToString(n / 10);
    }
  }

  /** `String(n)` for an integer. */
  function IntToString(n: int): (r: string)
    ensures |r| >= 1
    ensures n >= 0 ==> r == NatToString(n)
    ensures n < 0 ==> r == "-" + NatToString(-n)
  {
    if n >= 0 then NatToString(n) else "-" + NatToString(-n)
  }
}

=== FILE: users.dfy ===
/**
 * The user directory endpoint and the legacy public-profile endpoint: the
 * mode chosen from the query, the public profile looked up by id or by
 * name, the avatar upload branch, and the member list with or without the
 * caller.
 */
module Users {

  import opened Base
  import opened Text
  import opened Json
  import opened Directory
  import Avatar

  /** The query parameters the endpoint reads, each absent or a single string. */
  datatype Query = Query(
    profile: Option<string>,
    avatar: Option<string>,
    id: Option<string>,
    username: Option<string>,
    includeSelf: Option<string>)

  /** A query flag is on when it is '1' or 'true'. */
  predicate Flag(v: Option<string>) {
    v == Some("1") || v == Some("true")
  }

  predicate ProfileMode(q: Query) {
    Flag(q.profile) || Present(q.id) || Present(q.username)
  }

  predicate AvatarMode(q: Query) {
    Flag(q.avatar)
  }

  /** The public profile: the display name, and '' for a missing bio or avatar. */
  datatype PublicProfile = PublicProfile(id: Id, username: string, bio: string, avatarUrl: string)

  function PublicProfileOf(a: Account): (p: PublicProfile)
    ensures p.id == a.id && p.username != ""
    ensures LookupName(a) != "" ==> p.username == LookupName(a)
    ensures LookupName(a) == "" ==> p.username == "Membre"
    ensures p.bio == "" <==> !Present(a.meta.bio)
    ensures p.bio != "" ==> a.meta.bio == Some(p.bio)
    ensures p.avatarUrl == "" <==> !Present(a.meta.avatarUrl)
    ensures p.avatarUrl != "" ==> a.meta.avatarUrl == Some(p.avatarUrl)
  {
    DisplayNameFromLookupName(a);
    PublicProfile(a.id, DisplayName(a), OrElse(a.meta.bio, ""), OrElse(a.meta.avatarUrl, ""))
  }

  /** `String(username)`: an absent parameter becomes the text "undefined". */
  function JsString(v: Option<string>): string {
    match v
    case None => "undefined"
    case Some(s) => s
  }

  /**
   * The profile lookup as the directory endpoint writes it: by id when one
   * is given, otherwise by the name `String(username)`, even when the
   * profile flag alone put the request in profile mode.
   */
  function LookupAsWritten(dir: seq<Account>, id: Option<string>, username: Option<string>): (r: Result<Account>)
    ensures Present(id) ==> (r.Ok? <==> Known(dir, id.value))
    ensures !Present(id) ==> (r.Ok? <==> FindByName(dir, JsString(username)).Some?)
    ensures r.Err? ==> r.error == NotFound
  {
    if Present(id) then
      match FindById(dir, id.value)
      case None => Err(NotFound)
      case Some(a) => Ok(a)
    else
      match FindByName(dir, JsString(username))
      case None => Err(NotFound)
      case Some(i) => Ok(dir[i])
  }

  /**
   * The lookup both profile endpoints mean: neither an id nor a username is
   * a 400; an id takes precedence; a name matches case-insensitively the
   * first account whose lookup name equals it; no match is a 404.
   */
  function Lookup(dir: seq<Account>, id: Option<string>, username: Option<string>): (r: Result<Account>)
    ensures !Present(id) && !Present(username) ==> r == Err(MissingField)
    ensures Present(id) ==> (r.Ok? <==> Known(dir, id.value))
    ensures Present(id) && r.Ok? ==> r.value in dir && r.value.id == id.value
    ensures !Present(id) && Present(username) ==>
      (r.Ok? <==> exists a :: a in dir && NameMatches(a, username.value))
    ensures !Present(id) && Present(username) && r.Ok? ==>
      exists i :: 0 <= i < |dir| && dir[i] == r.value && NameMatches(dir[i], username.value)
        && forall j :: 0 <= j < i ==> !NameMatches(dir[j], username.value)
    ensures (Present(id) || Present(username)) && r.Err? ==> r.error == NotFound
  {
    if !Present(id) && !Present(username) then Err(MissingField)
    else if Present(id) then
      match FindById(dir, id.value)
      case None => Err(NotFound)
      case Some(a) => Ok(a)
    else
      match FindByName(dir, username.value)
      case None =>
        assert forall a :: a in dir ==> !NameMatches(a, username.value);
        Err(NotFound)
      case Some(i) => Ok(dir[i])
  }

  /** Outside the flag-only query the written lookup is the intended one. */
  lemma LookupAsWrittenAgrees(dir: seq<Account>, id: Option<string>, username: Option<string>)
    requires Present(id) || Present(username)
    ensures LookupAsWritten(dir, id, username) == Lookup(dir, id, username)
  {
  }

  /**
   * `?profile=1` alone: the written lookup searches for an account named
   * "undefined" and returns it; the intended lookup asks for an id or name.
   */
  lemma ProfileFlagAloneFindsUndefined()
    ensures var stray := Account("u1", None, Metadata(Some("Undefined"), None, None, None));
      && ProfileMode(Query(Some("1"), None, None, None, None))
      && LookupAsWritten([stray], None, None) == Ok(stray)
      && Lookup([stray], None, None) == Err(MissingField)
  {
    var stray := Account("u1", None, Metadata(Some("Undefined"), None, None, None));
    assert ToLower("Undefined") == "undefined";
    assert ToLower("undefined") == "undefined";
    assert NameMatches(stray, "undefined");
  }

  /** An entry of the member list. */
  datatype Entry = Entry(id: Id, email: Option<string>, username: string, bio: string, avatarUrl: string)

  function EntryOf(a: Account): (e: Entry)
    ensures e.id == a.id && e.email == a.email
    ensures var p := PublicProfileOf(a); e.username == p.username && e.bio == p.bio && e.avatarUrl == p.avatarUrl
  {
    var p := PublicProfileOf(a);
    Entry(a.id, a.email, p.username, p.bio, p.avatarUrl)
  }

  /** The member list: every account, in directory order, the caller's own only when `includeSelf`. */
  function ListUsers(dir: seq<Account>, caller: Id, includeSelf: bool): (r: seq<Entry>)
    ensures |r| <= |dir|
    ensures includeSelf ==> |r| == |dir|
    ensures forall e :: e in r <==> exists a :: a in dir && (includeSelf || a.id != caller) && e == EntryOf(a)
    ensures !includeSelf ==> forall i :: 0 <= i < |r| ==> r[i].id != caller
  {
    if dir == [] then []
    else
      var rest := ListUsers(dir[1..], caller, includeSelf);
      assert forall a :: a in dir <==> a == dir[0] || a in dir[1..];
      if includeSelf || dir[0].id != caller then [EntryOf(dir[0])] + rest else rest
  }

  /** The entries that are not the caller's. */
  function Others(entries: seq<Entry>, caller: Id): (r: seq<Entry>)
    ensures forall e :: e in r <==> e in entries && e.id != caller
  {
    if entries == [] then []
    else
      var rest := Others(entries[1..], caller);
      assert forall e :: e in entries <==> e == entries[0] || e in entries[1..];
      if entries[0].id != caller then [entries[0]] + rest else rest
  }

  /** `includeSelf` only adds the caller's own entries: removing them gives the default list. */
  lemma {:induction false} IncludeSelfOnlyAddsCaller(dir: seq<Account>, caller: Id)
    ensures Others(ListUsers(dir, caller, true), caller) == ListUsers(dir, caller, false)
  {
    if dir != [] {
      IncludeSelfOnlyAddsCaller(dir[1..], caller);
      var all := ListUsers(dir, caller, true);
      assert all == [EntryOf(dir[0])] + ListUsers(dir[1..], caller, true);
      assert all[1..] == ListUsers(dir[1..], caller, true);
    }
  }

  datatype Reply =
    | Preflight
    | Profile(profile: PublicProfile)
    | Uploaded(upload: Avatar.Upload)
    | Listed(users: seq<Entry>)

  /** The avatar upload's reply in this endpoint's terms. */
  function FromAvatar(r: Result<Avatar.Reply>): Result<Reply> {
    if r.Err? then Err(r.error)
    else if r.value.Uploaded? then Ok(Uploaded(r.value.upload))
    else Ok(Preflight)
  }

  /**
   * The directory endpoint: GET in profile mode is the public profile
   * (no credential needed); POST in avatar mode is the avatar upload; any
   * other non-GET is a 405; a plain GET lists the members for a caller with
   * an account.
   */
  function UsersEndpoint(verb: Method, q: Query, caller: Option<Id>, dir: seq<Account>,
                         body: Value, decodedLength: nat, now: nat, uploadFails: bool)
    : (r: Result<Reply>)
    ensures verb == Options ==> r == Ok(Preflight)
    ensures verb == Get && ProfileMode(q) ==>
      r == match Lookup(dir, q.id, q.username)
           case Ok(a) => Ok(Profile(PublicProfileOf(a)))
           case Err(e) => Err(e)
    ensures verb == Post && AvatarMode(q) ==>
      r == FromAvatar(Avatar.AvatarEndpoint(Post, caller, body, decodedLength, now, uploadFails))
    ensures verb != Options && verb != Get && !(verb == Post && AvatarMode(q)) ==> r == Err(MethodNotAllowed)
    ensures verb == Get && !ProfileMode(q) && !Present(caller) ==> r == Err(NotAuthenticated)
    ensures verb == Get && !ProfileMode(q) && Present(caller) && !Known(dir, caller.value) ==> r == Err(CallerUnknown)
    ensures verb == Get && !ProfileMode(q) && r.Ok? ==>
      r.value == Listed(ListUsers(dir, caller.value, Flag(q.includeSelf)))
  {
    if verb == Options then Ok(Preflight)
    else if verb == Get && ProfileMode(q) then
      var a :- Lookup(dir, q.id, q.username);
      Ok(Profile(PublicProfileOf(a)))
    else if verb == Post && AvatarMode(q) then
      if !Present(caller) then Err(NotAuthenticated)
      else
        var u :- Avatar.Prepare(caller.value, Field(body, "dataUrl"), Field(body, "fileName"), decodedLength, now, uploadFails);
        Ok(Uploaded(u))
    else if verb != Get then Err(MethodNotAllowed)
    else if !Present(caller) then Err(NotAuthenticated)
    else if !Known(dir, caller.value) then Err(CallerUnknown)
    else Ok(Listed(ListUsers(dir, caller.value, Flag(q.includeSelf))))
  }

  /** The legacy public profile: GET only, the same lookup and the same fallbacks. */
  function LegacyProfileEndpoint(verb: Method, id: Option<string>, username: Option<string>, dir: seq<Account>)
    : (r: Result<Reply>)
    ensures verb == Options ==> r == Ok(Preflight)
    ensures verb !in {Options, Get} ==> r == Err(MethodNotAllowed)
    ensures verb == Get && !Present(id) && !Present(username) ==> r == Err(MissingField)
    ensures verb == Get && r.Ok? ==>
      r.value.Profile? && (Present(id) ==> r.value.profile.id == id.value)
  {
    if verb == Options then Ok(Preflight)
    else if verb != Get then Err(MethodNotAllowed)
    else
      var a :- Lookup(dir, id, username);
      Ok(Profile(PublicProfileOf(a)))
  }

  /** A profile query answers the same through either endpoint. */
  lemma ProfileEndpointsAgree(q: Query, caller: Option<Id>, dir: seq<Account>, body: Value,
                              decodedLength: nat, now: nat, uploadFails: bool)
    requires Present(q.id) || Present(q.username)
    ensures UsersEndpoint(Get, q, caller, dir, body, decodedLength, now, uploadFails)
         == LegacyProfileEndpoint(Get, q.id, q.username, dir)
  {
  }

  /** In avatar mode the directory endpoint applies the avatar endpoint's rules unchanged. */
  lemma AvatarBranchAgrees(q: Query, caller: Option<Id>, dir: seq<Account>, body: Value,
                           decodedLength: nat, now: nat, uploadFails: bool)
    requires AvatarMode(q)
    ensures UsersEndpoint(Post, q, caller, dir, body, decodedLength, now, uploadFails)
         == FromAvatar(Avatar.AvatarEndpoint(Post, caller, body, decodedLength, now, uploadFails))
  {
  }
}
